=== FILE: README.md ===
# custom-image-forge, modelled in Dafny

custom-image-forge lets an agency set up branded image templates for its clients. An
administrator logs in and creates a client: a name, a url slug, an optional password,
a frame image, and a list of *text points*. A text point is a named field placed at
a percentage position, with a font, a size, a style list and a colour. The client's
public page is reached by the slug and, when the client has a password, unlocked
by it. There a visitor uploads a photo, pans and zooms it under the frame, and types
one text per text point. The page draws everything on a 1000 x 1000 canvas.

The back end consists of four PHP endpoints over MySQL:
- `clients.php`: client CRUD, dispatched on the HTTP method.
- `textpoints.php`: text point add, update and delete, dispatched on an `action` query key.
- `check_client.php`: the public lookup by url.
- `check_database.php`: a schema report.

The front end is React. Its pieces:
- a client store (`ClientContext`) that calls the endpoints and keeps a local list;
- the admin session (`AuthContext`);
- the admin form and configuration page;
- the public preview page;
- the canvas compositor (`ImageCanvas`).

The model is organised as follows:

* `wrappers.dfy`, `seqs.dfy`, `text.dfy`: the `Option` type, filtering and searching
  of sequences, and JavaScript's `trim` and decimal rendering.
* `php.dfy`: the PHP built-ins the endpoints rely on. It covers:
  - `isset` versus `array_key_exists` on a decoded JSON body;
  - prepared statements, with their placeholders and `bind_param` types;
  - `empty`, `implode` and `explode`;
  - `json_encode`/`json_decode` of a list of style names.
* `textpoints_api.dfy`, `clients_api.dfy`, `check_client_api.dfy`,
  `check_database_api.dfy`: one module per endpoint.
  - The request is a value, and so is the database's content.
  - Each endpoint is a function from request and database to the response and the list of statements it sends.
  - Each also has a method that follows the PHP code's statement order and loops, proved equal to that function.
* `client_types.dfy`, `client_context.dfy`, `client_requests.dfy`: the front end's records.
  - The client store is a class whose methods update `clients`, `loading` and `error` as the React state does.
  - The requests the store sends are fed through the `clients.php` model.
* `auth_context.dfy`, `client_form.dfy`, `client_config.dfy`, `client_preview.dfy`:
  the session provider and the three pages. Each is a class over its component state, with one method per named handler, and one for the inline delete button of a listed point.
* `image_canvas.dfy`, `image_draw.dfy`: the compositor.
  - The viewport transform and the gesture handlers are a class, `ImageCanvas.Viewport`.
  - One draw pass is the list of 2D-context commands it issues. A `CanvasDraw.Surface` class appends that list to a log.

## Model

| member | source | states |
|---|---|---|
| TextPointsApi.AddRow | public/api/textpoints.php:35-47 | the stored row takes name, x and y from the body. The id is the body's or `uniqid()`'s. Family, size and colour are the body's when set and Arial, 12 and #000000 otherwise. The style is the JSON encoding of the given list or of [] |
| TextPointsApi.InsertStatement | public/api/textpoints.php:49-53 | the INSERT binds one value per placeholder and per type character |
| TextPointsApi.Echo | public/api/textpoints.php:59-68 | the echoed point carries each stored value: id, name, x, y, family, size and colour, with the style decoded back into a list |
| TextPointsApi.AddEchoesStoredRow | public/api/textpoints.php:53-68 | a successful add echoes exactly the values it bound into the INSERT, with the client id second |
| TextPointsApi.AddEchoesGivenStyle | public/api/textpoints.php:46-66 | encode then decode: the echo returns exactly the style list that was sent, or [] when none was |
| TextPointsApi.ColumnName | public/api/textpoints.php:92-132 | no column name contains a placeholder |
| TextPointsApi.SetColumns | public/api/textpoints.php:92-132 | the updated columns are exactly the fields set in the body, in the code's fixed order |
| TextPointsApi.SetAmongFilters | public/api/textpoints.php:92-132 | the chain of `isset` tests up to a column collects the set columns before it |
| TextPointsApi.AppendIfSet | public/api/textpoints.php:92-96 | one `if (isset(...))` block adds an assignment, a value and a type exactly when its field is set |
| TextPointsApi.BuildUpdate | public/api/textpoints.php:88-132 | the loop's fields, params and types are the assignments, values and types of the set columns |
| TextPointsApi.UpdateWellBound | public/api/textpoints.php:139-145 | the UPDATE with its trailing id and client id binds one value per placeholder |
| TextPointsApi.UpdateParamsTyped | public/api/textpoints.php:92-142 | each bound value matches its type character: d for x/y, i for the size, s otherwise |
| TextPointsApi.SetColumnsOrdered | public/api/textpoints.php:134-137 | the set columns have no duplicates and are empty exactly when no field is set, the "No fields to update" case |
| TextPointsApi.DeleteStatement | public/api/textpoints.php:165-167 | the DELETE binds the point id and then the client id, both as strings |
| TextPointsApi.Respond | public/api/textpoints.php:20-183 | "add", "update" and "delete" are answered by `RespondAdd`, `RespondUpdate` and `RespondDelete`; any other action, or none, gets 500 "Invalid action" with nothing sent. Success iff status 200. Failures are 500 without a point. A sent statement is well bound and succeeds iff executed |
| TextPointsApi.RespondAdd | public/api/textpoints.php:24-73 | 500 "Missing required fields (clientId, textPoint)" or "Missing required text point fields (name, x, y)" with nothing sent, in that order. Otherwise the INSERT of the request's row for that client; the answer follows its execution, and a success echoes that row |
| TextPointsApi.RespondUpdate | public/api/textpoints.php:75-152 | 500 "Missing required fields (clientId, textPoint with id)" with nothing sent; a 200 "No fields to update" when no field is set; otherwise the UPDATE of exactly the set columns with the point id and client id, succeeding iff executed |
| TextPointsApi.RespondDelete | public/api/textpoints.php:154-174 | 500 "Missing required fields (clientId, textPointId)" with nothing sent; otherwise the DELETE of that point of that client, succeeding iff executed |
| TextPointsApi.UpdateSendsSetFields | public/api/textpoints.php:92-142 | the UPDATE an update sends binds the set fields in the fixed order, each with its own type character, then the point id and the client id |
| TextPointsApi.DeleteSendsIds | public/api/textpoints.php:154-174 | the DELETE a delete sends binds the point id, then the client id, as strings; two deletes send the same statement iff they name the same point of the same client |
| TextPointsApi.Handle | public/api/textpoints.php:20-183 | the switch on the action equals `Respond` |
| TextPointsApi.HandleAdd | public/api/textpoints.php:24-73 | equals `RespondAdd` |
| TextPointsApi.HandleUpdate | public/api/textpoints.php:75-152 | equals `RespondUpdate` |
| TextPointsApi.HandleDelete | public/api/textpoints.php:154-174 | equals `RespondDelete` |
| ClientsApi.RealEscape | public/api/clients.php:31 | escaping never shortens the id, and leaves it unchanged iff it has no character to escape |
| ClientsApi.Single | public/api/clients.php:37-38 | a row is answered iff exactly one row matches, and it is that row |
| ClientsApi.SingleFindsUnique | public/api/clients.php:37-38 | a unique matching row is the one found |
| ClientsApi.SingleRejectsTwo | public/api/clients.php:91-92 | two matching rows give no row |
| ClientsApi.PointRowsOf | public/api/clients.php:41-47 | the selected point rows are exactly the stored rows with that client id |
| ClientsApi.PointJsonAsWritten | public/api/clients.php:48-57 | as written, every listed point has x = y = 0 and otherwise the intended fields |
| ClientsApi.PointJsons | public/api/clients.php:47-58 | one JSON point per row |
| ClientsApi.ListPoints | public/api/clients.php:47-58 | the `while (fetch_assoc)` loop builds `PointJsons` |
| ClientsApi.AllClients | public/api/clients.php:137-173 | the listing has one entry per client row |
| ClientsApi.ListClients | public/api/clients.php:142-176 | the nested loops build `AllClients` |
| ClientsApi.ListingGroupsPointsByClient | public/api/clients.php:142-173 | each listed client has its own id. It lists every stored point of that id, and only such points |
| ClientsApi.RespondGet | public/api/clients.php:28-185 | GET always answers 200. A lookup by id (or else by url) succeeds iff exactly one client matches, and its payload is that client with its own points; otherwise "Client not found". Without id and url it lists all clients |
| ClientsApi.SharedUrlNotFound | public/api/clients.php:83-131 | two clients with one url make the url lookup answer "Client not found" |
| ClientsApi.LookupByIdFinds | public/api/clients.php:29-75 | a client with a unique, unescaped id is found by id with its listing |
| ClientsApi.LookupByUrlFinds | public/api/clients.php:83-131 | a client with a unique, unescaped url is found by url with its listing |
| ClientsApi.LookupIsListed | public/api/clients.php:28-185 | a successful lookup answers one of the clients the listing shows |
| ClientsApi.HandleGet | public/api/clients.php:28-185 | equals `RespondGet` |
| ClientsApi.PointInsertArgs | public/api/clients.php:231-241 | the point INSERT's arguments as written: eight variables, then `$point['color'] ?? null`, a temporary; their values are `PointInsert`'s |
| ClientsApi.PointInsertThrows | public/api/clients.php:231-241 | as written, `bind_param` refuses the point INSERT's argument #10 |
| ClientsApi.PointInsertFromVariables | public/api/clients.php:231-241 | with every value first copied into a variable, `bind_param` binds `PointInsert` |
| ClientsApi.PointInsert | public/api/clients.php:367-390 | corrected binding: the point INSERT is well bound, with nine values, point id first and client id second |
| ClientsApi.InsertColumnsPlain | public/api/textpoints.php:49 | the nine text_points columns contain no placeholder |
| ClientsApi.PointInserts | public/api/clients.php:221-245 | corrected binding: one well-bound INSERT per point, each with its id and the client's id |
| ClientsApi.InsertPoints | public/api/clients.php:221-245 | corrected binding: the `foreach` builds `PointInserts` |
| ClientsApi.StoredPointReadsBack | public/api/clients.php:226-241 | a point stored by an INSERT lists back with its id, name, x, y and style list |
| ClientsApi.ListingAsWrittenLosesPosition | public/api/clients.php:51-52 | a point stored at (40, 75.5) lists at x = 0 as written and at x = 40 as intended |
| ClientsApi.PointColumnsAgainstSchema | public/api/clients.php:226 | as written the point INSERT names `x`, which the table lacks |
| ClientsApi.InsertColumnsMatchSchema | public/api/init.php:30-42 | the corrected point columns all exist in the table, with the position in `x_position` and `y_position` |
| ClientsApi.ClientInsertArgs | public/api/clients.php:206-216 | the client INSERT's arguments as written: `$id`, name and url are variables; company name, frame, footer, logo and password are `?? null` temporaries; their values are `ClientInsert`'s |
| ClientsApi.ClientInsertThrows | public/api/clients.php:206-216 | as written, `bind_param` refuses the client INSERT's argument #4 |
| ClientsApi.ClientInsertFromVariables | public/api/clients.php:206-216 | with every value first copied into a variable, `bind_param` binds `ClientInsert` |
| ClientsApi.ClientInsert | public/api/clients.php:205-216 | corrected binding: the client INSERT is well bound, with eight values: the fresh id, the name and the url in their places |
| ClientsApi.FreshIds | public/api/clients.php:222 | one `uniqid()` per point |
| ClientsApi.RespondPost | public/api/clients.php:187-269 | corrected binding: 400 iff the body lacks name or url. Success iff accepted and executed. The client INSERT comes first, then the point inserts. The echo carries the fresh id. A 500 sends only the client INSERT |
| ClientsApi.RespondPostAsWritten | public/api/clients.php:187-216 | as written, a refused POST is answered as `RespondPost` answers it; an accepted one dies at argument #4 of the client INSERT's `bind_param`, having sent nothing |
| ClientsApi.HandlePost | public/api/clients.php:187-269 | corrected binding: equals `RespondPost` |
| ClientsApi.ColumnName | public/api/clients.php:300-340 | no client column name contains a placeholder |
| ClientsApi.SetColumns | public/api/clients.php:300-340 | the updated columns are exactly the present fields (`isset` for name and url, `array_key_exists` for the others), in the code's order |
| ClientsApi.SetAmongFilters | public/api/clients.php:300-340 | the chain of tests up to a column collects the present columns before it |
| ClientsApi.AppendIfPresent | public/api/clients.php:306-310 | one block adds an assignment and a value exactly when its field is present |
| ClientsApi.BuildUpdate | public/api/clients.php:296-340 | the loop's fields, params and types are those of the present columns |
| ClientsApi.UpdateWellBound | public/api/clients.php:348-353 | the UPDATE with its trailing id binds one value per placeholder |
| ClientsApi.SetColumnsPresent | public/api/clients.php:300-346 | no duplicates. A null name is not updated, but a null companyName is written as NULL. The set is empty iff no field is present |
| ClientsApi.DeletePoints | public/api/clients.php:361-363 | the points DELETE binds the client id |
| ClientsApi.DeleteClient | public/api/clients.php:421-422 | the client DELETE binds the id |
| ClientsApi.Replacement | public/api/clients.php:359-392 | corrected binding: every statement of the points replacement is well bound |
| ClientsApi.PutUpdate | public/api/clients.php:348-353 | the PUT's UPDATE is well bound |
| ClientsApi.PutStatements | public/api/clients.php:348-392 | the UPDATE comes first, then the points replacement |
| ClientsApi.RespondPut | public/api/clients.php:271-403 | corrected binding: 400 "Invalid input data or missing client ID" without a body or id; 404 "Client not found" for an unknown id; 400 "No fields to update" when no field is present, with nothing sent; otherwise the UPDATE and the points replacement, success iff the UPDATE executed, else 500 |
| ClientsApi.RespondPutAsWritten | public/api/clients.php:271-392 | as written, a PUT that re-inserts points (stored client, some field present, a non-empty point list) dies at argument #10 of the first point's `bind_param`, after the UPDATE and the points DELETE; any other PUT is answered as `RespondPut` answers it |
| ClientsApi.PutDiesAfterDeleting | public/api/clients.php:348-392 | the statements sent before that death are a proper prefix of the corrected PUT's: its UPDATE and its points DELETE, while the corrected PUT also re-inserts every point |
| ClientsApi.HandlePut | public/api/clients.php:271-403 | corrected binding: equals `RespondPut`; 400 and nothing sent without a body or id, 404 and nothing sent for an unknown id |
| ClientsApi.PointsAloneAreNotSaved | public/api/clients.php:342-346 | a PUT carrying only id and textPoints is refused with 400 "No fields to update", and nothing is sent |
| ClientsApi.NoColumnsSet | public/api/clients.php:300-346 | a body with name and url unset and every other column key absent sets no column |
| ClientsApi.ReplacementKeepsIds | public/api/clients.php:361-368 | corrected binding: the replacement deletes the points first. Each point is reinserted under its own id, or under a fresh one when it has none |
| ClientsApi.RespondDelete | public/api/clients.php:405-434 | 400 iff no id. Otherwise the points DELETE, then the client DELETE; success iff executed |
| ClientsApi.HandleDelete | public/api/clients.php:405-434 | equals `RespondDelete` |
| ClientsApi.Respond | public/api/clients.php:19-438 | corrected binding: 405 iff the method is not one of GET/POST/PUT/DELETE. GET sends nothing, and every statement sent is well bound |
| ClientsApi.RespondStatuses | public/api/clients.php:19-438 | success only with 200; the status is one of 200, 400, 404, 405, 500; a 400, 404 or 405 refusal sends nothing |
| ClientsApi.RespondAsWritten | public/api/clients.php:19-438 | as written, the request dies iff it is an accepted POST or a PUT that re-inserts points; every other request is answered as `Respond` answers it |
| ClientsApi.Handle | public/api/clients.php:28-438 | corrected binding: the method chain equals `Respond` |
| CheckClientApi.SelectedColumnsAgainstSchema | public/api/check_client.php:57-61 | as written the SELECT names `x`, which text_points lacks |
| CheckClientApi.SelectedColumnsMatchSchema | public/api/init.php:30-42 | the corrected SELECT names existing columns only, reading the position from `x_position` and `y_position` |
| CheckClientApi.ClientUrl | public/api/check_client.php:18-25 | the url comes from the JSON body for POST and from the query otherwise, "" when unset |
| CheckClientApi.StyleAsWritten | public/api/check_client.php:71 | as written: [] iff the column is falsy, otherwise pieces that re-join to the column |
| CheckClientApi.Style | public/api/check_client.php:71 | intended: [] when falsy, otherwise the decoded JSON list |
| CheckClientApi.StoredStyleReadsBack | public/api/check_client.php:71 | any style list stored by either endpoint reads back as itself, whatever characters its names hold |
| CheckClientApi.StyleAsWrittenBreaks | public/api/check_client.php:71 | as written, a stored ["bold"] reads back as the single name `["bold"]`; the intended reading gives ["bold"] |
| CheckClientApi.EmptyStyleAsWrittenBreaks | public/api/check_client.php:71 | as written, a stored empty list reads back as the one style `[]` |
| CheckClientApi.PointOf | public/api/check_client.php:74-76 | float/int casts, a NULL size read as 0, and the decoded style |
| CheckClientApi.PointsOf | public/api/check_client.php:68-79 | one listed point per row |
| CheckClientApi.CollectPoints | public/api/check_client.php:68-79 | the `while` loop builds `PointsOf` |
| CheckClientApi.HasPassword | public/api/check_client.php:93 | `!empty(password)`: set, not "" and not "0" |
| CheckClientApi.Respond | public/api/check_client.php:16-104 | 500 "Client URL is required" iff the url is `empty`. A url no client has gets 200 with success false and "Cliente não encontrado". Success iff some client has the url, and the answer is the first such client with its own points. Statuses are 200 and 500 only |
| CheckClientApi.RespondAsWritten | public/api/check_client.php:16-104 | as written, no lookup succeeds: one that finds its client fails on the points query and is answered 500 with the server's message; the others are answered as `Respond` answers them |
| CheckClientApi.Handle | public/api/check_client.php:16-104 | equals `Respond` |
| CheckClientApi.SharedUrlLookupsDisagree | public/api/check_client.php:48 | with two clients on one url, this lookup answers the first one while clients.php answers "not found" |
| CheckDatabaseApi.Fields | public/api/check_database.php:59-71 | the column names in the server's order |
| CheckDatabaseApi.Absent | public/api/check_database.php:74-85 | contains exactly the entries of the first list missing from the second, in order |
| CheckDatabaseApi.CollectAbsent | public/api/check_database.php:74-85 | the `foreach`/`in_array` loop builds `Absent` |
| CheckDatabaseApi.TableReportOf | public/api/check_database.php:42-86 | present iff the table exists. A missing table reports nothing. A present one lists its columns, the expected columns absent from them as missing, and its columns absent from the expected ones as extra |
| CheckDatabaseApi.CheckTable | public/api/check_database.php:42-86 | the loop body builds `TableReportOf` |
| CheckDatabaseApi.ReportOf | public/api/check_database.php:8-96 | on error, "Database check failed: " plus the message. Otherwise the three tables in order, each present iff it exists, each reported by `TableReportOf` on the columns the server lists for it |
| CheckDatabaseApi.TableReports | public/api/check_database.php:41-89 | one report per expected table, in order, each that table's `TableReportOf` |
| CheckDatabaseApi.Check | public/api/check_database.php:41-96 | the loop over tables builds `ReportOf` |
| CheckDatabaseApi.MatchesIffNothingReported | public/api/check_database.php:74-85 | nothing missing and nothing extra iff the columns equal the expected ones as sets; no column is both |
| ClientTypes.WithId | src/contexts/ClientContext.tsx:252 | `{ ...textPoint, id }` keeps every field and sets the id |
| ClientTypes.PatchPoint | src/contexts/ClientContext.tsx:317 | `{ ...point, ...updates }` keeps the id; each other field takes the patch's value when given and keeps the point's otherwise; an empty patch is the identity |
| ClientTypes.PatchClient | src/contexts/ClientContext.tsx:170 | `{ ...client, ...updates }` keeps the id; each other field, points included, takes the patch's value when given (a given null included) and keeps the client's otherwise |
| ClientContext.MapClients | src/contexts/ClientContext.tsx:188-190 | `map` replaces exactly the clients with the id |
| ClientContext.MapPoints | src/contexts/ClientContext.tsx:339-341 | `map` replaces exactly the points with the id |
| ClientContext.MapClientsNoMatch | src/contexts/ClientContext.tsx:199-201 | mapping over an absent id changes nothing |
| ClientContext.MapPointsNoMatch | src/contexts/ClientContext.tsx:358-360 | mapping over an absent point id changes nothing |
| ClientContext.FindClient | src/contexts/ClientContext.tsx:165-167 | `find` gives a client with the id, or none iff no client has it |
| ClientContext.FindPoint | src/contexts/ClientContext.tsx:312-315 | `find` gives a point with the id, or none iff no point has it |
| ClientContext.ClientWithUrl | src/contexts/ClientContext.tsx:243-245 | `getClientByUrl` gives a client with the url, or none iff no client has it |
| ClientContext.NewClient | src/contexts/ClientContext.tsx:116-120 | the new client copies the draft, takes the id and has no points |
| ClientContext.RemoveClient | src/contexts/ClientContext.tsx:228 | `filter` drops every client with the id and keeps the others in order |
| ClientContext.AddPointAppendsOne | src/contexts/ClientContext.tsx:270-278 | adding appends exactly the one point to the matching client; the others are untouched |
| ClientContext.UpdatePointTouchesOnlyThatPoint | src/contexts/ClientContext.tsx:335-345 | only points with the id change, in place; other clients are untouched |
| ClientContext.UpdatePointPathsAgree | src/contexts/ClientContext.tsx:335-364 | with unique point ids, the success path's map equals the fallback's |
| ClientContext.UpdateClientPathsAgree | src/contexts/ClientContext.tsx:188-201 | with unique client ids, the success path's map equals the fallback's |
| ClientContext.DeletePointTouchesOnlyThatPoint | src/contexts/ClientContext.tsx:391-399 | removing drops every point with the id and keeps the others in order |
| ClientContext.Reason | src/contexts/ClientContext.tsx:130-143 | the thrown message: the server's message when non-empty, else the default. An HTTP error gives "HTTP error! Status: " and the status |
| ClientContext.ClientStore.constructor | src/contexts/ClientContext.tsx:54-57 | empty list, not loading, no error |
| ClientContext.ClientStore.AddClient | src/contexts/ClientContext.tsx:111-157 | on success, the echo or the local record is appended. On failure, a local record with a second id is appended, and the error is set |
| ClientContext.ClientStore.UpdateClient | src/contexts/ClientContext.tsx:160-205 | if found and the request succeeds, the merged record replaces the client. Otherwise the fallback merge applies, and the error reads "Client not found" or the reason |
| ClientContext.ClientStore.DeleteClient | src/contexts/ClientContext.tsx:207-241 | the same filter either way; the error is set iff the request failed |
| ClientContext.ClientStore.AddTextPoint | src/contexts/ClientContext.tsx:247-300 | on success, the echo or the local point is appended. On failure, a local point with a second id is appended, and the error is set |
| ClientContext.ClientStore.UpdateTextPoint | src/contexts/ClientContext.tsx:302-368 | if found and the request succeeds, the merged point is written. Otherwise the fallback merge applies, and the error reads client or point not found, or the reason |
| ClientContext.ClientStore.DeleteTextPoint | src/contexts/ClientContext.tsx:370-420 | the same filter either way; the error is set iff the request failed |
| ClientContext.UnknownPointUpdateChangesNothing | src/contexts/ClientContext.tsx:354-364 | the fallback for an unknown client or point leaves the list unchanged |
| ClientRequests.KeyOf | src/contexts/ClientContext.tsx:177 | `JSON.stringify` drops an undefined key and keeps a defined one |
| ClientRequests.PointBodyOf | src/contexts/ClientContext.tsx:177 | a serialised point carries every field the endpoints require |
| ClientRequests.BodyOf | src/contexts/ClientContext.tsx:15-25 | a serialised client carries id, name, url and all its points. A null frame, footer or logo is written as `null`, keeping its key; an absent companyName or password drops its key |
| ClientRequests.ReplyOf | src/contexts/ClientContext.tsx:180-193 | a non-2xx status is an HTTP error; otherwise `success` decides |
| ClientRequests.RunReplyOf | src/contexts/ClientContext.tsx:130-146 | an answered request is read as `ReplyOf` reads it. A request that died is neither a success, a refusal nor an HTTP error: the error page comes with status 200 (`display_errors` is on), `response.json()` throws, and the store reports the parse error |
| ClientRequests.AddDiesAsWritten | src/contexts/ClientContext.tsx:122-146 | as written, adding a client dies in clients.php before anything is stored; the error page cannot be read as JSON, so the store's error is the parse error |
| ClientRequests.AddStoresUnderFreshId | src/contexts/ClientContext.tsx:122-127 | with the endpoint's binding corrected, the added client is stored and echoed under the endpoint's `uniqid()`, not the store's id |
| ClientRequests.UpdateAsWrittenTakesPost | src/contexts/ClientContext.tsx:172-177 | as written, an update reaches clients.php as a POST, which dies before changing anything, and the store's error is the parse error; once that endpoint's binding is corrected, the same POST inserts a second client under a fresh id and the store sees success |
| ClientRequests.DeleteAsWrittenRefused | src/contexts/ClientContext.tsx:212-217 | as written, a delete is refused with 400 "Name and URL are required", nothing is sent, and the store sees HTTP 400 |
| ClientRequests.UpdateRequestLosesPoints | public/api/clients.php:348-392 | as written, even a PUT update of a stored client with text points sends the UPDATE and the points DELETE and then dies: the points are lost and the store's error is the parse error |
| ClientRequests.UpdateRequestUpdates | public/api/clients.php:271-403 | with the endpoint's binding corrected, a PUT update of a stored client issues its UPDATE first; success iff executed |
| ClientRequests.UpdateRequestColumns | public/api/clients.php:300-340 | an update request always sets name, url, frame, footer and logo |
| ClientRequests.UpdateRequestOptionalColumns | public/api/clients.php:300-340 | it sets companyName and password iff the client has them |
| ClientRequests.UpdateRequestClears | public/api/clients.php:318-334 | a client without frame, footer or logo has that column written as NULL |
| ClientRequests.DeleteRequestDeletes | public/api/clients.php:405-434 | sent as a DELETE, the endpoint as written answers without dying, and deletes the points and then the client; success iff executed |
| AuthContext.EscapeChar | src/contexts/AuthContext.tsx:70 | `JSON.stringify` writes a printable character other than a quote or a backslash as itself, and escapes every other one with printable characters only |
| AuthContext.EscapeJson | src/contexts/AuthContext.tsx:70 | an escaped string is no shorter and holds no character below U+0020 |
| AuthContext.UnescapeEscapeChar | src/contexts/AuthContext.tsx:70 | reading back one escaped character gives that character ahead of the rest |
| AuthContext.UnescapeEscapeJson | src/contexts/AuthContext.tsx:25-30 | `JSON.parse` reads back every string `JSON.stringify` escaped |
| AuthContext.ReadEscapedString | src/contexts/AuthContext.tsx:25-30 | a JSON string reader reads back every escaped string, stopping at its closing quote |
| AuthContext.ReadUserStringify | src/contexts/AuthContext.tsx:25-30 | a reference reader for the stored record reads back the user it was written from |
| AuthContext.Stringify | src/contexts/AuthContext.tsx:70 | the stored record is a JSON object, its fields in the order id, username, isAdmin |
| AuthContext.StoredRecordIsNotNull | src/contexts/AuthContext.tsx:70 | a stored login record is never "null" nor empty |
| AuthContext.SessionUser | src/contexts/AuthContext.tsx:36-50 | a user iff the flag is "true" and a username is stored. That user is an admin with that name and a "session-" id |
| AuthContext.StartupAsWritten | src/contexts/AuthContext.tsx:23-52 | as written the startup effect never touches session storage |
| AuthContext.StoredNullAuthenticatesWithoutUser | src/contexts/AuthContext.tsx:28-30 | as written, a stored "null" authenticates without a user |
| AuthContext.Startup | src/contexts/AuthContext.tsx:23-52 | authenticated iff a user is set. A readable record is the user. Anything else is dropped. Without a record, the session fallback applies |
| AuthContext.StartupAgreesExceptOnNull | src/contexts/AuthContext.tsx:23-52 | the corrected startup equals the code except on a stored `null` |
| AuthContext.AuthProvider.constructor | src/contexts/AuthContext.tsx:19-52 | the provider's state is the startup effect's |
| AuthContext.AuthProvider.Login | src/contexts/AuthContext.tsx:54-85 | true iff accepted. On acceptance, the record, flag and username are stored and the user is set. Otherwise nothing changes |
| AuthContext.AuthProvider.Logout | src/contexts/AuthContext.tsx:87-93 | the three keys are removed and the provider is logged out |
| AuthContext.LoginSurvivesReload | src/contexts/AuthContext.tsx:25-30 | after a login, a reload restores the same user, for any `JSON.parse` that agrees with the reference record reader |
| AuthContext.LogoutSurvivesReload | src/contexts/AuthContext.tsx:36-50 | after a logout, a reload stays logged out |
| ClientForm.SlugIsNotBlank | src/components/admin/ClientForm.tsx:52-55 | a url matching the pattern is never blank |
| ClientForm.TakenByOther | src/components/admin/ClientForm.tsx:60-62 | taken iff a client with another id has the url |
| ClientForm.Validate | src/components/admin/ClientForm.tsx:43-71 | valid iff both errors are empty. The name error iff blank. For the url, the first of required, malformed, taken |
| ClientForm.EditedClientKeepsItsUrl | src/components/admin/ClientForm.tsx:60-62 | an edited client may keep its own url |
| ClientForm.CreateRefusesUsedUrl | src/components/admin/ClientForm.tsx:59-66 | a new client may not take a used url |
| ClientForm.FormPage.constructor | src/components/admin/ClientForm.tsx:18-26 | empty form and errors |
| ClientForm.FormPage.Load | src/components/admin/ClientForm.tsx:29-41 | editing loads the client's name and url; an unknown id leaves |
| ClientForm.FormPage.Change | src/components/admin/ClientForm.tsx:103-110 | only the edited field changes, and only its error is cleared |
| ClientForm.FormPage.Submit | src/components/admin/ClientForm.tsx:73-101 | errors come from the validation. Valid iff a call is made and the page leaves. The call is an update of name and url, or a create with no images and no points |
| ClientConfig.Clamp | src/components/admin/ClientConfig.tsx:164-173 | NaN reads as 0 and the value is clamped into [0, 100] |
| ClientConfig.ClampNearest | src/components/admin/ClientConfig.tsx:164-173 | the clamped value is the point of [0, 100] nearest to the input, and clamping is monotone |
| ClientConfig.Percent | src/components/admin/ClientConfig.tsx:100-102 | a mouse position inside the canvas gives a percentage in [0, 100]; one left of it gives a negative one |
| ClientConfig.PercentOfSpot | src/components/admin/ClientConfig.tsx:100-102 | the mouse over the spot r percent along the canvas reads back as r |
| ClientConfig.WithStyle | src/components/admin/ClientConfig.tsx:186-205 | checking adds the style once, at the end, and keeps the list duplicate-free |
| ClientConfig.WithoutStyle | src/components/admin/ClientConfig.tsx:186-205 | unchecking removes every occurrence and keeps the rest in order |
| ClientConfig.ToggleIdempotent | src/components/admin/ClientConfig.tsx:186-221 | toggling twice the same way equals toggling once |
| ClientConfig.CheckThenUncheck | src/components/admin/ClientConfig.tsx:186-221 | checking then unchecking an absent style restores the list |
| ClientConfig.FilterDropsLast | src/components/admin/ClientConfig.tsx:197-199 | filtering out a style appended to a list without it gives the list |
| ClientConfig.SavedDraft | src/components/admin/ClientConfig.tsx:119-127 | falsy family, size and colour take Arial, 14 and #000000; the rest is copied |
| ClientConfig.ConfigPage.constructor | src/components/admin/ClientConfig.tsx:20-27 | no client, the frames tab, no drag and no draft |
| ClientConfig.ConfigPage.Load | src/components/admin/ClientConfig.tsx:53-64 | the client with the id and its frame; an unknown id leaves and changes nothing |
| ClientConfig.ConfigPage.SetActiveTab | src/components/admin/ClientConfig.tsx:260 | only the tab changes |
| ClientConfig.ConfigPage.FrameRead | src/components/admin/ClientConfig.tsx:66-78 | the preview becomes the data URL when a client is loaded |
| ClientConfig.ConfigPage.SaveChanges | src/components/admin/ClientConfig.tsx:80-92 | a call iff a client is loaded. It sets the frame to the preview and always clears the footer |
| ClientConfig.ConfigPage.CanvasClick | src/components/admin/ClientConfig.tsx:94-114 | on the text points tab without a draft, a default draft at the click's percentage; otherwise nothing |
| ClientConfig.ConfigPage.SaveNewPoint | src/components/admin/ClientConfig.tsx:116-135 | a call iff a named draft exists, adding `SavedDraft`; the draft is then dropped |
| ClientConfig.ConfigPage.CancelNewPoint | src/components/admin/ClientConfig.tsx:137-139 | the draft is dropped |
| ClientConfig.ConfigPage.EditDraft | src/components/admin/ClientConfig.tsx:522-601 | only the draft's name, family, size and colour change |
| ClientConfig.ConfigPage.PointMouseDown | src/components/admin/ClientConfig.tsx:142-146 | dragging that point |
| ClientConfig.ConfigPage.PointMouseMove | src/components/admin/ClientConfig.tsx:148-157 | while dragging, a call moving the point to the unclamped mouse percentage |
| ClientConfig.ConfigPage.PointMouseUp | src/components/admin/ClientConfig.tsx:159-162 | the drag ends |
| ClientConfig.ConfigPage.PositionChange | src/components/admin/ClientConfig.tsx:164-173 | a call changing only the named axis, clamped |
| ClientConfig.ConfigPage.NewPointPositionChange | src/components/admin/ClientConfig.tsx:175-184 | only the draft's named axis changes, clamped |
| ClientConfig.ConfigPage.StyleChange | src/components/admin/ClientConfig.tsx:186-205 | a call iff the point exists, with its styles toggled |
| ClientConfig.ConfigPage.NewPointStyleChange | src/components/admin/ClientConfig.tsx:208-221 | the draft's styles toggled |
| ClientConfig.ConfigPage.RemovePointClick | src/components/admin/ClientConfig.tsx:376-380 | the store is asked to delete that point of the loaded client iff the user confirms |
| ClientConfig.AddFieldButtonPosition | src/components/admin/ClientConfig.tsx:677 | the "add field" button's click at (0, 0) puts the draft at a negative x iff the canvas is right of the viewport's left edge, and at a negative y iff it is below the top |
| ClientPreview.InitialTextValues | src/pages/ClientPreview.tsx:40-44 | one empty value per point id and no other key |
| ClientPreview.PreviewPage.constructor | src/pages/ClientPreview.tsx:23-28 | no client, no image, no values, not authenticated |
| ClientPreview.PreviewPage.Load | src/pages/ClientPreview.tsx:33-52 | the client with the url and empty values. Open when there is no password. An unknown url changes nothing |
| ClientPreview.PreviewPage.TypePassword | src/pages/ClientPreview.tsx:218-222 | only the typed password changes |
| ClientPreview.PreviewPage.PasswordSubmit | src/pages/ClientPreview.tsx:54-65 | access is granted iff the typed password equals the client's |
| ClientPreview.PreviewPage.BeginUpload | src/pages/ClientPreview.tsx:67-68 | loading starts |
| ClientPreview.PreviewPage.UploadRead | src/pages/ClientPreview.tsx:71-74 | the image is the data URL and loading ends |
| ClientPreview.PreviewPage.UploadFailed | src/pages/ClientPreview.tsx:75-82 | loading ends; the image is kept |
| ClientPreview.PreviewPage.ClearImage | src/pages/ClientPreview.tsx:324 | the image is cleared |
| ClientPreview.PreviewPage.TextChange | src/pages/ClientPreview.tsx:165-170 | only that point's value changes |
| ClientPreview.PreviewPage.Current | src/pages/ClientPreview.tsx:199-204 | not found iff no client; the password form iff the client has a password and access is not granted |
| ClientPreview.PreviewPage.DownloadDisabled | src/pages/ClientPreview.tsx:318 | disabled iff neither frame nor uploaded image |
| ClientPreview.PreviewPage.NewImageDisabled | src/pages/ClientPreview.tsx:327 | disabled iff no uploaded image |
| ClientPreview.PreviewPage.Canvas | src/pages/ClientPreview.tsx:350-356 | the compositor gets the photo, the client's frame, no footer, the points and the values |
| ClientPreview.EditorShownWhenOpen | src/pages/ClientPreview.tsx:203 | the editor shows iff the client has no password or access was granted |
| ImageCanvas.Pan | src/components/client/ImageCanvas.tsx:200-204 | a pan moves the offsets by exactly the delta and keeps the zoom |
| ImageCanvas.PivotFixed | src/components/client/ImageCanvas.tsx:236-237 | the offset formula keeps the photo point under the pivot in place |
| ImageCanvas.Zoom | src/components/client/ImageCanvas.tsx:229-241 | accepted iff the new scale is in [0.1, 5]. The result has that scale and the same photo point under the cursor |
| ImageCanvas.WheelFactor | src/components/client/ImageCanvas.tsx:229 | scrolling down zooms out, otherwise in |
| ImageCanvas.PinchFactor | src/components/client/ImageCanvas.tsx:298-305 | a factor iff the last distance is non-zero, and then it is the distance ratio |
| ImageCanvas.Viewport.constructor | src/components/client/ImageCanvas.tsx:17-23 | scale 1, offsets 0, not dragging |
| ImageCanvas.Viewport.MouseDown | src/components/client/ImageCanvas.tsx:182-189 | with a photo, dragging from the mouse position; the view is kept |
| ImageCanvas.Viewport.MouseMove | src/components/client/ImageCanvas.tsx:191-207 | while dragging over a photo, a pan by the movement in surface pixels; otherwise nothing |
| ImageCanvas.Viewport.MouseUp | src/components/client/ImageCanvas.tsx:209-211 | the drag ends and the view is kept |
| ImageCanvas.Viewport.Wheel | src/components/client/ImageCanvas.tsx:213-243 | scrolling is always prevented. With a photo, zoom about the cursor when in range; otherwise nothing |
| ImageCanvas.Viewport.TouchStart | src/components/client/ImageCanvas.tsx:245-272 | one finger starts a drag; two record the distance and midpoint; the view is kept |
| ImageCanvas.Viewport.TouchMove | src/components/client/ImageCanvas.tsx:274-331 | one finger pans while dragging. Two fingers zoom by the distance ratio about the midpoint. Only an accepted zoom records the new distance |
| ImageCanvas.Viewport.Pinch | src/components/client/ImageCanvas.tsx:294-331 | with a non-zero recorded distance and a new scale in range, the view zooms by the distance ratio about the midpoint, and the distance and midpoint are recorded; otherwise nothing changes |
| ImageCanvas.Viewport.TouchEnd | src/components/client/ImageCanvas.tsx:334-336 | the drag ends and the view is kept |
| CanvasDraw.FontOf | src/components/client/ImageCanvas.tsx:140-144 | italic iff "italic" is in the styles, bold iff "bold" is, plus the point's size and family |
| CanvasDraw.FontStringStyles | src/components/client/ImageCanvas.tsx:140-144 | the font string starts with "italic " iff italic. Then it starts with "bold " iff bold |
| CanvasDraw.ColorOf | src/components/client/ImageCanvas.tsx:147 | the point's colour when set and non-empty, else black |
| CanvasDraw.PointCommandsShape | src/components/client/ImageCanvas.tsx:135-170 | empty text draws nothing. Otherwise the text is centred on the anchor. Underline adds one line of the measured width, half a size below the centre, 1/20 of the size wide |
| CanvasDraw.CountFillsAppend | src/components/client/ImageCanvas.tsx:131-175 | fills add up over concatenation |
| CanvasDraw.OneFillPerShownPoint | src/components/client/ImageCanvas.tsx:131-175 | the text layer fills exactly one text per point with a non-empty value |
| CanvasDraw.TextCommandsAreText | src/components/client/ImageCanvas.tsx:131-175 | the text layer holds only text and underlines |
| CanvasDraw.ConsInZOrder | src/components/client/ImageCanvas.tsx:45-175 | a lower layer in front of layers in order keeps the order |
| CanvasDraw.FooterHeight | src/components/client/ImageCanvas.tsx:111 | the footer keeps the image's aspect ratio at full width |
| CanvasDraw.FooterImage | src/components/client/ImageCanvas.tsx:110-118 | the footer spans the width and sits on the bottom edge |
| CanvasDraw.FooterAndTextInZOrder | src/components/client/ImageCanvas.tsx:106-125 | the footer comes before the text |
| CanvasDraw.FrameAndTextInZOrder | src/components/client/ImageCanvas.tsx:74-128 | the frame, then the footer, then the text |
| CanvasDraw.DrawPlanInZOrder | src/components/client/ImageCanvas.tsx:45-71 | a pass clears first. The layers follow in the order background, frame, footer, text |
| CanvasDraw.LoadedImages | src/components/client/ImageCanvas.tsx:52-118 | one image per decoded layer |
| CanvasDraw.TextClosesEveryCompletedPass | src/components/client/ImageCanvas.tsx:45-128 | when every present layer loads, a pass is: clear, the loaded images, then the text |
| CanvasDraw.StalledPassDrawsNoText | src/components/client/ImageCanvas.tsx:52-86 | an image that never loads stops the pass before the text |
| CanvasDraw.AnchorFollowsPercent | src/components/client/ImageCanvas.tsx:153-154 | a point in [0, 100] is anchored on the surface, anchors are monotone in the percentage, and 50 is the centre |
| CanvasDraw.Surface.constructor | src/components/client/ImageCanvas.tsx:27-33 | an empty log |
| CanvasDraw.Surface.DrawCanvas | src/components/client/ImageCanvas.tsx:45-71 | the pass appends `DrawPlan` |
| CanvasDraw.Surface.DrawFrameAndText | src/components/client/ImageCanvas.tsx:74-128 | appends the frame, footer and text commands |
| CanvasDraw.Surface.DrawTextPoints | src/components/client/ImageCanvas.tsx:131-175 | the loop appends `TextCommands` |
| CanvasDraw.Surface.DrawTextPoint | src/components/client/ImageCanvas.tsx:134-173 | appends the point's commands: none for an empty text, else the fill and, for underline, the line under it |
| Php.FirstTemp | public/api/clients.php:206-216 | the position of the first temporary among `bind_param`'s values: every one before it is a variable |
| Php.BindParam | public/api/clients.php:206-216 | `bind_param` binds iff every value is a variable, and then binds their values; otherwise it throws, naming the first temporary's argument number (the type string is argument #1) |
| Php.BindFromVariables | public/api/textpoints.php:40-53 | values copied into variables first, as textpoints.php does, are always bound |
| Php.EscapeChar | public/api/textpoints.php:46 | `json_encode` writes a printable ASCII character other than `"`, `\` and `/` as itself and escapes every other one |
| Php.EscapePlainString | public/api/textpoints.php:46 | a name of such characters only is written unchanged |
| Php.EscapeStringIsAscii | public/api/textpoints.php:46 | the encoded text is printable ASCII only |
| Php.EncodeStringsShape | public/api/textpoints.php:46 | `json_encode` of a list is bracketed, and "[]" iff the list is empty |
| Php.ReadEscapeString | public/api/textpoints.php:66 | `json_decode` reads back every string `json_encode` escaped, stopping at its closing quote |
| Php.DecodeEncode | public/api/textpoints.php:66 | `json_decode` reads back every list of strings `json_encode` wrote |
| Php.Explode | public/api/check_client.php:71 | at least one piece, none holding the separator |
| Php.ImplodeExplode | public/api/check_client.php:71 | joining the pieces with the separator restores the string |

## Left out

- Connections and failures: the database connection, `prepare` failures and the
  network are not modelled. Each endpoint takes the database's answer to the statement
  whose result it reports (`executed`, `dbError`) as a parameter. The store takes a
  request's outcome as a `Reply`.
- Ids and time: `uniqid()`, `Date.now()` and the `FileReader` result are parameters.
  `Date.now()` is read twice on the store's failure path, so the store takes a
  second id there.
- `measureText` and `Math.hypot` are parameters. Coordinates are `real`, not
  floating point.
- Image loading is modelled as a `LayerLoad` per layer: absent, decoded with its size,
  or never loaded. A source that fails to load has no `onerror` handler in the code,
  so the pass stops there and draws no text. The model follows the code, not a design
  where every pass ends with the text.
- React's render cycle, effects and stale closures are not modelled. State
  updates are applied at once. The `mousemove`/`mouseup` listeners that
  ClientConfig installs on `window` while dragging are the methods themselves.
- The OPTIONS preflight and the CORS headers of every endpoint are not modelled.
- A request body that is not valid JSON is not modelled. A `textPoints` that is not an
  array is treated as absent.
- The SQL text is not modelled beyond its placeholders and column lists. Whitespace
  layout is left out, as is the `LIKE` wildcard in the `SHOW TABLES LIKE` test of
  check_database.php.
- check_client.php's `mkdir` of the client's frame folder (lines 51-54) is file system
  I/O and is left out.
- Row order: rows come back in the order of the model's sequences. The SQL has no
  `ORDER BY`, so the server's order is not specified.
- `fetchClients`, `refreshClients` and the local-storage backup of the client list in
  ClientContext.tsx are not modelled. They are I/O around the list the store keeps.
- Camera capture, the download of the composed image and the toasts of the preview
  and admin pages are not modelled.
- `ClientsApi.RespondPost` and `ClientsApi.RespondPut` ignore the result of each point
  INSERT, as the code does. `RespondPut` replaces the points even when the UPDATE
  failed, as the code does.
- The clients.php model takes the list of text_points columns as a parameter
  `columns`. The endpoint functions `ClientsApi.Respond` and `ClientsApi.Handle` pass
  the table's real columns (see Findings).
- `ClientsApi.RealEscape` escapes the characters `real_escape_string` escapes. The
  character set of the connection is not modelled.
- Php.DecodeStrings reads only a JSON array of strings with no blanks between its
  tokens, the form `json_encode` writes for a list of strings. Blanks, other JSON
  values and a `\u` escape of a lone surrogate give no list, where PHP's `json_decode`
  would accept the blanks and the other values.
- Php.EscapeChar follows `json_encode` with its default flags, which is how the style
  lists are encoded. Other flags (`JSON_UNESCAPED_SLASHES`, `JSON_UNESCAPED_UNICODE`
  and the rest) are not modelled. Neither is invalid UTF-8, which Dafny strings
  cannot hold.
- ClientsApi.RespondPutAsWritten: the point INSERT is modelled with the corrected
  columns. With the columns as written (see Findings), that INSERT's `prepare` already
  fails. This ends the request at the same point, after the UPDATE and the points DELETE.
- A request that dies in clients.php is a `Died` run. db_config.php:4 turns
  `display_errors` on, so the server sends the error text with status 200. That text is
  not modelled: the store's reading of it is a `NetworkError` carrying the message
  `response.json()` throws, which is a parameter.
- ClientsApi.PointJsonAsWritten: with `display_errors` on, each read of the missing
  `x` and `y` keys (clients.php:51-52) also prints a warning into the response body,
  ahead of the JSON. Output text is not modelled, so the GET answers are the JSON
  alone. In the code as written, a listing or lookup that includes a point therefore
  reaches the store as text `response.json()` cannot read.
- ClientsApi.HasId and ClientsApi.HasUrl model the SQL `WHERE id = ?` and
  `WHERE url = ?` tests as exact string equality. The table's collation is not
  modelled. init.php:13-23 declares the columns without one, so MySQL's default
  collation compares them case-insensitively. Under that collation, clients "Shop" and
  "shop" both match `?url=shop`. `SharedUrlNotFound`, `LookupByUrlFinds`,
  `LookupByIdFinds` and `CheckClientApi.SharedUrlLookupsDisagree` hold for the exact
  comparison only.
- CheckClientApi.Respond and CheckClientApi.Handle model the lookup with the points
  query corrected (see Findings). `CheckClientApi.RespondAsWritten` is the lookup as
  written.
- ClientsApi.PointJsons and ClientsApi.RespondGet list points with the position read
  from `x_position`/`y_position`, as corrected (see Findings).
  `ClientsApi.PointJsonAsWritten` is the listing as written.
- ClientsApi.Respond and ClientsApi.Handle, and every POST and PUT member they use,
  bind their values from variables, as corrected (see Findings).
  `ClientsApi.RespondAsWritten` is the endpoint as written.
- AuthContext.AuthProvider.constructor starts from `AuthContext.Startup`, the startup
  with a stored `null` corrected (see Findings). `AuthContext.StartupAsWritten` is the
  effect as written.
- AuthContext.EscapeChar: characters are Unicode scalar values, so the escape
  `JSON.stringify` gives a lone surrogate does not arise. `UnescapeJson` rejects a
  `\u` escape of a surrogate, as pairs are not modelled.
- AuthContext.AuthProvider.Login: `response.json()` failing and `data.user` being
  absent are not told apart from a refusal. The reply is one of accepted, refused or
  thrown.

## Findings

| source | as written | input that shows it | evidently intended | confidence | as-written member | corrected member |
|---|---|---|---|---|---|---|
| public/api/check_client.php:71 | the stored `font_style` is split on commas, but both writers store it JSON-encoded (this line is reached only once the points query at lines 57-61 is corrected) | a point stored with style `["bold"]` is listed with the one style `["bold"]`, brackets and quotes included | decode the JSON list | not executed | CheckClientApi.StyleAsWrittenBreaks | CheckClientApi.StoredStyleReadsBack |
| public/api/check_client.php:57-61 | the points SELECT names columns `x` and `y`; the table has `x_position` and `y_position` | any url of a stored client: `prepare` fails. With errors reported as exceptions (PHP 8.1 on) the catch at line 98 answers 500 with the server's message; before that, `bind_param` on `false` at line 64 is a fatal error. No lookup of an existing client succeeds, so the preview never loads a client and the split at line 71 is never reached | select `x_position`, `y_position` | not executed | CheckClientApi.RespondAsWritten | CheckClientApi.Respond |
| public/api/clients.php:51-52 | the listing reads `$point['x']` and `$point['y']` from `SELECT *`, which has no such keys | a point stored at (40, 75.5) is listed at (0, 0) | read `x_position`, `y_position` | not executed | ClientsApi.ListingAsWrittenLosesPosition | ClientsApi.StoredPointReadsBack |
| public/api/clients.php:226 | the point INSERT names columns `x` and `y` (also at line 372) | any POST or PUT with text points: the server refuses the statement | insert into `x_position`, `y_position` as textpoints.php does | not executed | ClientsApi.PointColumnsAgainstSchema | ClientsApi.InsertColumnsMatchSchema |
| src/contexts/AuthContext.tsx:28-30 | any parsed value is set as the user, `null` included | local storage "user" = "null": authenticated with no user | treat a non-record like an unreadable one | not executed | AuthContext.StoredNullAuthenticatesWithoutUser | AuthContext.StartupAgreesExceptOnNull |
| src/contexts/ClientContext.tsx:172-177 | the update is a POST with `?action=update`, but clients.php dispatches on the method and never reads `action` | updating client "c1": as written, the POST dies binding the client INSERT and the store reports that it cannot read the answer as JSON; once that binding is corrected, a second client is created under a fresh id and the store reports success | send a PUT | not executed | ClientRequests.UpdateAsWrittenTakesPost | ClientRequests.UpdateRequestUpdates |
| public/api/clients.php:206-216 | `bind_param` takes its values by reference, but the client INSERT passes `$input['companyName'] ?? null` and four more such temporaries, and both point INSERTs (lines 231-241 and 376-386) pass `$point['color'] ?? null` | any POST with a name and a url: `bind_param` throws at argument #4, nothing is stored and no JSON is written. Any PUT of a stored client with a field and a text point: the UPDATE and the points DELETE run, then the first point's `bind_param` throws at argument #10, so the client loses its points | copy each value into a variable first, as textpoints.php does at lines 40-53 | not executed | ClientsApi.RespondAsWritten | ClientsApi.Respond |
| src/contexts/ClientContext.tsx:212-217 | the delete is a POST of `{ id }` with `?action=delete` | deleting any client: 400 "Name and URL are required", nothing is deleted | send a DELETE with `?id=` | not executed | ClientRequests.DeleteAsWrittenRefused | ClientRequests.DeleteRequestDeletes |

=== FILE: auth_context.dfy ===
/** The admin session: the logged-in user, the authenticated flag, and their copies in
    the browser's local storage ("user") and session storage ("admin_authenticated",
    "admin_username"). */
module AuthContext {
  import opened Wrappers
  import Text

  const UserKey := "user"
  const FlagKey := "admin_authenticated"
  const UsernameKey := "admin_username"

  datatype User = User(id: string, username: string, isAdmin: bool)

  /** What `JSON.parse` makes of a stored string: it throws, it yields `null`, or it
      yields a value, taken to be a user record. */
  datatype Parsed = Unparsable | ParsedNull | ParsedUser(value: User)

  /** The answer of the login endpoint: success with the user record, a refusal, or
      a failed request (the call throws). */
  datatype LoginReply = Accepted(user: User) | Refused(message: string) | Thrown

  /** The provider's state and the two storages. */
  datatype AuthState = AuthState(
    user: Option<User>,
    isAuthenticated: bool,
    local: map<string, string>,
    session: map<string, string>)

  /** `storage.getItem(key)` is truthy. */
  predicate HasValue(m: map<string, string>, key: string) {
    key in m && m[key] != ""
  }

  /** The letter of the two-character escape `JSON.stringify` writes for a character,
      if it has one: the quote and the backslash stand for themselves, and backspace,
      tab, line feed, form feed and carriage return are `b` `t` `n` `f` `r`. */
  function ShortEscape(c: char): (e: Option<char>)
    ensures e.Some? ==> Text.ShortUnescape(e.value) == Some(c)
    ensures e.Some? ==> e.value != 'u'
  {
    if c == '"' || c == '\\' then Some(c)
    else if c == '\U{8}' then Some('b')
    else if c == '\t' then Some('t')
    else if c == '\n' then Some('n')
    else if c == '\U{C}' then Some('f')
    else if c == '\r' then Some('r')
    else None
  }

  /** How `JSON.stringify` writes one character inside a string: a two-character escape
      where there is one, the other characters below U+0020 as `\u00` and two lower-case
      hex digits, anything else as itself. */
  function EscapeChar(c: char): (r: string)
    ensures 1 <= |r| <= 6
    ensures c >= ' ' && c != '"' && c != '\\' <==> r == [c]
    ensures forall i :: 0 <= i < |r| ==> r[i] >= ' '
  {
    if ShortEscape(c).Some? then ['\\', ShortEscape(c).value]
    else if c < ' ' then "\\u" + Text.Hex4(c as int)
    else [c]
  }

  /** The characters of a string between the quotes `JSON.stringify` puts around it. No
      character below U+0020 is left as it is. */
  function EscapeJson(s: string): (r: string)
    ensures |r| >= |s|
    ensures forall i :: 0 <= i < |r| ==> r[i] >= ' '
    decreases |s|
  {
    if s == [] then "" else EscapeChar(s[0]) + EscapeJson(s[1..])
  }

  function Cons(c: char, rest: Option<string>): Option<string> {
    if rest.Some? then Some([c] + rest.value) else None
  }

  /** What `JSON.parse` reads from the characters between the quotes of a JSON string:
      None where it throws (a bare quote or control character, an unknown escape, a
      `\u` escape of a surrogate, which pairs are not modelled for). */
  function UnescapeJson(s: string): (r: Option<string>)
    decreases |s|
  {
    if s == [] then Some([])
    else if s[0] == '\\' then
      if |s| >= 2 && Text.ShortUnescape(s[1]).Some? then Cons(Text.ShortUnescape(s[1]).value, UnescapeJson(s[2..]))
      else if |s| >= 6 && s[1] == 'u' && Text.CodeUnit(s[2..6]).Some?
              && (Text.CodeUnit(s[2..6]).value < 0xD800 || 0xE000 <= Text.CodeUnit(s[2..6]).value) then
        Cons(Text.CodeUnit(s[2..6]).value as char, UnescapeJson(s[6..]))
      else None
    else if s[0] == '"' || s[0] < ' ' then None
    else Cons(s[0], UnescapeJson(s[1..]))
  }

  /** Reading one escaped character back gives the character, ahead of what the rest
      reads as. */
  lemma UnescapeEscapeChar(c: char, t: string)
    ensures UnescapeJson(EscapeChar(c) + t) == Cons(c, UnescapeJson(t))
  {
    var e := EscapeChar(c) + t;
    if ShortEscape(c).Some? {
      assert e[2..] == t;
    } else if c < ' ' {
      Text.CodeUnitOfHex4(c as int);
      assert e[2..6] == Text.Hex4(c as int);
      assert e[6..] == t;
    } else {
      assert e[1..] == t;
    }
  }

  /** `JSON.parse` reads back every string `JSON.stringify` wrote. */
  lemma {:induction false} UnescapeEscapeJson(s: string)
    ensures UnescapeJson(EscapeJson(s)) == Some(s)
    decreases |s|
  {
    if s != [] {
      UnescapeEscapeChar(s[0], EscapeJson(s[1..]));
      UnescapeEscapeJson(s[1..]);
      assert [s[0]] + s[1..] == s;
    }
  }

  /** Where the characters of a JSON string end: the index of the first quote not
      behind a backslash, `|t|` when there is none. */
  function StringEnd(t: string): (k: nat)
    ensures k <= |t|
    ensures k < |t| ==> t[k] == '"'
    decreases |t|
  {
    if t == [] || t[0] == '"' then 0
    else if t[0] == '\\' && |t| >= 2 then 2 + StringEnd(t[2..])
    else 1 + StringEnd(t[1..])
  }

  /** What a JSON reader makes of the text after the opening quote of a string: its
      value and the text after the closing quote, None when it fails. */
  function ReadJsonString(t: string): (r: Option<(string, string)>)
    ensures r.Some? ==> |r.value.1| < |t|
  {
    var k := StringEnd(t);
    if k == |t| then None
    else match UnescapeJson(t[..k])
      case None => None
      case Some(v) => Some((v, t[k + 1..]))
  }

  /** An escaped character holds no quote that ends the string, so scanning it takes
      exactly its length. */
  lemma StringEndOfEscapeChar(c: char, t: string)
    ensures StringEnd(EscapeChar(c) + t) == |EscapeChar(c)| + StringEnd(t)
  {
    var e := EscapeChar(c);
    if ShortEscape(c).Some? {
      assert (e + t)[2..] == t;
    } else if c < ' ' {
      var h := Text.Hex4(c as int);
      assert (e + t)[2..] == h + t;
      StringEndOfPlain(h, t);
    } else {
      assert (e + t)[0] == c;
      assert (e + t)[1..] == t;
    }
  }

  /** Characters other than the quote and the backslash are scanned one by one. */
  lemma {:induction false} StringEndOfPlain(p: string, t: string)
    requires forall i :: 0 <= i < |p| ==> p[i] != '"' && p[i] != '\\'
    ensures StringEnd(p + t) == |p| + StringEnd(t)
    decreases |p|
  {
    if p == [] {
      assert p + t == t;
    } else {
      assert (p + t)[0] == p[0];
      assert (p + t)[1..] == p[1..] + t;
      StringEndOfPlain(p[1..], t);
    }
  }

  lemma {:induction false} StringEndOfEscape(s: string, rest: string)
    ensures StringEnd(EscapeJson(s) + "\"" + rest) == |EscapeJson(s)|
    decreases |s|
  {
    if s == [] {
      assert EscapeJson(s) + "\"" + rest == "\"" + rest;
    } else {
      assert EscapeJson(s) + "\"" + rest == EscapeChar(s[0]) + (EscapeJson(s[1..]) + "\"" + rest);
      StringEndOfEscapeChar(s[0], EscapeJson(s[1..]) + "\"" + rest);
      StringEndOfEscape(s[1..], rest);
    }
  }

  /** A string `JSON.stringify` wrote reads back, with the text after its closing
      quote. */
  lemma ReadEscapedString(s: string, rest: string)
    ensures ReadJsonString(EscapeJson(s) + "\"" + rest) == Some((s, rest))
  {
    var t := EscapeJson(s) + "\"" + rest;
    StringEndOfEscape(s, rest);
    assert t[..|EscapeJson(s)|] == EscapeJson(s);
    assert t[|EscapeJson(s)| + 1..] == rest;
    UnescapeEscapeJson(s);
  }

  /** The text of a stored record before the id, and between the id and the name. */
  const IdOpen := "{\"id\":\""
  const NameOpen := ",\"username\":\""

  /** The text of a stored record after the name. */
  function AdminText(isAdmin: bool): string {
    ",\"isAdmin\":" + (if isAdmin then "true" else "false") + "}"
  }

  function ReadAdmin(t: string): Option<bool> {
    if t == AdminText(true) then Some(true) else if t == AdminText(false) then Some(false) else None
  }

  /** Reads the name and the flag that follow the id. */
  function ReadNameAndAdmin(id: string, t: string): Option<User> {
    if !Text.HasPrefix(t, NameOpen) then None
    else match ReadJsonString(t[|NameOpen|..])
      case None => None
      case Some((name, rest)) =>
        var admin := ReadAdmin(rest);
        if admin.Some? then Some(User(id, name, admin.value)) else None
  }

  /** A reference reader for the record `Stringify` writes: the keys in that order,
      without blanks; None for any other text. */
  function ReadUser(s: string): Option<User> {
    if !Text.HasPrefix(s, IdOpen) then None
    else match ReadJsonString(s[|IdOpen|..])
      case None => None
      case Some((id, rest)) => ReadNameAndAdmin(id, rest)
  }

  /** `JSON.stringify(user)` for the fields the login endpoint returns. */
  function Stringify(u: User): (r: string)
    ensures |r| >= 2 && r[0] == '{' && r[|r| - 1] == '}'
  {
    IdOpen + (EscapeJson(u.id) + "\"" + (NameOpen + (EscapeJson(u.username) + "\"" + AdminText(u.isAdmin))))
  }

  /** The record stored by a login never reads back as `null`. */
  lemma StoredRecordIsNotNull(u: User)
    ensures Stringify(u) != "null" && Stringify(u) != ""
  {
    assert Stringify(u)[0] == '{';
  }

  /** The session fallback: the flag "true" and a username give an admin user whose id
      is "session-" and the current time. */
  function SessionUser(session: map<string, string>, now: nat): (u: Option<User>)
    ensures u.Some? <==> FlagKey in session && session[FlagKey] == "true" && HasValue(session, UsernameKey)
    ensures u.Some? ==> u.value.username == session[UsernameKey] && u.value.isAdmin
                        && Text.HasPrefix(u.value.id, "session-")
  {
    if FlagKey in session && session[FlagKey] == "true" && HasValue(session, UsernameKey) then
      Some(User("session-" + Text.NatToDecimal(now), session[UsernameKey], true))
    else None
  }

  /** The startup effect as written: any value `JSON.parse` returns, `null` included,
      is set as the user together with the authenticated flag. */
  function StartupAsWritten(local: map<string, string>, session: map<string, string>,
                            parse: string -> Parsed, now: nat): (s: AuthState)
    ensures s.session == session
  {
    if HasValue(local, UserKey) then
      match parse(local[UserKey])
      case Unparsable => AuthState(None, false, local - {UserKey}, session)
      case ParsedNull => AuthState(None, true, local, session)
      case ParsedUser(u) => AuthState(Some(u), true, local, session)
    else
      var u := SessionUser(session, now);
      AuthState(u, u.Some?, local, session)
  }

  /** A stored "null" logs the admin in without a user. */
  lemma StoredNullAuthenticatesWithoutUser(session: map<string, string>, parse: string -> Parsed, now: nat)
    requires parse("null") == ParsedNull
    ensures var s := StartupAsWritten(map[UserKey := "null"], session, parse, now);
      s.isAuthenticated && s.user.None?
  {
  }

  /** The startup effect, with a stored `null` treated like an unreadable record. */
  function Startup(local: map<string, string>, session: map<string, string>,
                   parse: string -> Parsed, now: nat): (s: AuthState)
    ensures s.isAuthenticated <==> s.user.Some?
    ensures s.session == session
    ensures HasValue(local, UserKey) ==> match parse(local[UserKey])
      case ParsedUser(u) => s.user == Some(u) && s.local == local
      case _ => s.user.None? && s.local == local - {UserKey}
    ensures !HasValue(local, UserKey) ==> s.user == SessionUser(session, now) && s.local == local
  {
    if HasValue(local, UserKey) then
      match parse(local[UserKey])
      case ParsedUser(u) => AuthState(Some(u), true, local, session)
      case _ => AuthState(None, false, local - {UserKey}, session)
    else
      var u := SessionUser(session, now);
      AuthState(u, u.Some?, local, session)
  }

  /** The corrected startup differs from the code only on a stored `null`. */
  lemma StartupAgreesExceptOnNull(local: map<string, string>, session: map<string, string>,
                                  parse: string -> Parsed, now: nat)
    requires !HasValue(local, UserKey) || parse(local[UserKey]) != ParsedNull
    ensures Startup(local, session, parse, now) == StartupAsWritten(local, session, parse, now)
  {
  }

  class AuthProvider {
    var user: Option<User>
    var isAuthenticated: bool
    var local: map<string, string>
    var session: map<string, string>

    predicate Valid()
      reads this
    {
      isAuthenticated <==> user.Some?
    }

    /** The provider after its startup effect, over the storages found at load time. */
    constructor (storedLocal: map<string, string>, storedSession: map<string, string>, parse: string -> Parsed, now: nat)
      ensures Valid()
      ensures AuthState(user, isAuthenticated, local, session) == Startup(storedLocal, storedSession, parse, now)
    {
      var s := Startup(storedLocal, storedSession, parse, now);
      user := s.user;
      isAuthenticated := s.isAuthenticated;
      local := s.local;
      session := s.session;
    }

    /** `login`: on success the user is stored in both storages and set, and the result
        is true; a refusal or a thrown request returns false and changes nothing. */
    method Login(username: string, reply: LoginReply) returns (ok: bool)
      requires Valid()
      modifies this
      ensures Valid()
      ensures ok <==> reply.Accepted?
      ensures reply.Accepted? ==>
        && user == Some(reply.user) && isAuthenticated
        && local == old(local)[UserKey := Stringify(reply.user)]
        && session == old(session)[FlagKey := "true"][UsernameKey := username]
      ensures !reply.Accepted? ==> unchanged(this)
    {
      if !reply.Accepted? {
        return false;
      }
      local := local[UserKey := Stringify(reply.user)];
      session := session[FlagKey := "true"];
      session := session[UsernameKey := username];
      user := Some(reply.user);
      isAuthenticated := true;
      ok := true;
    }

    /** `logout`: the three keys are removed and the provider is logged out. */
    method Logout()
      requires Valid()
      modifies this
      ensures Valid()
      ensures user.None? && !isAuthenticated
      ensures local == old(local) - {UserKey}
      ensures session == old(session) - {FlagKey} - {UsernameKey}
    {
      local := local - {UserKey};
      session := session - {FlagKey};
      session := session - {UsernameKey};
      user := None;
      isAuthenticated := false;
    }
  }

  /** The reference reader reads every stored record back as the user it was written
      from. */
  lemma ReadUserStringify(u: User)
    ensures ReadUser(Stringify(u)) == Some(u)
  {
    var tail := AdminText(u.isAdmin);
    assert ReadAdmin(tail) == Some(u.isAdmin);
    var r1 := NameOpen + (EscapeJson(u.username) + "\"" + tail);
    assert r1[|NameOpen|..] == EscapeJson(u.username) + "\"" + tail;
    ReadEscapedString(u.username, tail);
    assert ReadNameAndAdmin(u.id, r1) == Some(u);
    var s := IdOpen + (EscapeJson(u.id) + "\"" + r1);
    assert s == Stringify(u);
    assert s[|IdOpen|..] == EscapeJson(u.id) + "\"" + r1;
    ReadEscapedString(u.id, r1);
  }

  /** After a login, a reload restores the same user, for any `JSON.parse` that reads a
      record the way the reference reader does. */
  lemma LoginSurvivesReload(local: map<string, string>, session: map<string, string>, u: User, username: string,
                            parse: string -> Parsed, now: nat)
    requires forall s :: ReadUser(s).Some? ==> parse(s) == ParsedUser(ReadUser(s).value)
    ensures var s := Startup(local[UserKey := Stringify(u)], session[FlagKey := "true"][UsernameKey := username], parse, now);
      s.user == Some(u) && s.isAuthenticated
  {
    StoredRecordIsNotNull(u);
    ReadUserStringify(u);
  }

  /** After a logout, a reload stays logged out. */
  lemma LogoutSurvivesReload(local: map<string, string>, session: map<string, string>, parse: string -> Parsed, now: nat)
    ensures var s := Startup(local - {UserKey}, session - {FlagKey} - {UsernameKey}, parse, now);
      s.user.None? && !s.isAuthenticated
  {
  }
}

=== FILE: check_client_api.dfy ===
/** The public lookup of a client by its url, the one the client-facing page calls
    before showing the editor: the client's fields, whether it has a password, and its
    text points with their style lists. */
module CheckClientApi {
  import opened Wrappers
  import opened Php
  import Seqs
  import ClientsApi
  import CheckDatabaseApi

  /** A request other than the CORS preflight: its method, the `clientUrl` key of the
      decoded JSON body (Missing when the body is not a JSON object) and the `clientUrl`
      query parameter. */
  datatype Request = Request(method_: HttpMethod, bodyUrl: Field<string>, queryUrl: Field<string>)

  /** A text point as the lookup lists it. */
  datatype CheckedPoint = CheckedPoint(
    id: string, name: string, x: real, y: real, fontFamily: Option<string>, fontSize: int,
    fontStyle: seq<string>, color: Option<string>)

  /** The client the lookup answers, with `hasPassword` computed from its password. */
  datatype CheckedClient = CheckedClient(
    id: string, name: string, url: string, companyName: Option<string>,
    frame: Option<string>, footer: Option<string>, logo: Option<string>, password: Option<string>,
    hasPassword: bool, textPoints: seq<CheckedPoint>)

  datatype Answer = Answer(status: int, success: bool, message: Option<string>, client: Option<CheckedClient>)

  /** The columns the points query selects, as written: `x` and `y`, which the
      `text_points` table does not have. */
  const SelectedColumnsAsWritten: seq<string> :=
    ["id", "name", "x", "y", "font_family", "font_size", "font_style", "color"]

  /** The columns the points query needs, under the names of the table's definition. */
  const SelectedColumns: seq<string> :=
    ["id", "name", "x_position", "y_position", "font_family", "font_size", "font_style", "color"]

  /** As written, the points query names a column the table lacks, so the server refuses
      it for every client that exists. */
  lemma SelectedColumnsAgainstSchema()
    ensures "x" in SelectedColumnsAsWritten && "x" !in CheckDatabaseApi.TextPointsColumns
  {
    assert CheckDatabaseApi.TextPointsColumns[3] == "x_position";
  }

  /** The corrected list names existing columns only, and reads the position from
      `x_position` and `y_position`. */
  lemma SelectedColumnsMatchSchema()
    ensures forall c :: c in SelectedColumns ==> c in CheckDatabaseApi.TextPointsColumns
    ensures SelectedColumns[2] == "x_position" && SelectedColumns[3] == "y_position"
  {
  }

  /** The url to look up: from the JSON body for a POST, from the query string for any
      other method; "" when the key is not set. */
  function ClientUrl(req: Request): (url: string)
    ensures req.method_.Post? && req.bodyUrl.Isset() ==> url == req.bodyUrl.value
    ensures !req.method_.Post? && req.queryUrl.Isset() ==> url == req.queryUrl.value
    ensures (if req.method_.Post? then !req.bodyUrl.Isset() else !req.queryUrl.Isset()) ==> url == ""
  {
    if req.method_.Post? then (if req.bodyUrl.Isset() then req.bodyUrl.value else "")
    else if req.queryUrl.Isset() then req.queryUrl.value else ""
  }

  /** PHP's truthiness of a nullable string column: NULL, "" and "0" are false. */
  predicate Truthy(s: Option<string>) {
    s.Some? && !EmptyString(s.value)
  }

  /** The style list as written: the column split on commas when it is truthy. Every
      writer stores the list JSON-encoded, so the pieces keep the brackets and quotes. */
  function StyleAsWritten(s: Option<string>): (l: seq<string>)
    ensures !Truthy(s) <==> l == []
    ensures Truthy(s) ==> Implode(",", l) == s.value
  {
    if Truthy(s) then ImplodeExplode(',', s.value); Explode(',', s.value) else []
  }

  /** The style list the lookup is meant to give: the JSON list the writers store,
      decoded; an empty list when the column is not truthy or holds no such list. */
  function Style(s: Option<string>): (l: seq<string>)
    ensures !Truthy(s) ==> l == []
    ensures Truthy(s) && DecodeStrings(s.value).Some? ==> l == DecodeStrings(s.value).value
  {
    if Truthy(s) then DecodeStrings(s.value).GetOr([]) else []
  }

  /** A style list stored by either endpoint reads back as itself through `Style`. */
  lemma StoredStyleReadsBack(l: seq<string>)
    ensures Style(Some(EncodeStrings(l))) == l
  {
    DecodeEncode(l);
  }

  /** `json_encode(["bold"])` is `["bold"]`. */
  lemma EncodeBold()
    ensures EncodeStrings(["bold"]) == "[\"bold\"]"
  {
    assert Plain("bold") by {
      forall i | 0 <= i < 4 ensures PlainChar("bold"[i]) { }
    }
    EscapePlainString("bold");
    assert EncodeItems(["bold"]) == "\"bold\"";
  }

  /** As written, a stored `["bold"]` reads back as the one name `["bold"]` with its
      brackets and quotes, where the intended reading gives `bold`. */
  lemma StyleAsWrittenBreaks()
    ensures StyleAsWritten(Some(EncodeStrings(["bold"]))) == ["[\"bold\"]"]
    ensures Style(Some(EncodeStrings(["bold"]))) == ["bold"]
  {
    EncodeBold();
    assert CharIndex("[\"bold\"]", ',', 0) == 8;
    StoredStyleReadsBack(["bold"]);
  }

  /** As written, a stored empty list reads back as the one name `[]`. */
  lemma EmptyStyleAsWrittenBreaks()
    ensures StyleAsWritten(Some(EncodeStrings([]))) == ["[]"]
  {
    assert EncodeStrings([]) == "[]";
    assert CharIndex("[]", ',', 0) == 2;
  }

  /** A stored point as the lookup lists it: `(float)`/`(int)` casts, a NULL size read
      as 0, the style list decoded. */
  function PointOf(r: ClientsApi.PointRow): (p: CheckedPoint)
    ensures p.id == r.id && p.name == r.name && p.x == r.xPosition && p.y == r.yPosition
    ensures p.fontSize == (if r.fontSize.Some? then r.fontSize.value else 0)
    ensures p.fontStyle == Style(r.fontStyle)
  {
    CheckedPoint(r.id, r.name, r.xPosition, r.yPosition, r.fontFamily, r.fontSize.GetOr(0),
      Style(r.fontStyle), r.color)
  }

  function PointsOf(rows: seq<ClientsApi.PointRow>): (ps: seq<CheckedPoint>)
    ensures |ps| == |rows|
    ensures forall i :: 0 <= i < |rows| ==> ps[i] == PointOf(rows[i])
  {
    seq(|rows|, i requires 0 <= i < |rows| => PointOf(rows[i]))
  }

  /** The `while ($textPointRow = fetch_assoc())` loop. */
  method CollectPoints(rows: seq<ClientsApi.PointRow>) returns (ps: seq<CheckedPoint>)
    ensures ps == PointsOf(rows)
  {
    ps := [];
    var i := 0;
    while i < |rows|
      invariant 0 <= i <= |rows|
      invariant |ps| == i
      invariant forall k :: 0 <= k < i ==> ps[k] == PointOf(rows[k])
    {
      ps := ps + [PointOf(rows[i])];
      i := i + 1;
    }
  }

  /** `!empty($client['password'])`. */
  function HasPassword(password: Option<string>): (b: bool)
    ensures b <==> password.Some? && password.value != "" && password.value != "0"
  {
    Truthy(password)
  }

  function CheckedClientOf(c: ClientsApi.ClientRow, points: seq<CheckedPoint>): CheckedClient {
    CheckedClient(c.id, c.name, c.url, c.companyName, c.frame, c.footer, c.logo, c.password,
      HasPassword(c.password), points)
  }

  /** Row `k` is the first client with the url. */
  predicate FirstWithUrl(db: ClientsApi.Db, url: string, k: int) {
    0 <= k < |db.clients| && db.clients[k].url == url && forall j :: 0 <= j < k ==> db.clients[j].url != url
  }

  /** The answer to a lookup. An empty url (PHP's `empty`, so "0" too) is an exception
      answered 500; a url no client has is answered with status 200 and `success`
      false; otherwise the first client with the url, whatever the others, with the
      points stored under its id. */
  function Respond(req: Request, db: ClientsApi.Db): (a: Answer)
    requires !req.method_.Options?
    ensures a.status == 500 <==> EmptyString(ClientUrl(req))
    ensures a.status == 500 ==> a.message == Some("Client URL is required")
    ensures a.status in {200, 500}
    ensures a.success <==> a.client.Some?
    ensures !EmptyString(ClientUrl(req)) && !a.success ==> a == Answer(200, false, Some("Cliente não encontrado"), None)
    ensures a.success <==>
      !EmptyString(ClientUrl(req)) && exists i :: 0 <= i < |db.clients| && db.clients[i].url == ClientUrl(req)
    ensures a.success ==> exists k :: (FirstWithUrl(db, ClientUrl(req), k)
      && a.client.value == CheckedClientOf(db.clients[k], PointsOf(ClientsApi.PointRowsOf(db.points, db.clients[k].id))))
  {
    var url := ClientUrl(req);
    if EmptyString(url) then Answer(500, false, Some("Client URL is required"), None)
    else match Seqs.FindFirst(db.clients, ClientsApi.HasUrl(url))
      case None => Answer(200, false, Some("Cliente não encontrado"), None)
      case Some(k) =>
        var c := db.clients[k];
        Answer(200, true, None, Some(CheckedClientOf(c, PointsOf(ClientsApi.PointRowsOf(db.points, c.id)))))
  }

  /** The lookup as written, on a server that reports errors as exceptions: the points
      query is refused (its columns `x` and `y` do not exist), the exception is caught and
      answered 500 with the server's message `serverError`. So every lookup that finds
      its client fails, and the others are answered as `Respond` answers them. */
  function RespondAsWritten(req: Request, db: ClientsApi.Db, serverError: string): (a: Answer)
    requires !req.method_.Options?
    ensures !a.success && a.client.None?
    ensures Respond(req, db).success ==> a == Answer(500, false, Some(serverError), None)
    ensures !Respond(req, db).success ==> a == Respond(req, db)
  {
    var url := ClientUrl(req);
    if EmptyString(url) then Answer(500, false, Some("Client URL is required"), None)
    else match Seqs.FindFirst(db.clients, ClientsApi.HasUrl(url))
      case None => Answer(200, false, Some("Cliente não encontrado"), None)
      case Some(k) => Answer(500, false, Some(serverError), None)
  }

  method Handle(req: Request, db: ClientsApi.Db) returns (a: Answer)
    requires !req.method_.Options?
    ensures a == Respond(req, db)
  {
    var url := ClientUrl(req);
    if EmptyString(url) {
      return Answer(500, false, Some("Client URL is required"), None);
    }
    var found := Seqs.FindFirst(db.clients, ClientsApi.HasUrl(url));
    if found.None? {
      return Answer(200, false, Some("Cliente não encontrado"), None);
    }
    var c := db.clients[found.value];
    var points := CollectPoints(ClientsApi.PointRowsOf(db.points, c.id));
    a := Answer(200, true, None, Some(CheckedClientOf(c, points)));
  }

  /** The two lookups by url disagree when two clients share it: this one answers the
      first of them, while the client endpoint answers that it found none. */
  lemma SharedUrlLookupsDisagree(db: ClientsApi.Db, url: string, i: nat, j: nat)
    requires i < j < |db.clients| && db.clients[i].url == url && db.clients[j].url == url
    requires forall k :: 0 <= k < i ==> db.clients[k].url != url
    requires !EmptyString(url) && forall k :: 0 <= k < |url| ==> !ClientsApi.NeedsEscape(url[k])
    ensures var a := Respond(Request(Get, Missing, Given(url)), db);
      a.success && a.client.value.id == db.clients[i].id
    ensures !ClientsApi.RespondGet(ClientsApi.Query(Missing, Given(url)), db).success
  {
    ClientsApi.SharedUrlNotFound(db, url, i, j);
    var a := Respond(Request(Get, Missing, Given(url)), db);
    var k :| FirstWithUrl(db, url, k)
      && a.client.value == CheckedClientOf(db.clients[k], PointsOf(ClientsApi.PointRowsOf(db.points, db.clients[k].id)));
    assert k == i;
  }
}

=== FILE: check_database_api.dfy ===
/** The schema check: for each of the three tables the application uses, whether the
    table exists, its columns as the server describes them, the expected columns it
    lacks and the columns it has beyond those expected. */
module CheckDatabaseApi {
  import opened Wrappers
  import Seqs

  /** The columns the check expects of `clients`. */
  const ClientsColumns: seq<string> :=
    ["id", "name", "company_name", "url", "frame", "footer", "logo", "password", "created_at"]

  /** The columns the check expects of `text_points`. */
  const TextPointsColumns: seq<string> :=
    ["id", "client_id", "name", "x_position", "y_position", "font_family", "font_size", "font_style", "color", "created_at"]

  /** The columns the check expects of `users`. */
  const UsersColumns: seq<string> := ["id", "username", "password", "created_at"]

  datatype TableSpec = TableSpec(name: string, expected: seq<string>)

  /** The tables checked, in the order they are reported. */
  const Tables: seq<TableSpec> :=
    [TableSpec("clients", ClientsColumns), TableSpec("text_points", TextPointsColumns), TableSpec("users", UsersColumns)]

  /** One row of `SHOW COLUMNS`: the column's name, type, nullability, key, default and
      extra information. */
  datatype ColumnInfo = ColumnInfo(
    field: string, sqlType: string, nullable: string, key: string, defaultValue: Option<string>, extra: string)

  /** The report of one table; a table that does not exist has no columns of any kind. */
  datatype TableReport = TableReport(
    name: string, present: bool, columns: seq<ColumnInfo>, missing: seq<string>, extra: seq<string>)

  /** The whole answer; on a database error only the message is meaningful. */
  datatype Report = Report(success: bool, message: string, databaseName: Option<string>, tables: seq<TableReport>)

  /** The names of the columns a table has, in the server's order. */
  function Fields(columns: seq<ColumnInfo>): (names: seq<string>)
    ensures |names| == |columns|
    ensures forall i :: 0 <= i < |columns| ==> names[i] == columns[i].field
  {
    seq(|columns|, i requires 0 <= i < |columns| => columns[i].field)
  }

  function NotIn(ys: seq<string>): string -> bool {
    c => c !in ys
  }

  /** The entries of `xs` absent from `ys`, in the order of `xs`: the missing columns
      when `xs` is the expected list, the extra ones when it is the actual list. */
  function Absent(xs: seq<string>, ys: seq<string>): (r: seq<string>)
    ensures forall c :: c in r <==> c in xs && c !in ys
    ensures Seqs.IsSubsequence(r, xs)
  {
    var r := Seqs.Filter(xs, NotIn(ys));
    assert forall c :: NotIn(ys)(c) == (c !in ys);
    r
  }

  /** One more entry of `xs` is kept exactly when it is absent from `ys`. */
  lemma AbsentStep(xs: seq<string>, ys: seq<string>, i: nat)
    requires i < |xs|
    ensures Seqs.Filter(xs[..i + 1], NotIn(ys)) == Seqs.Filter(xs[..i], NotIn(ys)) + (if xs[i] !in ys then [xs[i]] else [])
  {
    assert xs[..i + 1] == xs[..i] + [xs[i]];
    Seqs.FilterSnoc(xs[..i], xs[i], NotIn(ys));
  }

  /** `foreach ($xs as $x) if (!in_array($x, $ys)) $out[] = $x;` */
  method CollectAbsent(xs: seq<string>, ys: seq<string>) returns (out: seq<string>)
    ensures out == Absent(xs, ys)
  {
    out := [];
    var i := 0;
    while i < |xs|
      invariant 0 <= i <= |xs|
      invariant out == Seqs.Filter(xs[..i], NotIn(ys))
    {
      AbsentStep(xs, ys, i);
      if xs[i] !in ys {
        out := out + [xs[i]];
      }
      i := i + 1;
    }
    assert xs[..i] == xs;
  }

  /** The report of one table, given the columns the server lists for it (None when the
      table does not exist). */
  function TableReportOf(spec: TableSpec, columns: Option<seq<ColumnInfo>>): (r: TableReport)
    ensures r.name == spec.name && (r.present <==> columns.Some?)
    ensures columns.None? ==> r.columns == [] && r.missing == [] && r.extra == []
    ensures columns.Some? ==> r.columns == columns.value
    ensures columns.Some? ==> r.missing == Absent(spec.expected, Fields(columns.value))
    ensures columns.Some? ==> r.extra == Absent(Fields(columns.value), spec.expected)
  {
    match columns
    case None => TableReport(spec.name, false, [], [], [])
    case Some(cols) =>
      var actual := Fields(cols);
      TableReport(spec.name, true, cols, Absent(spec.expected, actual), Absent(actual, spec.expected))
  }

  /** The body of the loop over the tables. */
  method CheckTable(spec: TableSpec, columns: Option<seq<ColumnInfo>>) returns (r: TableReport)
    ensures r == TableReportOf(spec, columns)
  {
    r := TableReport(spec.name, false, [], [], []);
    if columns.Some? {
      var cols := columns.value;
      var actual: seq<string> := [];
      var i := 0;
      while i < |cols|
        invariant 0 <= i <= |cols|
        invariant actual == Fields(cols[..i])
      {
        actual := actual + [cols[i].field];
        i := i + 1;
      }
      assert cols[..i] == cols;
      var missing := CollectAbsent(spec.expected, actual);
      var extra := CollectAbsent(actual, spec.expected);
      r := TableReport(spec.name, true, cols, missing, extra);
    }
  }

  /** The report for a database named `databaseName` whose tables have the columns
      `catalog` lists; a table absent from `catalog` does not exist. `failure` is the
      message of a database error, which replaces the report. */
  function ReportOf(databaseName: Option<string>, catalog: map<string, seq<ColumnInfo>>, failure: Option<string>): (rep: Report)
    ensures failure.Some? ==> !rep.success && rep.message == "Database check failed: " + failure.value
    ensures failure.None? ==> rep.success && |rep.tables| == |Tables|
    ensures failure.None? ==> forall i :: 0 <= i < |Tables| ==>
      rep.tables[i].name == Tables[i].name && (rep.tables[i].present <==> Tables[i].name in catalog)
    ensures failure.None? ==> forall i :: 0 <= i < |Tables| ==>
      rep.tables[i] == TableReportOf(Tables[i], Lookup(catalog, Tables[i].name))
  {
    if failure.Some? then Report(false, "Database check failed: " + failure.value, None, [])
    else Report(true, "Database check completed", databaseName, TableReports(catalog))
  }

  function Lookup(catalog: map<string, seq<ColumnInfo>>, name: string): Option<seq<ColumnInfo>> {
    if name in catalog then Some(catalog[name]) else None
  }

  /** The reports of the checked tables, each for the columns `catalog` lists for it. */
  function TableReports(catalog: map<string, seq<ColumnInfo>>): (rs: seq<TableReport>)
    ensures |rs| == |Tables|
    ensures forall i :: 0 <= i < |Tables| ==> rs[i] == TableReportOf(Tables[i], Lookup(catalog, Tables[i].name))
  {
    seq(|Tables|, i requires 0 <= i < |Tables| => TableReportOf(Tables[i], Lookup(catalog, Tables[i].name)))
  }

  /** The check's loop over the tables, in the order clients, text_points, users. */
  method Check(databaseName: Option<string>, catalog: map<string, seq<ColumnInfo>>, failure: Option<string>)
    returns (rep: Report)
    ensures rep == ReportOf(databaseName, catalog, failure)
  {
    if failure.Some? {
      return Report(false, "Database check failed: " + failure.value, None, []);
    }
    var tables: seq<TableReport> := [];
    var i := 0;
    while i < |Tables|
      invariant 0 <= i <= |Tables|
      invariant tables == TableReports(catalog)[..i]
    {
      var r := CheckTable(Tables[i], Lookup(catalog, Tables[i].name));
      tables := tables + [r];
      i := i + 1;
    }
    rep := Report(true, "Database check completed", databaseName, tables);
  }

  /** A table matches its expected columns, as sets, exactly when the check reports
      neither a missing nor an extra column; and no column is reported as both. */
  lemma MatchesIffNothingReported(spec: TableSpec, cols: seq<ColumnInfo>)
    ensures var r := TableReportOf(spec, Some(cols));
      && (r.missing == [] && r.extra == [] <==> forall c :: c in spec.expected <==> c in Fields(cols))
      && forall c :: !(c in r.missing && c in r.extra)
  {
    var r := TableReportOf(spec, Some(cols));
    var actual := Fields(cols);
    if r.missing == [] && r.extra == [] {
      forall c ensures c in spec.expected <==> c in actual {
        assert c !in r.missing && c !in r.extra;
      }
    } else if r.missing != [] {
      assert r.missing[0] in r.missing;
    } else {
      assert r.extra[0] in r.extra;
    }
  }
}

=== FILE: client_config.dfy ===
/** The admin page that configures a client: the frame preview, the text points laid
    over it, dragging a point, and the draft of a point being added. The page keeps a
    snapshot of the client and sends every change to the client store. */
module ClientConfig {
  import opened Wrappers
  import opened ClientTypes
  import opened Seqs

  /** A call the page makes on the client store. */
  datatype StoreCall =
    | UpdateClientCall(id: string, clientChanges: ClientPatch)
    | AddPointCall(clientId: string, draft: PointDraft)
    | UpdatePointCall(clientId: string, pointId: string, pointChanges: PointPatch)
    | DeletePointCall(clientId: string, pointId: string)

  datatype Axis = X | Y

  /** A positive length in CSS pixels. */
  type Extent = r: real | r > 0.0 witness 1.0

  /** The canvas element's bounding rectangle (`getBoundingClientRect()`). */
  datatype Rect = Rect(left: real, top: real, width: Extent, height: Extent)

  /** The draft of a point being added. The page always creates it with every field
      set; the font size is None after a size that `parseInt` could not read (NaN). */
  datatype Draft = Draft(
    name: string,
    x: real,
    y: real,
    fontFamily: string,
    fontSize: Option<int>,
    fontStyle: seq<string>,
    color: string)

  const DraftFamily := "Arial"
  const DraftSize := 14
  const DraftColor := "#000000"

  /** A position typed in a field: `parseFloat` (None when it reads NaN), NaN replaced
      by 0, then clamped into [0, 100]. */
  function Clamp(value: Option<real>): (r: real)
    ensures 0.0 <= r <= 100.0
    ensures value.None? ==> r == 0.0
    ensures value.Some? && 0.0 <= value.value <= 100.0 ==> r == value.value
    ensures value.Some? && value.value < 0.0 ==> r == 0.0
    ensures value.Some? && value.value > 100.0 ==> r == 100.0
  {
    var v := value.GetOr(0.0);
    if v < 0.0 then 0.0 else if v > 100.0 then 100.0 else v
  }

  /** Of all positions in [0, 100], the clamp picks the one nearest to the number typed,
      and a larger number never clamps to a smaller position. */
  lemma ClampNearest(v: real, w: real, y: real)
    requires 0.0 <= y <= 100.0
    ensures Distance(Clamp(Some(v)), v) <= Distance(y, v)
    ensures v <= w ==> Clamp(Some(v)) <= Clamp(Some(w))
  {
  }

  function Distance(a: real, b: real): real {
    if a <= b then b - a else a - b
  }

  /** The percentage of the canvas a mouse position falls at, on one axis. */
  function Percent(client: real, start: real, extent: Extent): (r: real)
    ensures start <= client <= start + extent ==> 0.0 <= r <= 100.0
    ensures client < start ==> r < 0.0
  {
    ((client - start) / extent) * 100.0
  }

  /** Checking a style adds it only when absent, at the end. */
  function WithStyle(styles: seq<string>, style: string): (r: seq<string>)
    ensures style in r
    ensures forall s :: s in r ==> s in styles || s == style
    ensures IsSubsequence(styles, r)
    ensures |r| <= |styles| + 1
    ensures NoDuplicates(styles) ==> NoDuplicates(r)
  {
    if style in styles then
      SubsequenceReflexive(styles);
      styles
    else
      SubsequenceOfExtension(styles, style);
      styles + [style]
  }

  /** Unchecking a style removes every occurrence and keeps the others in order. */
  function WithoutStyle(styles: seq<string>, style: string): (r: seq<string>)
    ensures style !in r
    ensures forall s :: s in styles && s != style ==> s in r
    ensures forall s :: s in r ==> s in styles
    ensures IsSubsequence(r, styles)
    ensures style !in styles ==> r == styles
    ensures NoDuplicates(styles) ==> NoDuplicates(r)
  {
    var r := Filter(styles, s => s != style);
    SubsequenceElements(r, styles);
    assert NoDuplicates(styles) ==> NoDuplicates(r) by {
      if NoDuplicates(styles) { SubsequenceNoDuplicates(r, styles); }
    }
    r
  }

  /** A style checkbox: set semantics over an ordered list. */
  function Toggled(styles: seq<string>, style: string, checked: bool): seq<string> {
    if checked then WithStyle(styles, style) else WithoutStyle(styles, style)
  }

  /** Toggling twice in the same direction is the same as toggling once. */
  lemma ToggleIdempotent(styles: seq<string>, style: string, checked: bool)
    ensures Toggled(Toggled(styles, style, checked), style, checked) == Toggled(styles, style, checked)
  {
    if !checked {
      var once := WithoutStyle(styles, style);
      assert forall i :: 0 <= i < |once| ==> once[i] != style;
    }
  }

  /** Checking then unchecking a style that was absent restores the list. */
  lemma CheckThenUncheck(styles: seq<string>, style: string)
    requires style !in styles
    ensures WithoutStyle(WithStyle(styles, style), style) == styles
  {
    var added := styles + [style];
    var r := WithoutStyle(added, style);
    assert added[..|styles|] == styles;
    FilterDropsLast(styles, style);
  }

  lemma FilterDropsLast(styles: seq<string>, style: string)
    requires style !in styles
    ensures Filter(styles + [style], s => s != style) == styles
    decreases |styles|
  {
    if styles == [] {
      assert Filter([style], s => s != style) == [] + Filter([style][1..], s => s != style);
    } else {
      assert (styles + [style])[1..] == styles[1..] + [style];
      FilterDropsLast(styles[1..], style);
    }
  }

  /** The point a save of the draft adds: a missing or empty family, a missing or
      zero size (falsy in JavaScript) and an empty colour take their defaults. */
  function SavedDraft(d: Draft): (p: PointDraft)
    ensures p.name == d.name && p.x == d.x && p.y == d.y && p.fontStyle == d.fontStyle
    ensures p.fontFamily == if d.fontFamily == "" then DraftFamily else d.fontFamily
    ensures p.fontSize == if d.fontSize.None? || d.fontSize.value == 0 then DraftSize else d.fontSize.value
    ensures p.color == Some(if d.color == "" then DraftColor else d.color)
  {
    PointDraft(d.name, d.x, d.y,
               if d.fontFamily == "" then DraftFamily else d.fontFamily,
               if d.fontSize.None? || d.fontSize.value == 0 then DraftSize else d.fontSize.value,
               d.fontStyle,
               Some(if d.color == "" then DraftColor else d.color))
  }

  class ConfigPage {
    var client: Option<Client>
    var activeTab: string
    var framePreview: Option<string>
    var isDragging: bool
    var draggedPoint: Option<string>
    var newPoint: Option<Draft>

    /** A point is being dragged exactly when its id is recorded. The handlers set and
        clear the two together, so a move while dragging always has a point to move. */
    predicate Valid()
      reads this
    {
      isDragging <==> draggedPoint.Some?
    }

    constructor ()
      ensures Valid()
      ensures client.None? && activeTab == "frames" && framePreview.None?
      ensures !isDragging && draggedPoint.None? && newPoint.None?
    {
      client := None;
      activeTab := "frames";
      framePreview := None;
      isDragging := false;
      draggedPoint := None;
      newPoint := None;
    }

    /** The load effect: the client with the route's id and its frame; None asks to
        navigate back to the dashboard. */
    method Load(clients: seq<Client>, clientId: Option<string>) returns (leave: bool)
      modifies this
      ensures clientId.None? ==> !leave && unchanged(this)
      ensures clientId.Some? ==> var found := Seqs.FindFirst(clients, (c: Client) => c.id == clientId.value);
        if found.Some? then
          && !leave
          && client == Some(clients[found.value]) && framePreview == clients[found.value].frame
          && activeTab == old(activeTab) && isDragging == old(isDragging)
          && draggedPoint == old(draggedPoint) && newPoint == old(newPoint)
        else leave && unchanged(this)
    {
      leave := false;
      if clientId.Some? {
        var found := Seqs.FindFirst(clients, (c: Client) => c.id == clientId.value);
        if found.Some? {
          client := Some(clients[found.value]);
          framePreview := clients[found.value].frame;
        } else {
          leave := true;
        }
      }
    }

    method SetActiveTab(tab: string)
      modifies this
      ensures activeTab == tab
      ensures client == old(client) && framePreview == old(framePreview) && isDragging == old(isDragging)
      ensures draggedPoint == old(draggedPoint) && newPoint == old(newPoint)
    {
      activeTab := tab;
    }

    /** `handleFileUpload` once the reader has produced the data URL. */
    method FrameRead(dataUrl: string)
      modifies this
      ensures framePreview == if old(client).Some? then Some(dataUrl) else old(framePreview)
      ensures client == old(client) && activeTab == old(activeTab) && isDragging == old(isDragging)
      ensures draggedPoint == old(draggedPoint) && newPoint == old(newPoint)
    {
      if client.Some? {
        framePreview := Some(dataUrl);
      }
    }

    /** `handleSaveChanges`: the frame is the preview and the footer is always cleared. */
    method SaveChanges() returns (call: Option<StoreCall>)
      ensures old(client).None? <==> call.None?
      ensures call.Some? ==>
        && call.value.UpdateClientCall? && call.value.id == client.value.id
        && call.value.clientChanges == NoClientChanges.(frame := Some(framePreview), footer := Some(None))
    {
      if client.None? {
        return None;
      }
      call := Some(UpdateClientCall(client.value.id, NoClientChanges.(frame := Some(framePreview), footer := Some(None))));
    }

    /** `handleCanvasClick`: a new draft at the clicked percentage, only on the text
        points tab and only when no draft exists. */
    method CanvasClick(clientX: real, clientY: real, rect: Rect)
      modifies this
      ensures old(client).None? || old(activeTab) != "textPoints" || old(newPoint).Some? ==> unchanged(this)
      ensures old(client).Some? && old(activeTab) == "textPoints" && old(newPoint).None? ==>
        newPoint == Some(Draft("", Percent(clientX, rect.left, rect.width), Percent(clientY, rect.top, rect.height),
                               DraftFamily, Some(DraftSize), [], DraftColor))
      ensures client == old(client) && activeTab == old(activeTab) && framePreview == old(framePreview)
      ensures isDragging == old(isDragging) && draggedPoint == old(draggedPoint)
    {
      if client.None? || activeTab != "textPoints" {
        return;
      }
      if newPoint.Some? {
        return;
      }
      var x := Percent(clientX, rect.left, rect.width);
      var y := Percent(clientY, rect.top, rect.height);
      newPoint := Some(Draft("", x, y, DraftFamily, Some(DraftSize), [], DraftColor));
    }

    /** `handleSaveNewPoint`: nothing happens while the draft has no name; otherwise the
        point is added with its defaults and the draft is dropped. */
    method SaveNewPoint() returns (call: Option<StoreCall>)
      modifies this
      ensures var ready := old(client).Some? && old(newPoint).Some? && old(newPoint).value.name != "";
        && (ready <==> call.Some?)
        && (ready ==> call == Some(AddPointCall(old(client).value.id, SavedDraft(old(newPoint).value))) && newPoint.None?)
        && (!ready ==> newPoint == old(newPoint))
      ensures client == old(client) && activeTab == old(activeTab) && framePreview == old(framePreview)
      ensures isDragging == old(isDragging) && draggedPoint == old(draggedPoint)
    {
      if client.None? || newPoint.None? || newPoint.value.name == "" {
        return None;
      }
      call := Some(AddPointCall(client.value.id, SavedDraft(newPoint.value)));
      newPoint := None;
    }

    method CancelNewPoint()
      modifies this
      ensures newPoint.None?
      ensures client == old(client) && activeTab == old(activeTab) && framePreview == old(framePreview)
      ensures isDragging == old(isDragging) && draggedPoint == old(draggedPoint)
    {
      newPoint := None;
    }

    /** The draft form's own fields (it is rendered only while a draft exists). */
    method EditDraft(name: string, fontFamily: string, fontSize: Option<int>, color: string)
      requires newPoint.Some?
      modifies this
      ensures newPoint == Some(old(newPoint).value.(name := name, fontFamily := fontFamily, fontSize := fontSize, color := color))
      ensures client == old(client) && activeTab == old(activeTab) && framePreview == old(framePreview)
      ensures isDragging == old(isDragging) && draggedPoint == old(draggedPoint)
    {
      newPoint := Some(newPoint.value.(name := name, fontFamily := fontFamily, fontSize := fontSize, color := color));
    }

    /** `handlePointMouseDown`. */
    method PointMouseDown(pointId: string)
      modifies this
      ensures Valid()
      ensures isDragging && draggedPoint == Some(pointId)
      ensures client == old(client) && activeTab == old(activeTab) && framePreview == old(framePreview)
      ensures newPoint == old(newPoint)
    {
      isDragging := true;
      draggedPoint := Some(pointId);
    }

    /** `handlePointMouseMove`: while a point is dragged, move it to the mouse's
        percentage, without clamping. */
    method PointMouseMove(clientX: real, clientY: real, rect: Rect) returns (call: Option<StoreCall>)
      ensures call.Some? <==> isDragging && draggedPoint.Some? && client.Some?
      ensures Valid() ==> (call.Some? <==> isDragging && client.Some?)
      ensures call.Some? ==> call.value == UpdatePointCall(client.value.id, draggedPoint.value,
        NoPointChanges.(x := Some(Percent(clientX, rect.left, rect.width)), y := Some(Percent(clientY, rect.top, rect.height))))
    {
      if !isDragging || draggedPoint.None? || client.None? {
        return None;
      }
      var x := Percent(clientX, rect.left, rect.width);
      var y := Percent(clientY, rect.top, rect.height);
      call := Some(UpdatePointCall(client.value.id, draggedPoint.value, NoPointChanges.(x := Some(x), y := Some(y))));
    }

    /** `handlePointMouseUp`. */
    method PointMouseUp()
      modifies this
      ensures Valid()
      ensures !isDragging && draggedPoint.None?
      ensures client == old(client) && activeTab == old(activeTab) && framePreview == old(framePreview)
      ensures newPoint == old(newPoint)
    {
      isDragging := false;
      draggedPoint := None;
    }

    /** `handlePositionChange`: only the named axis of that point, clamped. */
    method PositionChange(pointId: string, axis: Axis, value: Option<real>) returns (call: Option<StoreCall>)
      ensures call.Some? <==> client.Some?
      ensures call.Some? ==> call.value.UpdatePointCall? && call.value.clientId == client.value.id && call.value.pointId == pointId
      ensures call.Some? && axis == X ==> call.value.pointChanges == NoPointChanges.(x := Some(Clamp(value)))
      ensures call.Some? && axis == Y ==> call.value.pointChanges == NoPointChanges.(y := Some(Clamp(value)))
    {
      if client.None? {
        return None;
      }
      var v := Clamp(value);
      var changes := if axis == X then NoPointChanges.(x := Some(v)) else NoPointChanges.(y := Some(v));
      call := Some(UpdatePointCall(client.value.id, pointId, changes));
    }

    /** `handleNewPointPositionChange`: only the named axis of the draft, clamped. */
    method NewPointPositionChange(axis: Axis, value: Option<real>)
      modifies this
      ensures old(newPoint).None? ==> newPoint.None?
      ensures old(newPoint).Some? && axis == X ==> newPoint == Some(old(newPoint).value.(x := Clamp(value)))
      ensures old(newPoint).Some? && axis == Y ==> newPoint == Some(old(newPoint).value.(y := Clamp(value)))
      ensures client == old(client) && activeTab == old(activeTab) && framePreview == old(framePreview)
      ensures isDragging == old(isDragging) && draggedPoint == old(draggedPoint)
    {
      if newPoint.None? {
        return;
      }
      var v := Clamp(value);
      newPoint := Some(if axis == X then newPoint.value.(x := v) else newPoint.value.(y := v));
    }

    /** The delete button of a listed point: the store is asked to delete the point only
        when the user confirms the prompt, whose answer is `confirmed`. */
    method RemovePointClick(pointId: string, confirmed: bool) returns (call: Option<StoreCall>)
      ensures call.Some? <==> confirmed && client.Some?
      ensures call.Some? ==> call.value == DeletePointCall(client.value.id, pointId)
    {
      if confirmed && client.Some? {
        call := Some(DeletePointCall(client.value.id, pointId));
      } else {
        call := None;
      }
    }

    /** `handleStyleChange`: copies the point's styles, pushes the style when checked and
        absent, filters it out when unchecked. */
    method StyleChange(pointId: string, style: string, checked: bool) returns (call: Option<StoreCall>)
      ensures var point := if client.Some? then Seqs.FindFirst(client.value.textPoints, (p: TextPoint) => p.id == pointId) else None;
        && (call.Some? <==> point.Some?)
        && (call.Some? ==> call.value == UpdatePointCall(client.value.id, pointId,
              NoPointChanges.(fontStyle := Some(Toggled(client.value.textPoints[point.value].fontStyle, style, checked)))))
    {
      if client.None? {
        return None;
      }
      var found := Seqs.FindFirst(client.value.textPoints, (p: TextPoint) => p.id == pointId);
      if found.None? {
        return None;
      }
      var newStyles := client.value.textPoints[found.value].fontStyle;
      if checked {
        if style !in newStyles {
          newStyles := newStyles + [style];
        }
      } else {
        newStyles := Filter(newStyles, s => s != style);
      }
      call := Some(UpdatePointCall(client.value.id, pointId, NoPointChanges.(fontStyle := Some(newStyles))));
    }

    /** `handleNewPointStyleChange`: the same set semantics on the draft; unchecking an
        absent style leaves the list as it was. */
    method NewPointStyleChange(style: string, checked: bool)
      modifies this
      ensures old(newPoint).None? ==> newPoint.None?
      ensures old(newPoint).Some? ==>
        newPoint == Some(old(newPoint).value.(fontStyle := Toggled(old(newPoint).value.fontStyle, style, checked)))
      ensures client == old(client) && activeTab == old(activeTab) && framePreview == old(framePreview)
      ensures isDragging == old(isDragging) && draggedPoint == old(draggedPoint)
    {
      if newPoint.None? {
        return;
      }
      var updatedStyles := newPoint.value.fontStyle;
      if checked && style !in updatedStyles {
        updatedStyles := updatedStyles + [style];
      } else if !checked && style in updatedStyles {
        updatedStyles := Filter(updatedStyles, s => s != style);
      }
      newPoint := Some(newPoint.value.(fontStyle := updatedStyles));
    }
  }

  /** The "add field" button clicks at the viewport's origin, so the draft lands at a
      negative percentage on an axis exactly when the canvas starts past that axis' edge
      of the viewport. */
  lemma AddFieldButtonPosition(rect: Rect)
    ensures Percent(0.0, rect.left, rect.width) < 0.0 <==> rect.left > 0.0
    ensures Percent(0.0, rect.top, rect.height) < 0.0 <==> rect.top > 0.0
  {
    assert Percent(0.0, rect.left, rect.width) == -rect.left / rect.width * 100.0;
    assert Percent(0.0, rect.top, rect.height) == -rect.top / rect.height * 100.0;
  }

  /** A mouse over the spot `r` percent along the canvas reads back as `r`. */
  lemma PercentOfSpot(r: real, start: real, extent: Extent)
    ensures Percent(start + extent * r / 100.0, start, extent) == r
  {
    assert (start + extent * r / 100.0 - start) / extent == r / 100.0;
  }
}

=== FILE: client_context.dfy ===
/** The client store shared by the admin and preview pages: the list of clients,
    a loading flag and the last error. Every operation computes the new list with
    `map`/`filter`/spread over the previous one; when the request fails, a local
    fallback computes it without the server. */
module ClientContext {
  import opened Wrappers
  import opened ClientTypes
  import opened Seqs
  import Text

  // ---------------------------------------------------------------------------
  // List transforms

  /** `clients.map(c => c.id === id ? f(c) : c)`. */
  function MapClients(clients: seq<Client>, id: string, f: Client -> Client): (r: seq<Client>)
    ensures |r| == |clients|
    ensures forall i :: 0 <= i < |clients| ==> r[i] == if clients[i].id == id then f(clients[i]) else clients[i]
    decreases |clients|
  {
    if clients == [] then []
    else [if clients[0].id == id then f(clients[0]) else clients[0]] + MapClients(clients[1..], id, f)
  }

  /** `points.map(q => q.id === id ? g(q) : q)`. */
  function MapPoints(points: seq<TextPoint>, id: string, g: TextPoint -> TextPoint): (r: seq<TextPoint>)
    ensures |r| == |points|
    ensures forall i :: 0 <= i < |points| ==> r[i] == if points[i].id == id then g(points[i]) else points[i]
    decreases |points|
  {
    if points == [] then []
    else [if points[0].id == id then g(points[0]) else points[0]] + MapPoints(points[1..], id, g)
  }

  /** Mapping with no element carrying the id changes nothing. */
  lemma MapClientsNoMatch(clients: seq<Client>, id: string, f: Client -> Client)
    requires forall i :: 0 <= i < |clients| ==> clients[i].id != id
    ensures MapClients(clients, id, f) == clients
  {
  }

  lemma MapPointsNoMatch(points: seq<TextPoint>, id: string, g: TextPoint -> TextPoint)
    requires forall i :: 0 <= i < |points| ==> points[i].id != id
    ensures MapPoints(points, id, g) == points
  {
  }

  /** No two clients share an id. */
  predicate UniqueClientIds(clients: seq<Client>) {
    forall i, j :: 0 <= i < j < |clients| ==> clients[i].id != clients[j].id
  }

  /** No two points of a client share an id. */
  predicate UniquePointIds(points: seq<TextPoint>) {
    forall i, j :: 0 <= i < j < |points| ==> points[i].id != points[j].id
  }

  /** `clients.find(c => c.id === id)`. */
  function FindClient(clients: seq<Client>, id: string): (r: Option<Client>)
    ensures r.Some? ==> r.value in clients && r.value.id == id
    ensures r.None? <==> forall i :: 0 <= i < |clients| ==> clients[i].id != id
  {
    match FindFirst(clients, (c: Client) => c.id == id)
    case Some(k) => Some(clients[k])
    case None => None
  }

  /** `points.find(p => p.id === id)`. */
  function FindPoint(points: seq<TextPoint>, id: string): (r: Option<TextPoint>)
    ensures r.Some? ==> r.value in points && r.value.id == id
    ensures r.None? <==> forall i :: 0 <= i < |points| ==> points[i].id != id
  {
    match FindFirst(points, (p: TextPoint) => p.id == id)
    case Some(k) => Some(points[k])
    case None => None
  }

  /** The point with id `pointId` of the client with id `clientId`, found as
      `updateTextPoint` finds it. */
  function FindClientPoint(clients: seq<Client>, clientId: string, pointId: string): (r: Option<TextPoint>)
    ensures r.Some? <==> FindClient(clients, clientId).Some? && FindPoint(FindClient(clients, clientId).value.textPoints, pointId).Some?
  {
    var client := FindClient(clients, clientId);
    if client.Some? then FindPoint(client.value.textPoints, pointId) else None
  }

  /** `getClientByUrl`: the first client whose url is `url`, if any. */
  function ClientWithUrl(clients: seq<Client>, url: string): (r: Option<Client>)
    ensures r.None? <==> forall i :: 0 <= i < |clients| ==> clients[i].url != url
    ensures r.Some? ==> exists k :: 0 <= k < |clients| && clients[k] == r.value && r.value.url == url
                          && forall j :: 0 <= j < k ==> clients[j].url != url
  {
    match FindFirst(clients, (c: Client) => c.url == url)
    case Some(k) => Some(clients[k])
    case None => None
  }

  /** The client a draft becomes: the draft's fields, the given id and no text points. */
  function NewClient(draft: ClientDraft, id: string): (c: Client)
    ensures c.id == id && c.textPoints == []
    ensures c.name == draft.name && c.companyName == draft.companyName && c.url == draft.url
    ensures c.frame == draft.frame && c.footer == draft.footer && c.logo == draft.logo
    ensures c.password == draft.password
  {
    Client(id, draft.name, draft.companyName, draft.url, draft.frame, draft.footer, draft.logo, draft.password, [])
  }

  /** `{ ...client, textPoints: [...client.textPoints, p] }`. */
  function AppendPoint(c: Client, p: TextPoint): Client {
    c.(textPoints := c.textPoints + [p])
  }

  /** `{ ...client, textPoints: client.textPoints.map(...) }` with `g` applied to the
      points carrying `pointId`. */
  function MapClientPoints(c: Client, pointId: string, g: TextPoint -> TextPoint): Client {
    c.(textPoints := MapPoints(c.textPoints, pointId, g))
  }

  /** The map that writes one value over every point it is given. */
  function SetTo(v: TextPoint): TextPoint -> TextPoint {
    _ => v
  }

  /** The map that merges the updates into each point it is given. */
  function Patching(u: PointPatch): TextPoint -> TextPoint {
    q => PatchPoint(q, u)
  }

  /** The map that writes one client over every client it is given. */
  function SetClientTo(v: Client): Client -> Client {
    _ => v
  }

  /** The map that merges the updates into each client it is given. */
  function PatchingClient(u: ClientPatch): Client -> Client {
    c => PatchClient(c, u)
  }

  /** `client => ({ ...client, textPoints: ...map(... ? v : p) })`: every point with the
      id replaced by the one value `v`. */
  function SetPointIn(pointId: string, v: TextPoint): Client -> Client {
    c => MapClientPoints(c, pointId, SetTo(v))
  }

  /** `client => ({ ...client, textPoints: ...map(p => ... ? { ...p, ...updates } : p) })`. */
  function PatchPointIn(pointId: string, u: PointPatch): Client -> Client {
    c => MapClientPoints(c, pointId, Patching(u))
  }

  /** `{ ...client, textPoints: client.textPoints.filter(p => p.id !== pointId) }`. */
  function RemovePoints(c: Client, pointId: string): Client {
    c.(textPoints := Filter(c.textPoints, (p: TextPoint) => p.id != pointId))
  }

  /** `clients.filter(c => c.id !== id)`. */
  function RemoveClient(clients: seq<Client>, id: string): (r: seq<Client>)
    ensures forall i :: 0 <= i < |r| ==> r[i].id != id
    ensures forall i :: 0 <= i < |clients| && clients[i].id != id ==> clients[i] in r
    ensures IsSubsequence(r, clients)
  {
    Filter(clients, (c: Client) => c.id != id)
  }

  /** Adding a point appends exactly one point, at the end of the matching client's list,
      and leaves every other client as it was. */
  lemma AddPointAppendsOne(clients: seq<Client>, clientId: string, p: TextPoint)
    ensures var r := MapClients(clients, clientId, c => AppendPoint(c, p));
      && |r| == |clients|
      && forall i :: 0 <= i < |r| ==>
        if clients[i].id == clientId then
          && r[i].id == clients[i].id && r[i].name == clients[i].name && r[i].url == clients[i].url
          && |r[i].textPoints| == |clients[i].textPoints| + 1
          && r[i].textPoints[..|clients[i].textPoints|] == clients[i].textPoints
          && r[i].textPoints[|clients[i].textPoints|] == p
        else r[i] == clients[i]
  {
    var r := MapClients(clients, clientId, c => AppendPoint(c, p));
    forall i | 0 <= i < |r| && clients[i].id == clientId
      ensures r[i].textPoints[..|clients[i].textPoints|] == clients[i].textPoints
    {
      assert r[i].textPoints == clients[i].textPoints + [p];
    }
  }

  /** Updating a point replaces only the points with that id, keeping their position,
      and leaves every other point and every other client as it was. */
  lemma UpdatePointTouchesOnlyThatPoint(clients: seq<Client>, clientId: string, pointId: string, g: TextPoint -> TextPoint)
    ensures var r := MapClients(clients, clientId, c => MapClientPoints(c, pointId, g));
      && |r| == |clients|
      && forall i :: 0 <= i < |r| ==>
        if clients[i].id == clientId then
          && r[i] == clients[i].(textPoints := r[i].textPoints)
          && |r[i].textPoints| == |clients[i].textPoints|
          && forall k :: 0 <= k < |r[i].textPoints| ==>
               r[i].textPoints[k] == if clients[i].textPoints[k].id == pointId then g(clients[i].textPoints[k]) else clients[i].textPoints[k]
        else r[i] == clients[i]
  {
  }

  /** Two maps that agree on the points carrying the id give the same list. */
  lemma MapPointsAgree(points: seq<TextPoint>, id: string, f: TextPoint -> TextPoint, g: TextPoint -> TextPoint)
    requires forall i :: 0 <= i < |points| && points[i].id == id ==> f(points[i]) == g(points[i])
    ensures MapPoints(points, id, f) == MapPoints(points, id, g)
  {
    var a, b := MapPoints(points, id, f), MapPoints(points, id, g);
    assert forall i :: 0 <= i < |points| ==> a[i] == b[i];
  }

  /** The success path of `updateTextPoint` merges the updates into the point it found
      first and writes that one value over every point with the id; the fallback merges
      into each such point separately. With unique point ids the two agree. */
  lemma UpdatePointPathsAgree(points: seq<TextPoint>, pointId: string, u: PointPatch)
    requires UniquePointIds(points)
    requires FindPoint(points, pointId).Some?
    ensures var found := FindPoint(points, pointId).value;
      MapPoints(points, pointId, SetTo(PatchPoint(found, u))) == MapPoints(points, pointId, Patching(u))
  {
    var found := FindPoint(points, pointId).value;
    var k :| 0 <= k < |points| && points[k] == found;
    forall i | 0 <= i < |points| && points[i].id == pointId
      ensures SetTo(PatchPoint(found, u))(points[i]) == Patching(u)(points[i])
    {
      assert points[i] == found by {
        if i != k { assert false; }
      }
    }
    MapPointsAgree(points, pointId, SetTo(PatchPoint(found, u)), Patching(u));
  }

  /** Two maps that agree on the clients carrying the id give the same list. */
  lemma MapClientsAgree(clients: seq<Client>, id: string, f: Client -> Client, g: Client -> Client)
    requires forall i :: 0 <= i < |clients| && clients[i].id == id ==> f(clients[i]) == g(clients[i])
    ensures MapClients(clients, id, f) == MapClients(clients, id, g)
  {
    var a, b := MapClients(clients, id, f), MapClients(clients, id, g);
    assert forall i :: 0 <= i < |clients| ==> a[i] == b[i];
  }

  /** Likewise for `updateClient`, with unique client ids. */
  lemma UpdateClientPathsAgree(clients: seq<Client>, id: string, u: ClientPatch)
    requires UniqueClientIds(clients)
    requires FindClient(clients, id).Some?
    ensures var found := FindClient(clients, id).value;
      MapClients(clients, id, SetClientTo(PatchClient(found, u))) == MapClients(clients, id, PatchingClient(u))
  {
    var found := FindClient(clients, id).value;
    var k :| 0 <= k < |clients| && clients[k] == found;
    forall i | 0 <= i < |clients| && clients[i].id == id
      ensures SetClientTo(PatchClient(found, u))(clients[i]) == PatchingClient(u)(clients[i])
    {
      assert clients[i] == found by {
        if i != k { assert false; }
      }
    }
    MapClientsAgree(clients, id, SetClientTo(PatchClient(found, u)), PatchingClient(u));
  }


  /** Removing points keeps the client's other fields and the other points in order. */
  lemma DeletePointTouchesOnlyThatPoint(clients: seq<Client>, clientId: string, pointId: string)
    ensures var r := MapClients(clients, clientId, c => RemovePoints(c, pointId));
      && |r| == |clients|
      && forall i :: 0 <= i < |r| ==>
        if clients[i].id == clientId then
          && r[i] == clients[i].(textPoints := r[i].textPoints)
          && IsSubsequence(r[i].textPoints, clients[i].textPoints)
          && (forall k :: 0 <= k < |r[i].textPoints| ==> r[i].textPoints[k].id != pointId)
          && (forall k :: 0 <= k < |clients[i].textPoints| && clients[i].textPoints[k].id != pointId
                ==> clients[i].textPoints[k] in r[i].textPoints)
        else r[i] == clients[i]
  {
  }

  // ---------------------------------------------------------------------------
  // The store

  /** What a request to the API came back with: a JSON body with `success: true` and
      possibly the stored record, a body with `success: false` and possibly a message,
      a non-2xx status, or no response at all. */
  datatype Reply<T> =
    | Ok(echo: Option<T>)
    | Refused(message: Option<string>)
    | HttpError(status: int)
    | NetworkError(cause: string)

  /** The message of the error a failed request throws. */
  function Reason<T>(reply: Reply<T>, refusal: string): (m: string)
    requires !reply.Ok?
    ensures reply.Refused? && reply.message.Some? && reply.message.value != "" ==> m == reply.message.value
    ensures reply.Refused? && (reply.message.None? || reply.message.value == "") ==> m == refusal
    ensures reply.HttpError? ==> Text.HasPrefix(m, "HTTP error! Status: ")
  {
    match reply
    case Refused(message) => if message.Some? && message.value != "" then message.value else refusal
    case HttpError(status) => "HTTP error! Status: " + Text.IntToDecimal(status)
    case NetworkError(cause) => cause
  }

  class ClientStore {
    var clients: seq<Client>
    var loading: bool
    var error: Option<string>

    constructor ()
      ensures clients == [] && !loading && error.None?
    {
      clients := [];
      loading := false;
      error := None;
    }

    /** `getClientByUrl`. */
    function ClientByUrl(url: string): Option<Client>
      reads this
    {
      ClientWithUrl(clients, url)
    }

    /** `addClient`: the server's echo of the new client, or the local record, is
        appended; on failure the local record (with a second fresh id) is appended. */
    method AddClient(draft: ClientDraft, freshId: string, fallbackId: string, reply: Reply<Client>)
      modifies this
      ensures !loading
      ensures reply.Ok? ==> clients == old(clients) + [reply.echo.GetOr(NewClient(draft, freshId))] && error.None?
      ensures !reply.Ok? ==> clients == old(clients) + [NewClient(draft, fallbackId)]
                             && error == Some("Error adding client: " + Reason(reply, "Failed to add client"))
    {
      loading := true;
      error := None;
      var newClient := NewClient(draft, freshId);
      if reply.Ok? {
        clients := clients + [reply.echo.GetOr(newClient)];
      } else {
        error := Some("Error adding client: " + Reason(reply, "Failed to add client"));
        clients := clients + [NewClient(draft, fallbackId)];
      }
      loading := false;
    }

    /** `updateClient`: an unknown id throws "Client not found" before any request. */
    method UpdateClient(id: string, updates: ClientPatch, reply: Reply<()>)
      modifies this
      ensures !loading
      ensures var found := FindClient(old(clients), id);
        found.Some? && reply.Ok? ==>
          clients == MapClients(old(clients), id, SetClientTo(PatchClient(found.value, updates))) && error.None?
      ensures var found := FindClient(old(clients), id);
        !(found.Some? && reply.Ok?) ==>
          && clients == MapClients(old(clients), id, PatchingClient(updates))
          && error == Some("Error updating client: " + if found.None? then "Client not found" else Reason(reply, "Failed to update client"))
    {
      loading := true;
      error := None;
      var found := FindClient(clients, id);
      if found.Some? && reply.Ok? {
        var updated := PatchClient(found.value, updates);
        clients := MapClients(clients, id, SetClientTo(updated));
      } else {
        var reason := if found.None? then "Client not found" else Reason(reply, "Failed to update client");
        error := Some("Error updating client: " + reason);
        clients := MapClients(clients, id, PatchingClient(updates));
      }
      loading := false;
    }

    /** `deleteClient`: the same filter on success and on failure. */
    method DeleteClient(id: string, reply: Reply<()>)
      modifies this
      ensures !loading
      ensures clients == RemoveClient(old(clients), id)
      ensures error == if reply.Ok? then None else Some("Error deleting client: " + Reason(reply, "Failed to delete client"))
    {
      loading := true;
      error := None;
      if !reply.Ok? {
        error := Some("Error deleting client: " + Reason(reply, "Failed to delete client"));
      }
      clients := RemoveClient(clients, id);
      loading := false;
    }

    /** `addTextPoint`: the server's echo of the point, or the local record, is appended
        to the matching client; on failure the local record (with a second fresh id). */
    method AddTextPoint(clientId: string, draft: PointDraft, freshId: string, fallbackId: string, reply: Reply<TextPoint>)
      modifies this
      ensures !loading
      ensures reply.Ok? ==>
        && clients == MapClients(old(clients), clientId, c => AppendPoint(c, reply.echo.GetOr(WithId(draft, freshId))))
        && error.None?
      ensures !reply.Ok? ==>
        && clients == MapClients(old(clients), clientId, c => AppendPoint(c, WithId(draft, fallbackId)))
        && error == Some("Error adding text point: " + Reason(reply, "Failed to add text point"))
    {
      loading := true;
      error := None;
      if reply.Ok? {
        var added := reply.echo.GetOr(WithId(draft, freshId));
        clients := MapClients(clients, clientId, c => AppendPoint(c, added));
      } else {
        error := Some("Error adding text point: " + Reason(reply, "Failed to add text point"));
        var added := WithId(draft, fallbackId);
        clients := MapClients(clients, clientId, c => AppendPoint(c, added));
      }
      loading := false;
    }

    /** `updateTextPoint`: an unknown client or point throws before any request, and the
        fallback then finds nothing to change. */
    method UpdateTextPoint(clientId: string, pointId: string, updates: PointPatch, reply: Reply<()>)
      modifies this
      ensures !loading
      ensures var point := FindClientPoint(old(clients), clientId, pointId);
        point.Some? && reply.Ok? ==>
          clients == MapClients(old(clients), clientId, SetPointIn(pointId, PatchPoint(point.value, updates)))
          && error.None?
      ensures var point := FindClientPoint(old(clients), clientId, pointId);
        !(point.Some? && reply.Ok?) ==>
          && clients == MapClients(old(clients), clientId, PatchPointIn(pointId, updates))
          && error == Some("Error updating text point: " +
               if FindClient(old(clients), clientId).None? then "Client not found"
               else if point.None? then "Text point not found"
               else Reason(reply, "Failed to update text point"))
    {
      loading := true;
      var point := FindClientPoint(clients, clientId, pointId);
      if point.Some? && reply.Ok? {
        clients, error := MapClients(clients, clientId, SetPointIn(pointId, PatchPoint(point.value, updates))), None;
      } else {
        var reason := if FindClient(clients, clientId).None? then "Client not found"
                      else if point.None? then "Text point not found"
                      else Reason(reply, "Failed to update text point");
        clients, error := MapClients(clients, clientId, PatchPointIn(pointId, updates)), Some("Error updating text point: " + reason);
      }
      loading := false;
    }

    /** `deleteTextPoint`: the same filter on success and on failure. */
    method DeleteTextPoint(clientId: string, pointId: string, reply: Reply<()>)
      modifies this
      ensures !loading
      ensures clients == MapClients(old(clients), clientId, c => RemovePoints(c, pointId))
      ensures error == if reply.Ok? then None else Some("Error deleting text point: " + Reason(reply, "Failed to delete text point"))
    {
      loading := true;
      error := None;
      if !reply.Ok? {
        error := Some("Error deleting text point: " + Reason(reply, "Failed to delete text point"));
      }
      clients := MapClients(clients, clientId, c => RemovePoints(c, pointId));
      loading := false;
    }
  }

  /** Updating a point of an unknown client, or an unknown point, leaves the list as it was. */
  lemma UnknownPointUpdateChangesNothing(clients: seq<Client>, clientId: string, pointId: string, u: PointPatch)
    requires var client := FindClient(clients, clientId);
      client.None? || FindPoint(client.value.textPoints, pointId).None?
    requires UniqueClientIds(clients)
    ensures MapClients(clients, clientId, PatchPointIn(pointId, u)) == clients
  {
    var r := MapClients(clients, clientId, PatchPointIn(pointId, u));
    var client := FindClient(clients, clientId);
    forall i | 0 <= i < |clients| ensures r[i] == clients[i] {
      if clients[i].id == clientId {
        var k :| 0 <= k < |clients| && clients[k] == client.value;
        assert i == k by {
          if i != k { assert false; }
        }
        MapPointsNoMatch(clients[i].textPoints, pointId, Patching(u));
      }
    }
  }
}

=== FILE: client_form.dfy ===
/** The admin form that creates a client or edits its name and url. */
module ClientForm {
  import opened Wrappers
  import opened ClientTypes
  import Seqs
  import Text

  const NameRequired := "O nome do cliente é obrigatório"
  const UrlRequired := "A URL do cliente é obrigatória"
  const UrlMalformed := "A URL deve conter apenas letras, números, traços e underscores"
  const UrlTaken := "Esta URL já está em uso por outro cliente"

  datatype FormData = FormData(name: string, url: string)

  /** One message per field; "" means no error. */
  datatype FormErrors = FormErrors(name: string, url: string)

  datatype Validation = Validation(valid: bool, errors: FormErrors)

  datatype Field = Name | Url

  /** What a valid submit asks of the client store. */
  datatype FormCall =
    | Create(draft: ClientDraft)
    | Update(id: string, changes: ClientPatch)

  /** A character of `[a-zA-Z0-9-_]`. */
  predicate SlugChar(c: char) {
    ('a' <= c <= 'z') || ('A' <= c <= 'Z') || ('0' <= c <= '9') || c == '-' || c == '_'
  }

  /** `/^[a-zA-Z0-9-_]+$/.test(s)`. */
  predicate IsSlug(s: string) {
    |s| >= 1 && forall i :: 0 <= i < |s| ==> SlugChar(s[i])
  }

  /** A url in the pattern is never blank, so the pattern is only consulted for urls
      that passed the emptiness check and a blank url always gets the "required" error. */
  lemma SlugIsNotBlank(s: string)
    requires IsSlug(s)
    ensures !Text.IsBlank(s)
  {
    assert SlugChar(s[0]);
  }

  /** `clients.find(c => c.url === url && c.id !== editingId)`: another client has the
      url. While creating (no id) every client counts as another one. */
  function TakenByOther(clients: seq<Client>, url: string, editingId: Option<string>): (taken: bool)
    ensures taken <==> exists i :: 0 <= i < |clients| && clients[i].url == url && Some(clients[i].id) != editingId
  {
    Seqs.FindFirst(clients, (c: Client) => c.url == url && Some(c.id) != editingId).Some?
  }

  /** `validateForm`: a name error when the trimmed name is empty; for the url, the first
      of: empty after trimming, not in the pattern, used by another client. */
  function Validate(form: FormData, clients: seq<Client>, editingId: Option<string>): (v: Validation)
    ensures v.valid <==> v.errors.name == "" && v.errors.url == ""
    ensures v.errors.name == (if Text.IsBlank(form.name) then NameRequired else "")
    ensures Text.IsBlank(form.url) ==> v.errors.url == UrlRequired
    ensures !Text.IsBlank(form.url) && !IsSlug(form.url) ==> v.errors.url == UrlMalformed
    ensures IsSlug(form.url) ==>
      v.errors.url == (if TakenByOther(clients, form.url, editingId) then UrlTaken else "")
  {
    var nameBlank := Text.IsBlank(form.name);
    var nameError := if nameBlank then NameRequired else "";
    var valid := !nameBlank;
    var urlError :=
      if Text.IsBlank(form.url) then UrlRequired
      else if !IsSlug(form.url) then UrlMalformed
      else if TakenByOther(clients, form.url, editingId) then UrlTaken
      else "";
    var valid := valid && urlError == "";
    assert IsSlug(form.url) ==> !Text.IsBlank(form.url) by {
      if IsSlug(form.url) { SlugIsNotBlank(form.url); }
    }
    Validation(valid, FormErrors(nameError, urlError))
  }

  /** A client being edited may keep its own url: only a client with another id makes
      the url a duplicate. */
  lemma EditedClientKeepsItsUrl(form: FormData, clients: seq<Client>, id: string)
    requires IsSlug(form.url) && !Text.IsBlank(form.name)
    requires forall i :: 0 <= i < |clients| && clients[i].url == form.url ==> clients[i].id == id
    ensures Validate(form, clients, Some(id)).valid
  {
  }

  /** While creating, a url any client already has is refused. */
  lemma CreateRefusesUsedUrl(form: FormData, clients: seq<Client>, k: nat)
    requires IsSlug(form.url)
    requires k < |clients| && clients[k].url == form.url
    ensures Validate(form, clients, None).errors.url == UrlTaken
    ensures !Validate(form, clients, None).valid
  {
    assert Some(clients[k].id) != None;
  }

  class FormPage {
    var formData: FormData
    var errors: FormErrors
    const editingId: Option<string>

    constructor (clientId: Option<string>)
      ensures formData == FormData("", "") && errors == FormErrors("", "") && editingId == clientId
    {
      formData := FormData("", "");
      errors := FormErrors("", "");
      editingId := clientId;
    }

    /** The load effect while editing: the client's name and url; an unknown id asks to
        navigate back to the dashboard. */
    method Load(clients: seq<Client>) returns (leave: bool)
      modifies this
      ensures !Truthy(editingId) ==> !leave && unchanged(this)
      ensures Truthy(editingId) ==> var found := Seqs.FindFirst(clients, (c: Client) => c.id == editingId.value);
        if found.Some? then
          !leave && formData == FormData(clients[found.value].name, clients[found.value].url) && errors == old(errors)
        else leave && unchanged(this)
    {
      leave := false;
      if Truthy(editingId) {
        var found := Seqs.FindFirst(clients, (c: Client) => c.id == editingId.value);
        if found.Some? {
          formData := FormData(clients[found.value].name, clients[found.value].url);
        } else {
          leave := true;
        }
      }
    }

    /** `handleChange`: only the edited field changes, and only its error is cleared. */
    method Change(field: Field, value: string)
      modifies this
      ensures field == Name ==> formData == old(formData).(name := value) && errors == old(errors).(name := "")
      ensures field == Url ==> formData == old(formData).(url := value) && errors == old(errors).(url := "")
    {
      if field == Name {
        formData := formData.(name := value);
        if errors.name != "" {
          errors := errors.(name := "");
        }
      } else {
        formData := formData.(url := value);
        if errors.url != "" {
          errors := errors.(url := "");
        }
      }
    }

    /** `handleSubmit`: the errors are replaced by the validation's; an invalid form
        calls nothing, a valid one updates the edited client's name and url or creates
        a client with no images and no text points, then leaves the page. */
    method Submit(clients: seq<Client>) returns (call: Option<FormCall>, leave: bool)
      modifies this
      ensures var v := Validate(old(formData), clients, editingId);
        && errors == v.errors && formData == old(formData)
        && (call.Some? <==> v.valid) && (leave <==> v.valid)
        && (v.valid && Truthy(editingId) ==>
              call == Some(Update(editingId.value, NoClientChanges.(name := Some(formData.name), url := Some(formData.url)))))
        && (v.valid && !Truthy(editingId) ==>
              call == Some(Create(ClientDraft(formData.name, None, formData.url, None, None, None, None, []))))
    {
      var v := Validate(formData, clients, editingId);
      errors := v.errors;
      if !v.valid {
        return None, false;
      }
      if Truthy(editingId) {
        call := Some(Update(editingId.value, NoClientChanges.(name := Some(formData.name), url := Some(formData.url))));
      } else {
        call := Some(Create(ClientDraft(formData.name, None, formData.url, None, None, None, None, [])));
      }
      leave := true;
    }
  }
}

=== FILE: client_preview.dfy ===
/** The public page of a client: it finds the client by its url, asks for the
    client's password when one is set, collects a photo and one text per text point,
    and shows the composed image. */
module ClientPreview {
  import opened Wrappers
  import opened ClientTypes
  import ClientContext

  /** What the page renders. */
  datatype Screen = NotFound | PasswordForm | Editor

  /** The inputs the page hands to the compositor. */
  datatype CanvasProps = CanvasProps(
    backgroundImage: Option<string>,
    frameImage: Option<string>,
    footerImage: Option<string>,
    textPoints: seq<TextPoint>,
    textValues: map<string, string>)

  /** The initial text values: one empty entry per point id. */
  method InitialTextValues(points: seq<TextPoint>) returns (values: map<string, string>)
    ensures forall id :: id in values <==> exists i :: 0 <= i < |points| && points[i].id == id
    ensures forall id :: id in values ==> values[id] == ""
  {
    values := map[];
    var i := 0;
    while i < |points|
      invariant 0 <= i <= |points|
      invariant forall id :: id in values <==> exists k :: 0 <= k < i && points[k].id == id
      invariant forall id :: id in values ==> values[id] == ""
    {
      values := values[points[i].id := ""];
      i := i + 1;
    }
  }

  class PreviewPage {
    var client: Option<Client>
    var uploadedImage: Option<string>
    var textValues: map<string, string>
    var isLoading: bool
    var clientPassword: string
    var isAuthenticated: bool

    /** A loaded client without a password is always open. */
    predicate Valid()
      reads this
    {
      client.Some? && !Truthy(client.value.password) ==> isAuthenticated
    }

    constructor ()
      ensures Valid()
      ensures client.None? && uploadedImage.None? && textValues == map[] && !isLoading
      ensures clientPassword == "" && !isAuthenticated
    {
      client := None;
      uploadedImage := None;
      textValues := map[];
      isLoading := false;
      clientPassword := "";
      isAuthenticated := false;
    }

    /** The load effect: the client with the route's url, an empty value per point, and
        immediate access when the client has no password. A password-protected client
        does not reset an access granted earlier. */
    method Load(clients: seq<Client>, clientUrl: Option<string>)
      requires Valid()
      modifies this
      ensures Valid()
      ensures var found := if Truthy(clientUrl) then ClientContext.ClientWithUrl(clients, clientUrl.value) else None;
        if found.None? then unchanged(this)
        else
          && client == found
          && (forall id :: id in textValues <==> exists i :: 0 <= i < |found.value.textPoints| && found.value.textPoints[i].id == id)
          && (forall id :: id in textValues ==> textValues[id] == "")
          && isAuthenticated == (old(isAuthenticated) || !Truthy(found.value.password))
          && uploadedImage == old(uploadedImage) && isLoading == old(isLoading) && clientPassword == old(clientPassword)
    {
      if !Truthy(clientUrl) {
        return;
      }
      var found := ClientContext.ClientWithUrl(clients, clientUrl.value);
      if found.None? {
        return;
      }
      client := found;
      textValues := InitialTextValues(found.value.textPoints);
      if !Truthy(found.value.password) {
        isAuthenticated := true;
      }
    }

    /** The password field's onChange. */
    method TypePassword(text: string)
      requires Valid()
      modifies this
      ensures Valid()
      ensures clientPassword == text
      ensures client == old(client) && uploadedImage == old(uploadedImage) && textValues == old(textValues)
      ensures isLoading == old(isLoading) && isAuthenticated == old(isAuthenticated)
    {
      clientPassword := text;
    }

    /** `handlePasswordSubmit`: access is granted only when the typed text equals the
        client's password; otherwise nothing changes. */
    method PasswordSubmit()
      requires Valid()
      modifies this
      ensures Valid()
      ensures isAuthenticated == (old(isAuthenticated) || (client.Some? && client.value.password == Some(clientPassword)))
      ensures client == old(client) && uploadedImage == old(uploadedImage) && textValues == old(textValues)
      ensures isLoading == old(isLoading) && clientPassword == old(clientPassword)
    {
      if client.Some? && client.value.password == Some(clientPassword) {
        isAuthenticated := true;
      }
    }

    /** `handleFileUpload` starting a read. */
    method BeginUpload()
      requires Valid()
      modifies this
      ensures Valid()
      ensures isLoading
      ensures client == old(client) && uploadedImage == old(uploadedImage) && textValues == old(textValues)
      ensures clientPassword == old(clientPassword) && isAuthenticated == old(isAuthenticated)
    {
      isLoading := true;
    }

    /** The reader's onload: the photo is the data URL and loading ends. */
    method UploadRead(dataUrl: string)
      requires Valid()
      modifies this
      ensures Valid()
      ensures uploadedImage == Some(dataUrl) && !isLoading
      ensures client == old(client) && textValues == old(textValues)
      ensures clientPassword == old(clientPassword) && isAuthenticated == old(isAuthenticated)
    {
      uploadedImage := Some(dataUrl);
      isLoading := false;
    }

    /** The reader's onerror: loading ends and the photo stays as it was. */
    method UploadFailed()
      requires Valid()
      modifies this
      ensures Valid()
      ensures !isLoading
      ensures client == old(client) && uploadedImage == old(uploadedImage) && textValues == old(textValues)
      ensures clientPassword == old(clientPassword) && isAuthenticated == old(isAuthenticated)
    {
      isLoading := false;
    }

    /** The "new image" buttons. */
    method ClearImage()
      requires Valid()
      modifies this
      ensures Valid()
      ensures uploadedImage.None?
      ensures client == old(client) && textValues == old(textValues) && isLoading == old(isLoading)
      ensures clientPassword == old(clientPassword) && isAuthenticated == old(isAuthenticated)
    {
      uploadedImage := None;
    }

    /** `handleTextChange`: only the entry for `pointId` changes. */
    method TextChange(pointId: string, value: string)
      requires Valid()
      modifies this
      ensures Valid()
      ensures pointId in textValues && textValues[pointId] == value
      ensures forall id :: id != pointId ==> (id in textValues <==> id in old(textValues))
      ensures forall id :: id != pointId && id in textValues ==> textValues[id] == old(textValues)[id]
      ensures client == old(client) && uploadedImage == old(uploadedImage) && isLoading == old(isLoading)
      ensures clientPassword == old(clientPassword) && isAuthenticated == old(isAuthenticated)
    {
      textValues := textValues[pointId := value];
    }

    /** What the page renders: no client, the password form, or the editor. */
    function Current(): (s: Screen)
      reads this
      ensures s == NotFound <==> client.None?
      ensures s == PasswordForm <==> client.Some? && Truthy(client.value.password) && !isAuthenticated
    {
      if client.None? then NotFound
      else if Truthy(client.value.password) && !isAuthenticated then PasswordForm
      else Editor
    }

    /** The download button is disabled when there is neither a frame nor a photo. */
    function DownloadDisabled(): (d: bool)
      reads this
      requires client.Some?
      ensures d <==> !Truthy(client.value.frame) && !Truthy(uploadedImage)
    {
      !Truthy(client.value.frame) && !Truthy(uploadedImage)
    }

    /** The "new image" button is disabled when there is no photo. */
    function NewImageDisabled(): (d: bool)
      reads this
      ensures d <==> !Truthy(uploadedImage)
    {
      !Truthy(uploadedImage)
    }

    /** The compositor's inputs: the photo, the client's frame, never a footer, and the
        client's points with the typed values. */
    function Canvas(): (p: CanvasProps)
      reads this
      requires client.Some?
      ensures p.footerImage.None?
      ensures p.backgroundImage == uploadedImage && p.frameImage == client.value.frame
      ensures p.textPoints == client.value.textPoints && p.textValues == textValues
    {
      CanvasProps(uploadedImage, client.value.frame, None, client.value.textPoints, textValues)
    }
  }

  /** On a loaded page the editor is shown exactly when the client has no password or
      access was granted. */
  lemma EditorShownWhenOpen(page: PreviewPage)
    requires page.Valid() && page.client.Some?
    ensures page.Current() == Editor <==> !Truthy(page.client.value.password) || page.isAuthenticated
  {
  }
}

=== FILE: client_requests.dfy ===
/** The requests the client store sends to the client endpoint, and how the endpoint
    answers them. The store sends its update and its delete as POSTs, with the
    operation named in an `action` query key; the endpoint dispatches on the HTTP
    method alone and reads no such key. */
module ClientRequests {
  import opened Wrappers
  import opened Php
  import opened ClientTypes
  import ClientContext
  import TextPointsApi
  import ClientsApi

  /** A request as the endpoint sees it: the method, the query keys it reads and the
      decoded body (None when there is none). */
  datatype HttpRequest = HttpRequest(method_: HttpMethod, query: ClientsApi.Query, body: Option<ClientsApi.ClientBody>)

  const NoQuery := ClientsApi.Query(Missing, Missing)

  /** `JSON.stringify` drops an undefined key. */
  function KeyOf<T>(v: Option<T>): (f: Field<T>)
    ensures f.Isset() <==> v.Some?
    ensures v.Some? ==> f.value == v.value
  {
    if v.Some? then Given(v.value) else Missing
  }

  /** `JSON.stringify` keeps a key whose value is `null` and writes the `null`. */
  function NullableKeyOf<T>(v: Option<T>): (f: Field<T>)
    ensures f.KeyExists()
    ensures f.Isset() <==> v.Some?
    ensures v.Some? ==> f.value == v.value
  {
    if v.Some? then Given(v.value) else Null
  }

  /** A text point as the body of a request carries it. */
  function PointBodyOf(p: TextPoint): (b: TextPointsApi.PointBody)
    ensures TextPointsApi.Complete(b) && b.id == Given(p.id)
    ensures b.x == Given(p.x) && b.y == Given(p.y) && b.fontStyle == Given(p.fontStyle)
  {
    TextPointsApi.PointBody(Given(p.id), Given(p.name), Given(p.x), Given(p.y),
      Given(p.fontFamily), Given(p.fontSize), Given(p.fontStyle), KeyOf(p.color))
  }

  /** A client as the body of a request carries it: every key it has, with its points.
      The optional company name and password are dropped when undefined; frame, footer
      and logo are `string | null` and sent as `null` when they have no value. */
  function BodyOf(c: Client): (b: ClientsApi.ClientBody)
    ensures b.id == Given(c.id) && b.name == Given(c.name) && b.url == Given(c.url)
    ensures c.companyName.Some? ==> b.companyName == Given(c.companyName.value)
    ensures c.companyName.None? ==> b.companyName.Missing?
    ensures c.password.Some? ==> b.password == Given(c.password.value)
    ensures c.password.None? ==> b.password.Missing?
    ensures c.frame.Some? ==> b.frame == Given(c.frame.value)
    ensures c.frame.None? ==> b.frame.Null?
    ensures c.footer.Some? ==> b.footer == Given(c.footer.value)
    ensures c.footer.None? ==> b.footer.Null?
    ensures c.logo.Some? ==> b.logo == Given(c.logo.value)
    ensures c.logo.None? ==> b.logo.Null?
    ensures b.textPoints.Isset() && |b.textPoints.value| == |c.textPoints|
    ensures forall i :: 0 <= i < |c.textPoints| ==> b.textPoints.value[i] == PointBodyOf(c.textPoints[i])
  {
    ClientsApi.ClientBody(Given(c.id), Given(c.name), KeyOf(c.companyName), Given(c.url),
      NullableKeyOf(c.frame), NullableKeyOf(c.footer), NullableKeyOf(c.logo), KeyOf(c.password),
      Given(seq(|c.textPoints|, i requires 0 <= i < |c.textPoints| => PointBodyOf(c.textPoints[i]))))
  }

  /** `addClient`: a POST of the new record. */
  function AddRequest(c: Client): HttpRequest {
    HttpRequest(Post, NoQuery, Some(BodyOf(c)))
  }

  /** `updateClient` as written: a POST of the updated record. */
  function UpdateRequestAsWritten(c: Client): HttpRequest {
    HttpRequest(Post, NoQuery, Some(BodyOf(c)))
  }

  /** `deleteClient` as written: a POST of `{ id }`. */
  function DeleteRequestAsWritten(id: string): HttpRequest {
    HttpRequest(Post, NoQuery, Some(ClientsApi.ClientBody(Given(id), Missing, Missing, Missing, Missing, Missing, Missing, Missing, Missing)))
  }

  /** The update the endpoint understands: a PUT of the updated record. */
  function UpdateRequest(c: Client): HttpRequest {
    HttpRequest(Put, NoQuery, Some(BodyOf(c)))
  }

  /** The delete the endpoint understands: a DELETE naming the id in the query. */
  function DeleteRequest(id: string): HttpRequest {
    HttpRequest(Delete, ClientsApi.Query(Given(id), Missing), None)
  }

  /** What the endpoint as written does with a request. */
  function SendAsWritten(req: HttpRequest, db: ClientsApi.Db, freshId: string, uniq: nat -> string, executed: bool, dbError: string): ClientsApi.Run
    requires !req.method_.Options?
  {
    ClientsApi.RespondAsWritten(req.method_, req.query, req.body, db, freshId, uniq, executed, dbError)
  }

  /** The answer of the endpoint with its values bound from variables, for a database in
      state `db` whose answer to the reported statement is `executed`/`dbError`. */
  function Send(req: HttpRequest, db: ClientsApi.Db, freshId: string, uniq: nat -> string, executed: bool, dbError: string): ClientsApi.Outcome
    requires !req.method_.Options?
  {
    ClientsApi.Respond(req.method_, req.query, req.body, db, freshId, uniq, executed, dbError)
  }

  /** What the store's `fetch` makes of an answer: a non-2xx status is an HTTP error,
      otherwise the body's `success` decides. */
  function ReplyOf(resp: ClientsApi.Response): (r: ClientContext.Reply<()>)
    ensures r.Ok? <==> 200 <= resp.status < 300 && resp.success
    ensures r.HttpError? <==> !(200 <= resp.status < 300)
  {
    if !(200 <= resp.status < 300) then ClientContext.HttpError(resp.status)
    else if resp.success then ClientContext.Ok(None)
    else ClientContext.Refused(resp.message)
  }

  /** What the store makes of a run that may have died. The endpoint turns
      `display_errors` on, so PHP writes the uncaught error's text as the body and keeps
      status 200: `response.ok` holds and `response.json()` throws, with the message
      `parseError`. */
  function RunReplyOf(run: ClientsApi.Run, parseError: string): (r: ClientContext.Reply<()>)
    ensures run.Answered? ==> r == ReplyOf(run.outcome.resp)
    ensures run.Died? ==> !r.Ok? && !r.HttpError? && !r.Refused?
    ensures run.Died? ==> ClientContext.Reason(r, "") == parseError
  {
    if run.Died? then ClientContext.NetworkError(parseError) else ReplyOf(run.outcome.resp)
  }

  /** As written, adding a client always fails: the POST dies binding the INSERT and
      nothing is stored. The store cannot read the error page as JSON, so its error is
      the parse error, not an HTTP status. */
  lemma AddDiesAsWritten(c: Client, db: ClientsApi.Db, freshId: string, uniq: nat -> string, executed: bool, dbError: string,
                         parseError: string)
    ensures var r := SendAsWritten(AddRequest(c), db, freshId, uniq, executed, dbError);
      && r == ClientsApi.Died([], 4)
      && RunReplyOf(r, parseError) == ClientContext.NetworkError(parseError)
      && ClientContext.Reason(RunReplyOf(r, parseError), "Failed to add client") == parseError
  {
  }

  /** With the values bound from variables, a new client is stored under the endpoint's
      own fresh id, not under the id the store gave it, and the answer echoes the stored
      record. */
  lemma AddStoresUnderFreshId(c: Client, db: ClientsApi.Db, freshId: string, uniq: nat -> string, dbError: string)
    ensures var o := Send(AddRequest(c), db, freshId, uniq, true, dbError);
      && o.resp.success && o.resp.payload.Created? && o.resp.payload.created.id == freshId
      && o.issued[0].params[0] == Str(freshId)
  {
  }

  /** As written, an update reaches the endpoint as a POST, which dies binding the
      INSERT: the record is not changed and the store sees the parse error. Once the
      endpoint binds from variables, the same POST inserts a second client under a fresh
      id, the record it meant to change stays as it was, and the store sees a success. */
  lemma UpdateAsWrittenTakesPost(c: Client, db: ClientsApi.Db, freshId: string, uniq: nat -> string, executed: bool, dbError: string,
                                 parseError: string)
    ensures var r := SendAsWritten(UpdateRequestAsWritten(c), db, freshId, uniq, executed, dbError);
      && r == ClientsApi.Died([], 4)
      && RunReplyOf(r, parseError) == ClientContext.NetworkError(parseError)
      && ClientContext.Reason(RunReplyOf(r, parseError), "Failed to update client") == parseError
    ensures var o := Send(UpdateRequestAsWritten(c), db, freshId, uniq, true, dbError);
      && o.issued[0] == ClientsApi.ClientInsert(freshId, BodyOf(c))
      && o.issued[0].params[0] == Str(freshId)
      && ReplyOf(o.resp).Ok?
  {
  }

  /** As written, a delete reaches the endpoint as a POST without name and url: it is
      refused and nothing is deleted. */
  lemma DeleteAsWrittenRefused(id: string, db: ClientsApi.Db, freshId: string, uniq: nat -> string, executed: bool, dbError: string)
    ensures var r := SendAsWritten(DeleteRequestAsWritten(id), db, freshId, uniq, executed, dbError);
      r == ClientsApi.Answered(ClientsApi.Outcome(ClientsApi.Refusal(400, "Name and URL are required"), []))
      && RunReplyOf(r, "") == ClientContext.HttpError(400)
  {
  }

  /** As written, even sent as a PUT, the update of a stored client that has text points
      changes its row, deletes its stored points and dies re-inserting the first one: the
      client is left without points and the store sees the parse error. */
  lemma UpdateRequestLosesPoints(c: Client, db: ClientsApi.Db, freshId: string, uniq: nat -> string, executed: bool, dbError: string,
                                 parseError: string)
    requires ClientsApi.Exists(db, ClientsApi.RealEscape(c.id)) && c.textPoints != []
    ensures var key := ClientsApi.RealEscape(c.id);
      var r := SendAsWritten(UpdateRequest(c), db, freshId, uniq, executed, dbError);
      && r == ClientsApi.Died([ClientsApi.PutUpdate(BodyOf(c), key), ClientsApi.DeletePoints(key)], 10)
      && RunReplyOf(r, parseError) == ClientContext.NetworkError(parseError)
  {
    assert ClientsApi.Present(BodyOf(c), ClientsApi.Name);
    assert ClientsApi.BodyPoints(BodyOf(c)) != [];
  }

  /** The UPDATE a serialised client makes always sets name, url, frame, footer and
      logo. */
  lemma UpdateRequestColumns(c: Client)
    ensures var cols := ClientsApi.SetColumns(BodyOf(c));
      && ClientsApi.Name in cols && ClientsApi.Url in cols
      && ClientsApi.Frame in cols && ClientsApi.Footer in cols && ClientsApi.Logo in cols
  {
    var b := BodyOf(c);
    assert ClientsApi.Present(b, ClientsApi.Frame) && ClientsApi.Present(b, ClientsApi.Footer);
    assert ClientsApi.Present(b, ClientsApi.Logo) && ClientsApi.Present(b, ClientsApi.Name);
    assert ClientsApi.Present(b, ClientsApi.Url);
  }

  /** It sets the company name and the password exactly when they are defined. */
  lemma UpdateRequestOptionalColumns(c: Client)
    ensures var cols := ClientsApi.SetColumns(BodyOf(c));
      && (ClientsApi.CompanyName in cols <==> c.companyName.Some?)
      && (ClientsApi.Password in cols <==> c.password.Some?)
  {
    var b := BodyOf(c);
    assert ClientsApi.Present(b, ClientsApi.CompanyName) <==> c.companyName.Some?;
    assert ClientsApi.Present(b, ClientsApi.Password) <==> c.password.Some?;
  }

  /** A frame, footer or logo without a value is bound into that UPDATE as NULL, so
      saving clears the stored image or text rather than keeping it. */
  lemma UpdateRequestClears(c: Client)
    ensures c.frame.None? ==> ClientsApi.StrParam(ClientsApi.FieldOf(BodyOf(c), ClientsApi.Frame)) == NullParam
    ensures c.footer.None? ==> ClientsApi.StrParam(ClientsApi.FieldOf(BodyOf(c), ClientsApi.Footer)) == NullParam
    ensures c.logo.None? ==> ClientsApi.StrParam(ClientsApi.FieldOf(BodyOf(c), ClientsApi.Logo)) == NullParam
  {
  }

  /** With the values bound from variables, an update sent as a PUT changes the stored
      client's row: its first statement is the UPDATE bound to the client's (escaped) id. */
  lemma UpdateRequestUpdates(c: Client, db: ClientsApi.Db, freshId: string, uniq: nat -> string, executed: bool, dbError: string)
    requires ClientsApi.Exists(db, ClientsApi.RealEscape(c.id))
    ensures var o := Send(UpdateRequest(c), db, freshId, uniq, executed, dbError);
      && o.issued != []
      && o.issued[0] == ClientsApi.PutUpdate(BodyOf(c), ClientsApi.RealEscape(c.id))
      && (ReplyOf(o.resp).Ok? <==> executed)
  {
    assert ClientsApi.Present(BodyOf(c), ClientsApi.Name);
  }

  /** Sent as a DELETE, the delete removes the client's points and then the client, as
      the endpoint is written. */
  lemma DeleteRequestDeletes(id: string, db: ClientsApi.Db, freshId: string, uniq: nat -> string, executed: bool, dbError: string)
    ensures SendAsWritten(DeleteRequest(id), db, freshId, uniq, executed, dbError).Answered?
    ensures var o := Send(DeleteRequest(id), db, freshId, uniq, executed, dbError);
      var key := ClientsApi.RealEscape(id);
      && o.issued == [ClientsApi.DeletePoints(key), ClientsApi.DeleteClient(key)]
      && (ReplyOf(o.resp).Ok? <==> executed)
  {
  }
}

=== FILE: client_types.dfy ===
/** The records shared by the front end: `TextPoint` and `Client`, and the partial
    records (`Partial<TextPoint>`, `Partial<Client>`) that updates spread over them. */
module ClientTypes {
  import opened Wrappers

  /** JavaScript truthiness of an optional string: present and non-empty. */
  predicate Truthy(s: Option<string>) {
    s.Some? && s.value != ""
  }

  /** A named text field placed at (x, y), in percent of the output surface. */
  datatype TextPoint = TextPoint(
    id: string,
    name: string,
    x: real,
    y: real,
    fontFamily: string,
    fontSize: int,
    fontStyle: seq<string>,
    color: Option<string>)

  /** A text point before it has an id (`Omit<TextPoint, "id">`). */
  datatype PointDraft = PointDraft(
    name: string,
    x: real,
    y: real,
    fontFamily: string,
    fontSize: int,
    fontStyle: seq<string>,
    color: Option<string>)

  function WithId(d: PointDraft, id: string): (p: TextPoint)
    ensures p.id == id && p.name == d.name && p.x == d.x && p.y == d.y
    ensures p.fontFamily == d.fontFamily && p.fontSize == d.fontSize
    ensures p.fontStyle == d.fontStyle && p.color == d.color
  {
    TextPoint(id, d.name, d.x, d.y, d.fontFamily, d.fontSize, d.fontStyle, d.color)
  }

  /** `Partial<TextPoint>` without the id: a field that is Some overrides the point's. */
  datatype PointPatch = PointPatch(
    name: Option<string>,
    x: Option<real>,
    y: Option<real>,
    fontFamily: Option<string>,
    fontSize: Option<int>,
    fontStyle: Option<seq<string>>,
    color: Option<string>)

  const NoPointChanges := PointPatch(None, None, None, None, None, None, None)

  /** `{ ...p, ...u }`. */
  function PatchPoint(p: TextPoint, u: PointPatch): (r: TextPoint)
    ensures r.id == p.id
    ensures u == NoPointChanges ==> r == p
    ensures u.name.Some? ==> r.name == u.name.value
    ensures u.name.None? ==> r.name == p.name
    ensures u.x.Some? ==> r.x == u.x.value
    ensures u.x.None? ==> r.x == p.x
    ensures u.y.Some? ==> r.y == u.y.value
    ensures u.y.None? ==> r.y == p.y
    ensures u.fontFamily.Some? ==> r.fontFamily == u.fontFamily.value
    ensures u.fontFamily.None? ==> r.fontFamily == p.fontFamily
    ensures u.fontSize.Some? ==> r.fontSize == u.fontSize.value
    ensures u.fontSize.None? ==> r.fontSize == p.fontSize
    ensures u.fontStyle.Some? ==> r.fontStyle == u.fontStyle.value
    ensures u.fontStyle.None? ==> r.fontStyle == p.fontStyle
    ensures u.color.Some? ==> r.color == Some(u.color.value)
    ensures u.color.None? ==> r.color == p.color
  {
    TextPoint(p.id, u.name.GetOr(p.name), u.x.GetOr(p.x), u.y.GetOr(p.y),
              u.fontFamily.GetOr(p.fontFamily), u.fontSize.GetOr(p.fontSize),
              u.fontStyle.GetOr(p.fontStyle),
              if u.color.Some? then u.color else p.color)
  }

  /** A client template: frame, footer and logo images, an optional access password
      and the text points its images carry. */
  datatype Client = Client(
    id: string,
    name: string,
    companyName: Option<string>,
    url: string,
    frame: Option<string>,
    footer: Option<string>,
    logo: Option<string>,
    password: Option<string>,
    textPoints: seq<TextPoint>)

  /** A client before it has an id (`Omit<Client, "id">`). */
  datatype ClientDraft = ClientDraft(
    name: string,
    companyName: Option<string>,
    url: string,
    frame: Option<string>,
    footer: Option<string>,
    logo: Option<string>,
    password: Option<string>,
    textPoints: seq<TextPoint>)

  /** `Partial<Client>` without the id: Some(v) overrides the field with v; for the
      nullable fields v may itself be None (an explicit `null`). */
  datatype ClientPatch = ClientPatch(
    name: Option<string>,
    companyName: Option<Option<string>>,
    url: Option<string>,
    frame: Option<Option<string>>,
    footer: Option<Option<string>>,
    logo: Option<Option<string>>,
    password: Option<Option<string>>,
    textPoints: Option<seq<TextPoint>>)

  const NoClientChanges := ClientPatch(None, None, None, None, None, None, None, None)

  /** `{ ...c, ...u }`. */
  function PatchClient(c: Client, u: ClientPatch): (r: Client)
    ensures r.id == c.id
    ensures u == NoClientChanges ==> r == c
    ensures u.name.Some? ==> r.name == u.name.value
    ensures u.name.None? ==> r.name == c.name
    ensures u.companyName.Some? ==> r.companyName == u.companyName.value
    ensures u.companyName.None? ==> r.companyName == c.companyName
    ensures u.url.Some? ==> r.url == u.url.value
    ensures u.url.None? ==> r.url == c.url
    ensures u.frame.Some? ==> r.frame == u.frame.value
    ensures u.frame.None? ==> r.frame == c.frame
    ensures u.footer.Some? ==> r.footer == u.footer.value
    ensures u.footer.None? ==> r.footer == c.footer
    ensures u.logo.Some? ==> r.logo == u.logo.value
    ensures u.logo.None? ==> r.logo == c.logo
    ensures u.password.Some? ==> r.password == u.password.value
    ensures u.password.None? ==> r.password == c.password
    ensures u.textPoints.Some? ==> r.textPoints == u.textPoints.value
    ensures u.textPoints.None? ==> r.textPoints == c.textPoints
  {
    Client(c.id, u.name.GetOr(c.name), u.companyName.GetOr(c.companyName), u.url.GetOr(c.url),
           u.frame.GetOr(c.frame), u.footer.GetOr(c.footer), u.logo.GetOr(c.logo),
           u.password.GetOr(c.password), u.textPoints.GetOr(c.textPoints))
  }
}

=== FILE: clients_api.dfy ===
/** The client endpoint, dispatched on the HTTP method. GET reads one client, by id or
    by url, or all of them, each with its text points. POST creates a client and its
    points. PUT updates the fields a request carries and replaces the points. DELETE
    removes a client and its points. */
module ClientsApi {
  import opened Wrappers
  import opened Php
  import Seqs
  import TextPointsApi
  import CheckDatabaseApi

  // ---------------------------------------------------------------- tables

  /** A row of `clients`; the nullable columns are options. */
  datatype ClientRow = ClientRow(
    id: string, name: string, companyName: Option<string>, url: string,
    frame: Option<string>, footer: Option<string>, logo: Option<string>, password: Option<string>)

  /** A row of `text_points` under the column names of the table's definition; the
      columns that have a default may still hold NULL. */
  datatype PointRow = PointRow(
    id: string, clientId: string, name: string, xPosition: real, yPosition: real,
    fontFamily: Option<string>, fontSize: Option<int>, fontStyle: Option<string>, color: Option<string>)

  /** The two tables the endpoint reads, each in the order the server returns its rows. */
  datatype Db = Db(clients: seq<ClientRow>, points: seq<PointRow>)

  // ---------------------------------------------------------------- requests and answers

  /** The decoded body of a POST or PUT, each key as PHP sees it. */
  datatype ClientBody = ClientBody(
    id: Field<string>, name: Field<string>, companyName: Field<string>, url: Field<string>,
    frame: Field<string>, footer: Field<string>, logo: Field<string>, password: Field<string>,
    textPoints: Field<seq<TextPointsApi.PointBody>>)

  /** The query-string keys the endpoint reads. */
  datatype Query = Query(id: Field<string>, url: Field<string>)

  /** A text point as the GET answers list it. */
  datatype PointJson = PointJson(
    id: string, name: string, x: real, y: real, fontFamily: Option<string>, fontSize: int,
    fontStyle: Option<seq<string>>, color: Option<string>)

  /** A client as the GET answers list it, with its text points. */
  datatype ClientJson = ClientJson(
    id: string, name: string, companyName: Option<string>, url: string,
    frame: Option<string>, footer: Option<string>, logo: Option<string>, password: Option<string>,
    textPoints: seq<PointJson>)

  /** The client a successful POST echoes: the request's own values and the new id. */
  datatype CreatedClient = CreatedClient(
    id: string, name: string, companyName: Option<string>, url: string,
    frame: Option<string>, footer: Option<string>, logo: Option<string>, password: Option<string>,
    textPoints: seq<TextPointsApi.PointBody>)

  datatype Payload = NoPayload | Created(created: CreatedClient) | One(client: ClientJson) | All(clients: seq<ClientJson>)

  datatype Response = Response(status: int, success: bool, message: Option<string>, payload: Payload)

  function Refusal(status: int, message: string): Response {
    Response(status, false, Some(message), NoPayload)
  }

  /** The answer, and the statements that change the database, in the order they are
      sent. */
  datatype Outcome = Outcome(resp: Response, issued: seq<Statement>)

  /** What the endpoint as written does with a request: it answers, or the uncaught
      `Error` of a `bind_param` at argument #`argument` ends it after the statements in
      `issued` were sent, before any JSON answer is written. */
  datatype Run = Answered(outcome: Outcome) | Died(issued: seq<Statement>, argument: nat)

  // ---------------------------------------------------------------- escaping

  /** The characters `mysqli::real_escape_string` puts a backslash before. */
  predicate NeedsEscape(c: char) {
    c == '\0' || c == '\n' || c == '\r' || c == '\\' || c == '\'' || c == '"' || c == '\U{001A}'
  }

  /** `mysqli::real_escape_string` of a string. NUL, newline, carriage return and Ctrl-Z
      are written as \0, \n, \r and \Z; the others keep their own character. */
  function RealEscape(s: string): (r: string)
    ensures |r| >= |s|
    ensures r == s <==> forall i :: 0 <= i < |s| ==> !NeedsEscape(s[i])
    decreases |s|
  {
    if s == [] then ""
    else
      var c := s[0];
      var head :=
        if c == '\0' then "\\0" else if c == '\n' then "\\n" else if c == '\r' then "\\r"
        else if c == '\U{001A}' then "\\Z" else if NeedsEscape(c) then ['\\', c] else [c];
      var rest := RealEscape(s[1..]);
      assert (forall i :: 0 <= i < |s| ==> !NeedsEscape(s[i])) <==>
             !NeedsEscape(c) && forall i :: 0 <= i < |s[1..]| ==> !NeedsEscape(s[1..][i]) by {
        forall i | 0 <= i < |s[1..]| ensures s[1..][i] == s[i + 1] { }
      }
      if !NeedsEscape(c) && rest == s[1..] then assert [c] + rest == s; [c] + rest
      else head + rest
  }

  // ---------------------------------------------------------------- GET

  function HasId(id: string): ClientRow -> bool {
    (c: ClientRow) => c.id == id
  }

  function HasUrl(url: string): ClientRow -> bool {
    (c: ClientRow) => c.url == url
  }

  function BelongsTo(clientId: string): PointRow -> bool {
    (r: PointRow) => r.clientId == clientId
  }

  /** The client a `WHERE` selects, when `num_rows === 1`: exactly one row matches. */
  function Single(rows: seq<ClientRow>, matches: ClientRow -> bool): (r: Option<ClientRow>)
    ensures r.Some? ==> r.value in rows && matches(r.value)
    ensures r.Some? <==> |Seqs.Filter(rows, matches)| == 1
  {
    var found := Seqs.Filter(rows, matches);
    if |found| == 1 then Some(found[0]) else None
  }

  /** A unique match is found. */
  lemma SingleFindsUnique(rows: seq<ClientRow>, matches: ClientRow -> bool, k: nat)
    requires k < |rows| && matches(rows[k])
    requires forall i :: 0 <= i < |rows| && i != k ==> !matches(rows[i])
    ensures Single(rows, matches) == Some(rows[k])
  {
    Seqs.FilterSingle(rows, matches, k);
  }

  /** Two matching rows make the lookup fail. */
  lemma SingleRejectsTwo(rows: seq<ClientRow>, matches: ClientRow -> bool, i: nat, j: nat)
    requires i < j < |rows| && matches(rows[i]) && matches(rows[j])
    ensures Single(rows, matches).None?
  {
    Seqs.FilterKeepsTwo(rows, matches, i, j);
  }

  /** The rows of `SELECT * FROM text_points WHERE client_id = ?`. */
  function PointRowsOf(points: seq<PointRow>, clientId: string): (rows: seq<PointRow>)
    ensures forall r :: r in rows <==> r in points && r.clientId == clientId
  {
    var rows := Seqs.Filter(points, BelongsTo(clientId));
    assert forall r :: BelongsTo(clientId)(r) == (r.clientId == clientId);
    rows
  }

  /** A stored point as the GET answers list it: the position read from `x_position` and
      `y_position`, `(int)` of a NULL size is 0 and the style text is decoded (JSON
      `null` when the column is NULL or does not hold a list of strings). */
  function PointJsonOf(r: PointRow): PointJson {
    PointJson(r.id, r.name, r.xPosition, r.yPosition, r.fontFamily, r.fontSize.GetOr(0),
      if r.fontStyle.Some? then DecodeStrings(r.fontStyle.value) else None, r.color)
  }

  /** The same listing as the endpoint writes it: it reads keys `x` and `y`, which a row
      of `text_points` does not have, and `(float)` of the missing value is 0. */
  function PointJsonAsWritten(r: PointRow): (j: PointJson)
    ensures j.x == 0.0 && j.y == 0.0
    ensures j == PointJsonOf(r).(x := 0.0, y := 0.0)
  {
    PointJson(r.id, r.name, 0.0, 0.0, r.fontFamily, r.fontSize.GetOr(0),
      if r.fontStyle.Some? then DecodeStrings(r.fontStyle.value) else None, r.color)
  }

  function PointJsons(rows: seq<PointRow>): (js: seq<PointJson>)
    ensures |js| == |rows|
  {
    seq(|rows|, i requires 0 <= i < |rows| => PointJsonOf(rows[i]))
  }

  /** The inner `while ($point = fetch_assoc())` loop of the three GET cases. */
  method ListPoints(rows: seq<PointRow>) returns (js: seq<PointJson>)
    ensures js == PointJsons(rows)
  {
    js := [];
    var i := 0;
    while i < |rows|
      invariant 0 <= i <= |rows|
      invariant js == PointJsons(rows[..i])
    {
      js := js + [PointJsonOf(rows[i])];
      i := i + 1;
    }
    assert rows[..i] == rows;
  }

  function ClientJsonOf(c: ClientRow, points: seq<PointJson>): ClientJson {
    ClientJson(c.id, c.name, c.companyName, c.url, c.frame, c.footer, c.logo, c.password, points)
  }

  /** Every client with the points stored under its id, in table order. */
  function AllClients(db: Db): (cs: seq<ClientJson>)
    ensures |cs| == |db.clients|
  {
    seq(|db.clients|, i requires 0 <= i < |db.clients| =>
      ClientJsonOf(db.clients[i], PointJsons(PointRowsOf(db.points, db.clients[i].id))))
  }

  /** The outer loop of the listing: one query for the points of each client. */
  method ListClients(db: Db) returns (cs: seq<ClientJson>)
    ensures cs == AllClients(db)
  {
    cs := [];
    var i := 0;
    while i < |db.clients|
      invariant 0 <= i <= |db.clients|
      invariant cs == AllClients(db)[..i]
    {
      var c := db.clients[i];
      var points := ListPoints(PointRowsOf(db.points, c.id));
      cs := cs + [ClientJsonOf(c, points)];
      i := i + 1;
    }
  }

  /** In the listing, each client carries the points stored under its id and no other:
      every such row is listed, and every listed point is one of those rows. */
  lemma ListingGroupsPointsByClient(db: Db, i: nat)
    requires i < |db.clients|
    ensures var listed := AllClients(db)[i];
      && listed.id == db.clients[i].id
      && (forall r :: r in db.points && r.clientId == db.clients[i].id ==> PointJsonOf(r) in listed.textPoints)
      && (forall k :: 0 <= k < |listed.textPoints| ==>
            exists r :: r in db.points && r.clientId == db.clients[i].id && listed.textPoints[k] == PointJsonOf(r))
  {
    var rows := PointRowsOf(db.points, db.clients[i].id);
    var listed := AllClients(db)[i];
    assert listed.textPoints == PointJsons(rows);
    forall r | r in db.points && r.clientId == db.clients[i].id
      ensures PointJsonOf(r) in listed.textPoints
    {
      var k :| 0 <= k < |rows| && rows[k] == r;
      assert listed.textPoints[k] == PointJsonOf(r);
    }
    forall k | 0 <= k < |listed.textPoints|
      ensures exists r :: r in db.points && r.clientId == db.clients[i].id && listed.textPoints[k] == PointJsonOf(r)
    {
      assert rows[k] in rows;
    }
  }

  /** The answer to a GET: by id when `id` is set, else by url when `url` is set, else
      the whole list. A lookup that does not find exactly one client is answered
      "Client not found", still with status 200. */
  function RespondGet(query: Query, db: Db): (resp: Response)
    ensures resp.status == 200
    ensures resp.success <==> resp.payload != NoPayload
    ensures !resp.success ==> resp.message == Some("Client not found") && (query.id.Isset() || query.url.Isset())
    ensures !query.id.Isset() && !query.url.Isset() ==> resp.payload == All(AllClients(db))
    ensures query.id.Isset() ==>
      var found := Single(db.clients, HasId(RealEscape(query.id.value)));
      && (resp.success <==> found.Some?)
      && (found.Some? ==> resp.payload == One(ClientJsonOf(found.value, PointJsons(PointRowsOf(db.points, found.value.id)))))
    ensures !query.id.Isset() && query.url.Isset() ==>
      var found := Single(db.clients, HasUrl(RealEscape(query.url.value)));
      && (resp.success <==> found.Some?)
      && (found.Some? ==> resp.payload == One(ClientJsonOf(found.value, PointJsons(PointRowsOf(db.points, found.value.id)))))
  {
    if query.id.Isset() then
      var id := RealEscape(query.id.value);
      match Single(db.clients, HasId(id))
      case None => Refusal(200, "Client not found")
      case Some(c) => Response(200, true, None, One(ClientJsonOf(c, PointJsons(PointRowsOf(db.points, id)))))
    else if query.url.Isset() then
      match Single(db.clients, HasUrl(RealEscape(query.url.value)))
      case None => Refusal(200, "Client not found")
      case Some(c) => Response(200, true, None, One(ClientJsonOf(c, PointJsons(PointRowsOf(db.points, c.id)))))
    else Response(200, true, None, All(AllClients(db)))
  }

  /** `url` is not a key of `clients`: when two clients share a url, a lookup by that url
      finds neither, while the listing shows both. */
  lemma SharedUrlNotFound(db: Db, url: string, i: nat, j: nat)
    requires i < j < |db.clients| && db.clients[i].url == url && db.clients[j].url == url
    requires forall k :: 0 <= k < |url| ==> !NeedsEscape(url[k])
    ensures RespondGet(Query(Missing, Given(url)), db) == Refusal(200, "Client not found")
    ensures AllClients(db)[i].url == url && AllClients(db)[j].url == url
  {
    SingleRejectsTwo(db.clients, HasUrl(url), i, j);
  }

  /** A lookup by the id of a stored client, an id that needs no escape, answers that
      client with the points stored under its id. */
  lemma LookupByIdFinds(db: Db, k: nat)
    requires k < |db.clients|
    requires forall i :: 0 <= i < |db.clients| && i != k ==> db.clients[i].id != db.clients[k].id
    requires forall i :: 0 <= i < |db.clients[k].id| ==> !NeedsEscape(db.clients[k].id[i])
    ensures RespondGet(Query(Given(db.clients[k].id), Missing), db)
         == Response(200, true, None, One(AllClients(db)[k]))
  {
    SingleFindsUnique(db.clients, HasId(db.clients[k].id), k);
  }

  /** A lookup by a url that one stored client has, a url that needs no escape, answers
      that client with the points stored under its id. */
  lemma LookupByUrlFinds(db: Db, k: nat)
    requires k < |db.clients|
    requires forall i :: 0 <= i < |db.clients| && i != k ==> db.clients[i].url != db.clients[k].url
    requires forall i :: 0 <= i < |db.clients[k].url| ==> !NeedsEscape(db.clients[k].url[i])
    ensures RespondGet(Query(Missing, Given(db.clients[k].url)), db)
         == Response(200, true, None, One(AllClients(db)[k]))
  {
    SingleFindsUnique(db.clients, HasUrl(db.clients[k].url), k);
  }

  /** Whatever a lookup by id or by url answers is one entry of the full listing: the
      client, with the same points the listing gives it. */
  lemma LookupIsListed(query: Query, db: Db)
    requires query.id.Isset() || query.url.Isset()
    requires RespondGet(query, db).success
    ensures exists k :: 0 <= k < |db.clients| && RespondGet(query, db).payload == One(AllClients(db)[k])
  {
    var found := if query.id.Isset() then Single(db.clients, HasId(RealEscape(query.id.value)))
                 else Single(db.clients, HasUrl(RealEscape(query.url.value)));
    var k :| 0 <= k < |db.clients| && db.clients[k] == found.value;
    assert RespondGet(query, db).payload == One(AllClients(db)[k]);
  }

  method HandleGet(query: Query, db: Db) returns (resp: Response)
    ensures resp == RespondGet(query, db)
  {
    if query.id.Isset() {
      var id := RealEscape(query.id.value);
      var found := Single(db.clients, HasId(id));
      if found.None? {
        return Refusal(200, "Client not found");
      }
      var points := ListPoints(PointRowsOf(db.points, id));
      resp := Response(200, true, None, One(ClientJsonOf(found.value, points)));
    } else if query.url.Isset() {
      var found := Single(db.clients, HasUrl(RealEscape(query.url.value)));
      if found.None? {
        return Refusal(200, "Client not found");
      }
      var points := ListPoints(PointRowsOf(db.points, found.value.id));
      resp := Response(200, true, None, One(ClientJsonOf(found.value, points)));
    } else {
      var clients := ListClients(db);
      resp := Response(200, true, None, All(clients));
    }
  }

  // ---------------------------------------------------------------- text point inserts

  /** The columns the client endpoint's point inserts name: `x` and `y`, which
      `text_points` does not have. */
  const PointColumnsAsWritten: seq<string> :=
    ["id", "client_id", "name", "x", "y", "font_family", "font_size", "font_style", "color"]

  /** A string key bound as it is: its value, or NULL when it is null or missing. */
  function StrParam(f: Field<string>): Param {
    if f.Given? then Str(f.value) else NullParam
  }

  function RealParam(f: Field<real>): Param {
    if f.Given? then Real(f.value) else NullParam
  }

  function IntParam(f: Field<int>): Param {
    if f.Given? then Int(f.value) else NullParam
  }

  /** The style list to store: the given one, or an empty list when it is not set. */
  function StyleList(p: TextPointsApi.PointBody): seq<string> {
    if p.fontStyle.Isset() then p.fontStyle.value else []
  }

  /** The INSERT of one point of a client request into `columns`: the keys of the point
      bound as they are, NULL when absent, the style list JSON-encoded. */
  function PointInsert(columns: seq<string>, pointId: string, clientId: string, p: TextPointsApi.PointBody): (st: Statement)
    requires PlainColumns(columns)
    ensures WellBound(st) && |st.params| == 9
    ensures st.params[0] == Str(pointId) && st.params[1] == Str(clientId)
  {
    InsertPlaceholders("text_points", columns);
    Statement(InsertSql("text_points", columns), "sssddssss",
      [Str(pointId), Str(clientId), StrParam(p.name), RealParam(p.x), RealParam(p.y),
       StrParam(p.fontFamily), IntParam(p.fontSize), Str(EncodeStrings(StyleList(p))), StrParam(p.color)])
  }

  /** The values a point insert passes as written: all variables and array elements
      but the last, `$point['color'] ?? null`, a temporary. */
  function PointInsertArgs(columns: seq<string>, pointId: string, clientId: string, p: TextPointsApi.PointBody): (args: seq<Arg>)
    requires PlainColumns(columns)
    ensures Values(args) == PointInsert(columns, pointId, clientId, p).params
  {
    [Var(Str(pointId)), Var(Str(clientId)), Var(StrParam(p.name)), Var(RealParam(p.x)), Var(RealParam(p.y)),
     Var(StrParam(p.fontFamily)), Var(IntParam(p.fontSize)), Var(Str(EncodeStrings(StyleList(p)))), Temp(StrParam(p.color))]
  }

  /** As written, binding a point insert throws at argument #10, the colour, whatever
      the point: no point insert is ever sent. */
  lemma PointInsertThrows(columns: seq<string>, pointId: string, clientId: string, p: TextPointsApi.PointBody)
    requires PlainColumns(columns)
    ensures var st := PointInsert(columns, pointId, clientId, p);
      BindParam(st.sql, st.types, PointInsertArgs(columns, pointId, clientId, p)) == NotByReference(10)
  {
    var args := PointInsertArgs(columns, pointId, clientId, p);
    assert args[8].Temp? && forall j :: 0 <= j < 8 ==> args[j].Var?;
  }

  /** With the values first copied into variables, as the text point endpoint does, the
      same values bind to the insert the model sends. */
  lemma PointInsertFromVariables(columns: seq<string>, pointId: string, clientId: string, p: TextPointsApi.PointBody)
    requires PlainColumns(columns)
    ensures var st := PointInsert(columns, pointId, clientId, p);
      BindParam(st.sql, st.types, FromVariables(Values(PointInsertArgs(columns, pointId, clientId, p)))) == Bound(st)
  {
    var st := PointInsert(columns, pointId, clientId, p);
    BindFromVariables(st.sql, st.types, st.params);
  }

  /** Nine column names, none holding a placeholder. */
  predicate PlainColumns(columns: seq<string>) {
    |columns| == 9 && forall i :: 0 <= i < 9 ==> '?' !in columns[i]
  }

  lemma InsertColumnsPlain()
    ensures PlainColumns(TextPointsApi.InsertColumns)
  {
    forall i | 0 <= i < 9 ensures '?' !in TextPointsApi.InsertColumns[i] {
      assert TextPointsApi.InsertColumns[i] in TextPointsApi.InsertColumns;
    }
  }

  /** The inserts of a list of points, the i-th with the id `ids[i]`. */
  function PointInserts(columns: seq<string>, clientId: string, points: seq<TextPointsApi.PointBody>, ids: seq<string>): (sts: seq<Statement>)
    requires PlainColumns(columns) && |ids| == |points|
    ensures |sts| == |points|
    ensures forall i :: 0 <= i < |sts| ==> WellBound(sts[i]) && |sts[i].params| == 9 && sts[i].params[0] == Str(ids[i]) && sts[i].params[1] == Str(clientId)
  {
    seq(|points|, i requires 0 <= i < |points| => PointInsert(columns, ids[i], clientId, points[i]))
  }

  /** The `foreach ($input['textPoints'] as $point)` loop of POST and PUT. */
  method InsertPoints(columns: seq<string>, clientId: string, points: seq<TextPointsApi.PointBody>, ids: seq<string>)
    returns (sts: seq<Statement>)
    requires PlainColumns(columns) && |ids| == |points|
    ensures sts == PointInserts(columns, clientId, points, ids)
  {
    ghost var all := PointInserts(columns, clientId, points, ids);
    sts := [];
    var i := 0;
    while i < |points|
      invariant 0 <= i <= |points|
      invariant sts == all[..i]
    {
      assert all[..i + 1] == all[..i] + [all[i]];
      sts := sts + [PointInsert(columns, ids[i], clientId, points[i])];
      i := i + 1;
    }
    assert all[..i] == all;
  }

  function StrOrNull(v: Param): Option<string> {
    if v.Str? then Some(v.s) else None
  }

  /** The row a `text_points` insert of `params` creates, the values in the column order
      of the table's definition; None when a NOT NULL column would receive NULL. */
  function StoredRow(params: seq<Param>): Option<PointRow>
    requires |params| == 9
  {
    if params[0].Str? && params[1].Str? && params[2].Str? && params[3].Real? && params[4].Real? then
      Some(PointRow(params[0].s, params[1].s, params[2].s, params[3].r, params[4].r,
        StrOrNull(params[5]), if params[6].Int? then Some(params[6].i) else None,
        StrOrNull(params[7]), StrOrNull(params[8])))
    else None
  }

  /** A point stored by the endpoint and listed again keeps its id, its name, its
      position and its style list, when the point has a name and a position. */
  lemma StoredPointReadsBack(columns: seq<string>, pointId: string, clientId: string, p: TextPointsApi.PointBody)
    requires PlainColumns(columns)
    requires TextPointsApi.Complete(p)
    ensures var row := StoredRow(PointInsert(columns, pointId, clientId, p).params);
      && row.Some? && row.value.clientId == clientId
      && var j := PointJsonOf(row.value);
      && j.id == pointId && j.name == p.name.value
      && j.x == p.x.value && j.y == p.y.value
      && j.fontStyle == Some(StyleList(p))
  {
    var st := PointInsert(columns, pointId, clientId, p);
    var style := EncodeStrings(StyleList(p));
    assert st.params[7] == Str(style);
    assert StoredRow(st.params).value.fontStyle == Some(style);
    DecodeEncode(StyleList(p));
  }

  /** As written, the listing of a stored point puts it at (0, 0) whatever its stored
      position. */
  lemma ListingAsWrittenLosesPosition()
    ensures var row := PointRow("p1", "c1", "Nome", 40.0, 75.5, Some("Arial"), Some(16), Some("[]"), Some("#000000"));
      && PointJsonAsWritten(row) != PointJsonOf(row)
      && PointJsonAsWritten(row).x == 0.0 && PointJsonOf(row).x == 40.0
  {
  }

  /** As written, the point inserts name a column the `text_points` table does not have,
      so the server refuses them. */
  lemma PointColumnsAgainstSchema()
    ensures "x" in PointColumnsAsWritten && "x" !in CheckDatabaseApi.TextPointsColumns
  {
    assert CheckDatabaseApi.TextPointsColumns[3] == "x_position";
  }

  /** With the names of the table's definition, every column the inserts name exists,
      and the position goes to `x_position` and `y_position`. */
  lemma InsertColumnsMatchSchema()
    ensures forall c :: c in TextPointsApi.InsertColumns ==> c in CheckDatabaseApi.TextPointsColumns
    ensures TextPointsApi.InsertColumns[3] == "x_position" && TextPointsApi.InsertColumns[4] == "y_position"
  {
  }

  // ---------------------------------------------------------------- POST

  /** `$x ?? null` of a string key. */
  function Nullable(f: Field<string>): Option<string> {
    if f.Given? then Some(f.value) else None
  }

  /** `$input['textPoints']`, when it is set. */
  function BodyPoints(b: ClientBody): seq<TextPointsApi.PointBody> {
    if b.textPoints.Isset() then b.textPoints.value else []
  }

  const ClientColumns: seq<string> := ["id", "name", "company_name", "url", "frame", "footer", "logo", "password"]

  /** The INSERT of a new client: its fresh id, name and url, and the optional fields or
      NULL. */
  function ClientInsert(id: string, b: ClientBody): (st: Statement)
    requires b.name.Isset() && b.url.Isset()
    ensures WellBound(st) && |st.params| == 8
    ensures st.params[0] == Str(id) && st.params[1] == Str(b.name.value) && st.params[3] == Str(b.url.value)
  {
    forall i | 0 <= i < |ClientColumns| ensures '?' !in ClientColumns[i] {
      assert ClientColumns[i] in ClientColumns;
    }
    InsertPlaceholders("clients", ClientColumns);
    Statement(InsertSql("clients", ClientColumns), "ssssssss",
      [Str(id), Str(b.name.value), StrParam(b.companyName), Str(b.url.value),
       StrParam(b.frame), StrParam(b.footer), StrParam(b.logo), StrParam(b.password)])
  }

  /** The values the client INSERT passes as written: the fresh id, the name and the url
      as a variable and array elements, the four optional fields as `$input[...] ?? null`,
      temporaries. */
  function ClientInsertArgs(id: string, b: ClientBody): (args: seq<Arg>)
    requires b.name.Isset() && b.url.Isset()
    ensures Values(args) == ClientInsert(id, b).params
  {
    [Var(Str(id)), Var(Str(b.name.value)), Temp(StrParam(b.companyName)), Var(Str(b.url.value)),
     Temp(StrParam(b.frame)), Temp(StrParam(b.footer)), Temp(StrParam(b.logo)), Temp(StrParam(b.password))]
  }

  /** As written, binding the client INSERT throws at argument #4, `companyName ?? null`,
      whatever the request: no client is ever inserted. */
  lemma ClientInsertThrows(id: string, b: ClientBody)
    requires b.name.Isset() && b.url.Isset()
    ensures var st := ClientInsert(id, b);
      BindParam(st.sql, st.types, ClientInsertArgs(id, b)) == NotByReference(4)
  {
    var args := ClientInsertArgs(id, b);
    assert args[2].Temp? && args[0].Var? && args[1].Var?;
  }

  /** With the values first copied into variables, the same values bind to the INSERT the
      model sends. */
  lemma ClientInsertFromVariables(id: string, b: ClientBody)
    requires b.name.Isset() && b.url.Isset()
    ensures var st := ClientInsert(id, b);
      BindParam(st.sql, st.types, FromVariables(Values(ClientInsertArgs(id, b)))) == Bound(st)
  {
    var st := ClientInsert(id, b);
    BindFromVariables(st.sql, st.types, st.params);
  }

  predicate PostAccepted(body: Option<ClientBody>) {
    body.Some? && body.value.name.Isset() && body.value.url.Isset()
  }

  /** The ids a POST gives its points: the values of successive `uniqid()` calls, never
      the ids the request carries. */
  function FreshIds(n: nat, uniq: nat -> string): (ids: seq<string>)
    ensures |ids| == n
  {
    seq(n, i requires 0 <= i < n => uniq(i))
  }

  function Echo(id: string, b: ClientBody): CreatedClient
    requires b.name.Isset() && b.url.Isset()
  {
    CreatedClient(id, b.name.value, Nullable(b.companyName), b.url.value, Nullable(b.frame),
      Nullable(b.footer), Nullable(b.logo), Nullable(b.password), BodyPoints(b))
  }

  /** The answer to a POST. `freshId` is the client's `uniqid()`, `uniq(i)` the one of
      its i-th point; `executed`/`dbError` are the database's answer to the client
      insert. The points are inserted only after the client was, and their own results
      are not looked at. */
  function RespondPost(columns: seq<string>, body: Option<ClientBody>, freshId: string, uniq: nat -> string, executed: bool, dbError: string): (o: Outcome)
    requires PlainColumns(columns)
    ensures o.resp.success <==> o.resp.status == 200
    ensures o.resp.status == 400 <==> !PostAccepted(body)
    ensures o.resp.success <==> PostAccepted(body) && executed
    ensures o.issued != [] <==> PostAccepted(body)
    ensures PostAccepted(body) ==> o.issued[0] == ClientInsert(freshId, body.value)
    ensures o.resp.success ==>
      o.issued[1..] == PointInserts(columns, freshId, BodyPoints(body.value), FreshIds(|BodyPoints(body.value)|, uniq))
    ensures o.resp.success ==> o.resp.payload == Created(Echo(freshId, body.value))
    ensures o.resp.status == 500 ==> |o.issued| == 1
    ensures forall k :: 0 <= k < |o.issued| ==> WellBound(o.issued[k])
  {
    if body.None? then Outcome(Refusal(400, "Invalid input data"), [])
    else if !PostAccepted(body) then Outcome(Refusal(400, "Name and URL are required"), [])
    else
      var b := body.value;
      var insert := ClientInsert(freshId, b);
      if executed then
        var points := BodyPoints(b);
        var inserts := PointInserts(columns, freshId, points, FreshIds(|points|, uniq));
        assert ([insert] + inserts)[1..] == inserts;
        Outcome(Response(200, true, Some("Client created successfully"), Created(Echo(freshId, b))), [insert] + inserts)
      else Outcome(Refusal(500, "Failed to create client: " + dbError), [insert])
  }

  method HandlePost(columns: seq<string>, body: Option<ClientBody>, freshId: string, uniq: nat -> string, executed: bool, dbError: string)
    returns (resp: Response, issued: seq<Statement>)
    requires PlainColumns(columns)
    ensures Outcome(resp, issued) == RespondPost(columns, body, freshId, uniq, executed, dbError)
  {
    if body.None? {
      return Refusal(400, "Invalid input data"), [];
    }
    var b := body.value;
    if !b.name.Isset() || !b.url.Isset() {
      return Refusal(400, "Name and URL are required"), [];
    }
    var insert := ClientInsert(freshId, b);
    if !executed {
      return Refusal(500, "Failed to create client: " + dbError), [insert];
    }
    var points := BodyPoints(b);
    var inserts := InsertPoints(columns, freshId, points, FreshIds(|points|, uniq));
    issued := [insert] + inserts;
    resp := Response(200, true, Some("Client created successfully"), Created(Echo(freshId, b)));
  }

  /** A POST as written: refused as in `RespondPost`, and otherwise ended by the client
      INSERT's `bind_param` before anything is sent or answered. */
  function RespondPostAsWritten(columns: seq<string>, body: Option<ClientBody>, freshId: string, uniq: nat -> string, executed: bool, dbError: string): (r: Run)
    requires PlainColumns(columns)
    ensures !PostAccepted(body) ==> r == Answered(RespondPost(columns, body, freshId, uniq, executed, dbError))
    ensures PostAccepted(body) ==> r == Died([], 4)
  {
    if !PostAccepted(body) then Answered(RespondPost(columns, body, freshId, uniq, executed, dbError))
    else
      var st := ClientInsert(freshId, body.value);
      ClientInsertThrows(freshId, body.value);
      Died([], BindParam(st.sql, st.types, ClientInsertArgs(freshId, body.value)).argument)
  }

  // ---------------------------------------------------------------- PUT

  /** The columns a PUT may set, in the order it tests them. */
  datatype Column = Name | CompanyName | Url | Frame | Footer | Logo | Password

  const Columns: seq<Column> := [Name, CompanyName, Url, Frame, Footer, Logo, Password]

  function ColumnName(c: Column): (name: string)
    ensures '?' !in name
  {
    match c
    case Name => "name"
    case CompanyName => "company_name"
    case Url => "url"
    case Frame => "frame"
    case Footer => "footer"
    case Logo => "logo"
    case Password => "password"
  }

  /** The position of a column in `Columns`. */
  function TagOf(c: Column): (k: nat)
    ensures k < |Columns| && Columns[k] == c
  {
    match c
    case Name => 0
    case CompanyName => 1
    case Url => 2
    case Frame => 3
    case Footer => 4
    case Logo => 5
    case Password => 6
  }

  /** No column appears twice in `Columns`. */
  lemma ColumnsDistinct()
    ensures Seqs.NoDuplicates(Columns)
  {
    forall i, j | 0 <= i < j < |Columns| ensures Columns[i] != Columns[j] {
      if i == 0 { } else if i == 1 { } else if i == 2 { } else if i == 3 { } else if i == 4 { } else { }
    }
  }

  function FieldOf(b: ClientBody, c: Column): Field<string> {
    match c
    case Name => b.name
    case CompanyName => b.companyName
    case Url => b.url
    case Frame => b.frame
    case Footer => b.footer
    case Logo => b.logo
    case Password => b.password
  }

  /** Name and url are checked with `isset`, so a `null` leaves them alone; the other
      columns with `array_key_exists`, so a `null` clears them. */
  predicate Present(b: ClientBody, c: Column) {
    if c == Name || c == Url then FieldOf(b, c).Isset() else FieldOf(b, c).KeyExists()
  }

  function Keep(b: ClientBody): Column -> bool {
    c => Present(b, c)
  }

  function Assignment(c: Column): string {
    ColumnName(c) + " = ?"
  }

  lemma AssignmentPlaceholder(c: Column)
    ensures Placeholders(Assignment(c)) == 1
  {
    NoPlaceholders(ColumnName(c));
    NoPlaceholders(" = ");
    assert Assignment(c) == ColumnName(c) + " = " + "?";
    PlaceholdersAppend(ColumnName(c), " = ");
    PlaceholdersAppend(ColumnName(c) + " = ", "?");
  }

  /** The columns a PUT sets, in the fixed column order. */
  function SetColumns(b: ClientBody): (cols: seq<Column>)
    ensures Seqs.IsSubsequence(cols, Columns)
    ensures forall c :: c in cols <==> Present(b, c)
  {
    var r := Seqs.Filter(Columns, Keep(b));
    assert forall c :: c in r <==> Present(b, c) by {
      forall c ensures c in r <==> Present(b, c) {
        var k := TagOf(c);
        assert Keep(b)(c) == Present(b, c);
        if c in r {
          var i :| 0 <= i < |r| && r[i] == c;
        }
      }
    }
    r
  }

  function Assignments(cols: seq<Column>): seq<string> {
    seq(|cols|, i requires 0 <= i < |cols| => Assignment(cols[i]))
  }

  function Params(b: ClientBody, cols: seq<Column>): seq<Param> {
    seq(|cols|, i requires 0 <= i < |cols| => StrParam(FieldOf(b, cols[i])))
  }

  /** Every column is bound as a string. */
  function Types(n: nat): string {
    seq(n, _ => 's')
  }

  /** The present columns among the first `k`, in column order. */
  function SetAmong(b: ClientBody, k: nat): seq<Column>
    requires k <= |Columns|
  {
    if k == 0 then [] else SetAmong(b, k - 1) + (if Present(b, Columns[k - 1]) then [Columns[k - 1]] else [])
  }

  lemma {:induction false} SetAmongFilters(b: ClientBody, k: nat)
    requires k <= |Columns|
    ensures SetAmong(b, k) == Seqs.Filter(Columns[..k], Keep(b))
  {
    if k > 0 {
      SetAmongFilters(b, k - 1);
      assert Columns[..k] == Columns[..k - 1] + [Columns[k - 1]];
      Seqs.FilterSnoc(Columns[..k - 1], Columns[k - 1], Keep(b));
    }
  }

  ghost predicate Tracks(b: ClientBody, cols: seq<Column>, fields: seq<string>, params: seq<Param>, types: string) {
    fields == Assignments(cols) && params == Params(b, cols) && types == Types(|cols|)
  }

  /** One block of the builder: when column `c` is present, its SET entry, its value and
      an "s" are appended. */
  method AppendIfPresent(b: ClientBody, c: Column, ghost cols: seq<Column>, fields: seq<string>, params: seq<Param>, types: string)
    returns (ghost cols': seq<Column>, fields': seq<string>, params': seq<Param>, types': string)
    requires cols == SetAmong(b, TagOf(c)) && Tracks(b, cols, fields, params, types)
    ensures cols' == SetAmong(b, TagOf(c) + 1) && Tracks(b, cols', fields', params', types')
  {
    cols', fields', params', types' := cols, fields, params, types;
    if Present(b, c) {
      fields' := fields + [Assignment(c)];
      params' := params + [StrParam(FieldOf(b, c))];
      types' := types + "s";
      cols' := cols + [c];
    }
  }

  /** Going through every column in turn collects exactly the present ones. */
  lemma SetColumnsAmong(b: ClientBody)
    ensures SetColumns(b) == SetAmong(b, |Columns|)
  {
    SetAmongFilters(b, |Columns|);
    assert Columns[..|Columns|] == Columns;
  }

  /** The dynamic SET builder of PUT. */
  method BuildUpdate(b: ClientBody) returns (fields: seq<string>, params: seq<Param>, types: string)
    ensures fields == Assignments(SetColumns(b))
    ensures params == Params(b, SetColumns(b))
    ensures types == Types(|SetColumns(b)|)
  {
    fields, params, types := [], [], "";
    ghost var cols: seq<Column> := [];
    cols, fields, params, types := AppendIfPresent(b, Name, cols, fields, params, types);
    cols, fields, params, types := AppendIfPresent(b, CompanyName, cols, fields, params, types);
    cols, fields, params, types := AppendIfPresent(b, Url, cols, fields, params, types);
    cols, fields, params, types := AppendIfPresent(b, Frame, cols, fields, params, types);
    cols, fields, params, types := AppendIfPresent(b, Footer, cols, fields, params, types);
    cols, fields, params, types := AppendIfPresent(b, Logo, cols, fields, params, types);
    cols, fields, params, types := AppendIfPresent(b, Password, cols, fields, params, types);
    SetColumnsAmong(b);
  }

  /** The UPDATE of a client for a non-empty list of SET entries; the id is bound last. */
  function UpdateStatement(fields: seq<string>, params: seq<Param>, types: string, id: string): Statement {
    Statement("UPDATE clients SET " + Implode(", ", fields) + " WHERE id = ?", types + "s", params + [Str(id)])
  }

  /** The UPDATE for any list of columns binds one value per placeholder. */
  lemma UpdateWellBound(b: ClientBody, cols: seq<Column>, id: string)
    ensures WellBound(UpdateStatement(Assignments(cols), Params(b, cols), Types(|cols|), id))
  {
    var fields := Assignments(cols);
    forall i | 0 <= i < |fields| ensures Placeholders(fields[i]) == 1 {
      AssignmentPlaceholder(cols[i]);
    }
    NoPlaceholders(", ");
    PlaceholdersImplode(", ", fields);
    UpdatePrefixPlain();
    WhereIdPlaceholder();
    PlaceholdersAppend("UPDATE clients SET ", Implode(", ", fields));
    PlaceholdersAppend("UPDATE clients SET " + Implode(", ", fields), " WHERE id = ?");
  }

  lemma UpdatePrefixPlain()
    ensures Placeholders("UPDATE clients SET ") == 0
  {
    NoPlaceholders("UPDATE clients SET ");
  }

  lemma WhereIdPlaceholder()
    ensures Placeholders(" WHERE id = ?") == 1
  {
    NoPlaceholders(" WHERE id = ");
    assert " WHERE id = ?" == " WHERE id = " + "?";
    PlaceholdersAppend(" WHERE id = ", "?");
  }

  /** A PUT sets a column exactly when it is present, in the fixed order and never twice;
      a `null` name or url is skipped, while a `null` in any other column clears it. */
  lemma SetColumnsPresent(b: ClientBody)
    ensures Seqs.NoDuplicates(SetColumns(b))
    ensures b.name.Null? ==> Name !in SetColumns(b)
    ensures b.companyName.Null? ==>
      exists k :: 0 <= k < |SetColumns(b)| && SetColumns(b)[k] == CompanyName && Params(b, SetColumns(b))[k] == NullParam
    ensures SetColumns(b) == [] <==> forall c :: !Present(b, c)
  {
    var cols := SetColumns(b);
    ColumnsDistinct();
    Seqs.SubsequenceNoDuplicates(cols, Columns);
    if b.companyName.Null? {
      assert CompanyName in cols;
      var k :| 0 <= k < |cols| && cols[k] == CompanyName;
      assert Params(b, cols)[k] == NullParam;
    }
    if cols != [] {
      assert cols[0] in cols;
    }
  }

  /** A statement binding one id to the single placeholder at the end of `sql`. */
  function ById(sql: string, id: string): (st: Statement)
    requires '?' !in sql
    ensures WellBound(st) && st.params == [Str(id)]
  {
    NoPlaceholders(sql);
    PlaceholdersAppend(sql, "?");
    Statement(sql + "?", "s", [Str(id)])
  }

  function DeletePoints(clientId: string): (st: Statement)
    ensures WellBound(st) && st.params == [Str(clientId)]
  {
    ById("DELETE FROM text_points WHERE client_id = ", clientId)
  }

  function DeleteClient(id: string): (st: Statement)
    ensures WellBound(st) && st.params == [Str(id)]
  {
    ById("DELETE FROM clients WHERE id = ", id)
  }

  /** The ids a PUT gives its points: the request's own id when set, else a fresh one. */
  function KeptIds(points: seq<TextPointsApi.PointBody>, uniq: nat -> string): (ids: seq<string>)
    ensures |ids| == |points|
  {
    seq(|points|, i requires 0 <= i < |points| => if points[i].id.Isset() then points[i].id.value else uniq(i))
  }

  /** The replacement of a client's points, when the request carries a list: delete them
      all, then insert the new ones. */
  function Replacement(columns: seq<string>, id: string, b: ClientBody, uniq: nat -> string): (sts: seq<Statement>)
    requires PlainColumns(columns)
    ensures forall k :: 0 <= k < |sts| ==> WellBound(sts[k])
  {
    if b.textPoints.Isset() then [DeletePoints(id)] + PointInserts(columns, id, BodyPoints(b), KeptIds(BodyPoints(b), uniq))
    else []
  }

  predicate PutAccepted(body: Option<ClientBody>) {
    body.Some? && body.value.id.Isset()
  }

  /** Some client has the id. */
  predicate Exists(db: Db, id: string) {
    exists i :: 0 <= i < |db.clients| && db.clients[i].id == id
  }

  /** The UPDATE a PUT sends for its columns. */
  function PutUpdate(b: ClientBody, id: string): (st: Statement)
    ensures WellBound(st)
  {
    var cols := SetColumns(b);
    UpdateWellBound(b, cols, id);
    UpdateStatement(Assignments(cols), Params(b, cols), Types(|cols|), id)
  }

  /** What a PUT that passes its checks sends: the UPDATE, then the replacement of the
      points, if any. */
  function PutStatements(columns: seq<string>, b: ClientBody, id: string, uniq: nat -> string): (sts: seq<Statement>)
    requires PlainColumns(columns)
    ensures sts != [] && sts[0] == PutUpdate(b, id) && sts[1..] == Replacement(columns, id, b, uniq)
    ensures forall k :: 0 <= k < |sts| ==> WellBound(sts[k])
  {
    var rest := Replacement(columns, id, b, uniq);
    var sts := [PutUpdate(b, id)] + rest;
    assert forall k :: 0 <= k < |sts| ==> WellBound(sts[k]) by {
      forall k | 0 <= k < |sts| ensures WellBound(sts[k]) {
        if k > 0 {
          assert sts[k] == rest[k - 1];
        }
      }
    }
    sts
  }

  /** The answer to a PUT. The id is escaped before it is bound. A client that does not
      exist is answered 404, a request without any column 400, both before anything is
      written. Otherwise the UPDATE is sent, then the points are replaced whatever the
      UPDATE's result; the answer reports the UPDATE's result alone. */
  function RespondPut(columns: seq<string>, body: Option<ClientBody>, db: Db, uniq: nat -> string, executed: bool): (o: Outcome)
    requires PlainColumns(columns)
    ensures o.resp.success <==> o.resp.status == 200
    ensures o.resp.status in {200, 400, 404, 500}
    ensures o.resp.status == 404 <==> PutAccepted(body) && !Exists(db, RealEscape(body.value.id.value))
    ensures o.issued != [] <==>
      PutAccepted(body) && Exists(db, RealEscape(body.value.id.value)) && SetColumns(body.value) != []
    ensures o.resp.success <==> o.issued != [] && executed
    ensures o.issued != [] ==> o.issued == PutStatements(columns, body.value, RealEscape(body.value.id.value), uniq)
    ensures !PutAccepted(body) ==> o.resp == Refusal(400, "Invalid input data or missing client ID")
    ensures PutAccepted(body) && !Exists(db, RealEscape(body.value.id.value)) ==> o.resp == Refusal(404, "Client not found")
    ensures PutAccepted(body) && Exists(db, RealEscape(body.value.id.value)) && SetColumns(body.value) == [] ==>
      o == Outcome(Refusal(400, "No fields to update"), [])
    ensures o.issued != [] && !executed ==> o.resp == Refusal(500, "Failed to update client")
  {
    if !PutAccepted(body) then Outcome(Refusal(400, "Invalid input data or missing client ID"), [])
    else
      var b := body.value;
      var id := RealEscape(b.id.value);
      if !Exists(db, id) then Outcome(Refusal(404, "Client not found"), [])
      else if SetColumns(b) == [] then Outcome(Refusal(400, "No fields to update"), [])
      else
        var issued := PutStatements(columns, b, id, uniq);
        if executed then Outcome(Response(200, true, Some("Client updated successfully"), NoPayload), issued)
        else Outcome(Refusal(500, "Failed to update client"), issued)
  }

  method HandlePut(columns: seq<string>, body: Option<ClientBody>, db: Db, uniq: nat -> string, executed: bool)
    returns (resp: Response, issued: seq<Statement>)
    requires PlainColumns(columns)
    ensures Outcome(resp, issued) == RespondPut(columns, body, db, uniq, executed)
    ensures !PutAccepted(body) ==> resp.status == 400 && issued == []
    ensures PutAccepted(body) && !Exists(db, RealEscape(body.value.id.value)) ==> resp.status == 404 && issued == []
  {
    if body.None? || !body.value.id.Isset() {
      return Refusal(400, "Invalid input data or missing client ID"), [];
    }
    var b := body.value;
    var id := RealEscape(b.id.value);
    if !Exists(db, id) {
      return Refusal(404, "Client not found"), [];
    }
    var fields, params, types := BuildUpdate(b);
    if fields == [] {
      return Refusal(400, "No fields to update"), [];
    }
    issued := [UpdateStatement(fields, params, types, id)];
    assert issued[0] == PutUpdate(b, id);
    if b.textPoints.Isset() {
      var points := b.textPoints.value;
      var inserts := InsertPoints(columns, id, points, KeptIds(points, uniq));
      issued := issued + ([DeletePoints(id)] + inserts);
    }
    assert issued[1..] == Replacement(columns, id, b, uniq);
    assert issued == PutStatements(columns, b, id, uniq);
    if executed {
      resp := Response(200, true, Some("Client updated successfully"), NoPayload);
    } else {
      resp := Refusal(500, "Failed to update client");
    }
  }

  /** A PUT that passes its checks and carries at least one point. */
  predicate PutReinserts(body: Option<ClientBody>, db: Db) {
    PutAccepted(body) && Exists(db, RealEscape(body.value.id.value)) && SetColumns(body.value) != []
    && BodyPoints(body.value) != []
  }

  /** A PUT as written: as `RespondPut` unless it re-inserts points; then the UPDATE and
      the DELETE of the stored points are sent, and the first re-insert's `bind_param`
      ends the request, so the client is left without points and no answer is written. */
  function RespondPutAsWritten(columns: seq<string>, body: Option<ClientBody>, db: Db, uniq: nat -> string, executed: bool): (r: Run)
    requires PlainColumns(columns)
    ensures !PutReinserts(body, db) ==> r == Answered(RespondPut(columns, body, db, uniq, executed))
    ensures PutReinserts(body, db) ==> var id := RealEscape(body.value.id.value);
      r == Died([PutUpdate(body.value, id), DeletePoints(id)], 10)
  {
    if !PutReinserts(body, db) then Answered(RespondPut(columns, body, db, uniq, executed))
    else
      var b := body.value;
      var id := RealEscape(b.id.value);
      var p := BodyPoints(b)[0];
      var pointId := KeptIds(BodyPoints(b), uniq)[0];
      var st := PointInsert(columns, pointId, id, p);
      PointInsertThrows(columns, pointId, id, p);
      Died([PutUpdate(b, id), DeletePoints(id)], BindParam(st.sql, st.types, PointInsertArgs(columns, pointId, id, p)).argument)
  }

  /** A PUT that dies has sent a strict prefix of what the corrected PUT sends: the
      UPDATE and the DELETE, and none of the inserts. */
  lemma PutDiesAfterDeleting(columns: seq<string>, body: Option<ClientBody>, db: Db, uniq: nat -> string, executed: bool)
    requires PlainColumns(columns) && PutReinserts(body, db)
    ensures var r := RespondPutAsWritten(columns, body, db, uniq, executed);
      var o := RespondPut(columns, body, db, uniq, executed);
      && r.issued < o.issued
      && |o.issued| == 2 + |BodyPoints(body.value)|
      && o.issued[1] == DeletePoints(RealEscape(body.value.id.value))
  {
    var b := body.value;
    var id := RealEscape(b.id.value);
    var o := RespondPut(columns, body, db, uniq, executed);
    var rest := Replacement(columns, id, b, uniq);
    assert o.issued == PutStatements(columns, b, id, uniq);
    assert rest[0] == DeletePoints(id);
    assert o.issued[..2] == [PutUpdate(b, id), DeletePoints(id)];
  }

  /** A PUT that carries nothing but the id and a list of points is refused before
      anything is written: the points are not replaced. */
  lemma PointsAloneAreNotSaved(columns: seq<string>, body: ClientBody, db: Db, uniq: nat -> string, executed: bool)
    requires PlainColumns(columns)
    requires body.id.Isset() && Exists(db, RealEscape(body.id.value))
    requires !body.name.Isset() && !body.url.Isset()
    requires body.companyName.Missing? && body.frame.Missing? && body.footer.Missing?
    requires body.logo.Missing? && body.password.Missing?
    ensures RespondPut(columns, Some(body), db, uniq, executed) == Outcome(Refusal(400, "No fields to update"), [])
  {
    NoColumnsSet(body);
  }

  /** A body with no column key, and neither a name nor a url, sets no column. */
  lemma NoColumnsSet(b: ClientBody)
    requires !b.name.Isset() && !b.url.Isset()
    requires b.companyName.Missing? && b.frame.Missing? && b.footer.Missing?
    requires b.logo.Missing? && b.password.Missing?
    ensures SetColumns(b) == []
  {
    assert forall c :: !Present(b, c) by {
      forall c ensures !Present(b, c) {
        match c
        case Name =>
        case CompanyName =>
        case Url =>
        case Frame =>
        case Footer =>
        case Logo =>
        case Password =>
      }
    }
    SetColumnsPresent(b);
  }

  /** When a PUT replaces the points, the client's points are deleted first, then the
      i-th insert stores the i-th point under the client, with the point's own id when it
      has one. */
  lemma ReplacementKeepsIds(columns: seq<string>, b: ClientBody, id: string, uniq: nat -> string, i: nat)
    requires PlainColumns(columns)
    requires b.textPoints.Isset() && i < |b.textPoints.value|
    ensures var sts := Replacement(columns, id, b, uniq);
      var p := b.textPoints.value[i];
      && |sts| == 1 + |b.textPoints.value|
      && sts[0] == DeletePoints(id)
      && sts[1 + i].params[0] == Str(if p.id.Isset() then p.id.value else uniq(i))
      && sts[1 + i].params[1] == Str(id)
  {
    var inserts := PointInserts(columns, id, BodyPoints(b), KeptIds(BodyPoints(b), uniq));
    var sts := Replacement(columns, id, b, uniq);
    assert sts[1 + i] == inserts[i];
  }

  // ---------------------------------------------------------------- DELETE

  /** The answer to a DELETE: the client's points are deleted first, then the client;
      the answer reports the second statement's result. */
  function RespondDelete(query: Query, executed: bool): (o: Outcome)
    ensures o.resp.success <==> o.resp.status == 200
    ensures o.resp.status in {200, 400, 500}
    ensures o.resp.status == 400 <==> !query.id.Isset()
    ensures query.id.Isset() ==> var id := RealEscape(query.id.value);
      o.issued == [DeletePoints(id), DeleteClient(id)] && (o.resp.success <==> executed)
    ensures !query.id.Isset() ==> o.issued == []
  {
    if !query.id.Isset() then Outcome(Refusal(400, "Client ID is required"), [])
    else
      var id := RealEscape(query.id.value);
      var issued := [DeletePoints(id), DeleteClient(id)];
      if executed then Outcome(Response(200, true, Some("Client deleted successfully"), NoPayload), issued)
      else Outcome(Refusal(500, "Failed to delete client"), issued)
  }

  method HandleDelete(query: Query, executed: bool) returns (resp: Response, issued: seq<Statement>)
    ensures Outcome(resp, issued) == RespondDelete(query, executed)
  {
    if !query.id.Isset() {
      return Refusal(400, "Client ID is required"), [];
    }
    var id := RealEscape(query.id.value);
    issued := [DeletePoints(id), DeleteClient(id)];
    if executed {
      resp := Response(200, true, Some("Client deleted successfully"), NoPayload);
    } else {
      resp := Refusal(500, "Failed to delete client");
    }
  }

  // ---------------------------------------------------------------- dispatch

  /** The endpoint's answer to a request other than the CORS preflight, which is answered
      before the dispatch. `body` is None when the body is JSON `null` or no JSON at all;
      `freshId` and `uniq` are the values of `uniqid()`; `executed`/`dbError` are the
      database's answer to the statement whose result the method reports. */
  function Respond(method_: HttpMethod, query: Query, body: Option<ClientBody>, db: Db,
                   freshId: string, uniq: nat -> string, executed: bool, dbError: string): (o: Outcome)
    requires !method_.Options?
    ensures o.resp.status == 405 <==> method_.OtherMethod?
    ensures method_.Get? ==> o.issued == []
    ensures forall k :: 0 <= k < |o.issued| ==> WellBound(o.issued[k])
  {
    InsertColumnsPlain();
    var columns := TextPointsApi.InsertColumns;
    if method_.Get? then Outcome(RespondGet(query, db), [])
    else if method_.Post? then RespondPost(columns, body, freshId, uniq, executed, dbError)
    else if method_.Put? then RespondPut(columns, body, db, uniq, executed)
    else if method_.Delete? then RespondDelete(query, executed)
    else Outcome(Refusal(405, "Method not allowed"), [])
  }

  /** Whatever the request, a success is answered 200, every answer has one of five
      statuses, and a request refused with 400, 404 or 405 sends nothing. */
  lemma RespondStatuses(method_: HttpMethod, query: Query, body: Option<ClientBody>, db: Db,
                        freshId: string, uniq: nat -> string, executed: bool, dbError: string)
    requires !method_.Options?
    ensures var o := Respond(method_, query, body, db, freshId, uniq, executed, dbError);
      && (o.resp.success ==> o.resp.status == 200)
      && o.resp.status in {200, 400, 404, 405, 500}
      && (o.resp.status in {400, 404, 405} ==> o.issued == [])
  {
  }

  /** The endpoint as written. POST and PUT bind temporaries by reference: an accepted
      POST, and a PUT that re-inserts points, die in `bind_param`; every other request is
      answered as `Respond` answers it. */
  function RespondAsWritten(method_: HttpMethod, query: Query, body: Option<ClientBody>, db: Db,
                            freshId: string, uniq: nat -> string, executed: bool, dbError: string): (r: Run)
    requires !method_.Options?
    ensures r.Died? <==> (method_.Post? && PostAccepted(body)) || (method_.Put? && PutReinserts(body, db))
    ensures r.Answered? ==> r.outcome == Respond(method_, query, body, db, freshId, uniq, executed, dbError)
  {
    InsertColumnsPlain();
    var columns := TextPointsApi.InsertColumns;
    if method_.Post? then RespondPostAsWritten(columns, body, freshId, uniq, executed, dbError)
    else if method_.Put? then RespondPutAsWritten(columns, body, db, uniq, executed)
    else Answered(Respond(method_, query, body, db, freshId, uniq, executed, dbError))
  }

  /** The request handler: the chain of tests on the request method. */
  method Handle(method_: HttpMethod, query: Query, body: Option<ClientBody>, db: Db,
                freshId: string, uniq: nat -> string, executed: bool, dbError: string)
    returns (resp: Response, issued: seq<Statement>)
    requires !method_.Options?
    ensures Outcome(resp, issued) == Respond(method_, query, body, db, freshId, uniq, executed, dbError)
  {
    InsertColumnsPlain();
    var columns := TextPointsApi.InsertColumns;
    if method_.Get? {
      resp := HandleGet(query, db);
      issued := [];
    } else if method_.Post? {
      resp, issued := HandlePost(columns, body, freshId, uniq, executed, dbError);
    } else if method_.Put? {
      resp, issued := HandlePut(columns, body, db, uniq, executed);
    } else if method_.Delete? {
      resp, issued := HandleDelete(query, executed);
    } else {
      resp, issued := Refusal(405, "Method not allowed"), [];
    }
  }
}

=== FILE: image_canvas.dfy ===
/** The client-side compositor: a viewport over the background photo driven by mouse,
    wheel and touch gestures, and the drawing it issues on a fixed 1000 x 1000 surface
    (background, frame, footer, then the text points). */
module ImageCanvas {
  import opened Wrappers
  import opened ClientTypes
  import Text

  const SurfaceWidth: real := 1000.0
  const SurfaceHeight: real := 1000.0
  const MinScale: real := 0.1
  const MaxScale: real := 5.0
  const WheelOutFactor: real := 0.9
  const WheelInFactor: real := 1.1
  const DefaultColor: string := "#000000"

  // ---------------------------------------------------------------------------
  // Viewport transform

  /** Zoom of the background photo and the surface position of its top-left corner. */
  datatype View = View(scale: real, offsetX: real, offsetY: real)

  /** A position relative to the canvas element's box (client coordinates minus the
      box's left and top). */
  datatype Point = Point(x: real, y: real)

  /** A zoom is accepted only when the new scale lies in [MinScale, MaxScale]. */
  predicate ScaleInRange(s: real) {
    MinScale <= s <= MaxScale
  }

  /** Moves the photo by (dx, dy) surface pixels; the zoom is untouched. */
  function Pan(v: View, dx: real, dy: real): (r: View)
    ensures r.scale == v.scale
    ensures r.offsetX - v.offsetX == dx && r.offsetY - v.offsetY == dy
  {
    View(v.scale, v.offsetX + dx, v.offsetY + dy)
  }

  /** Scaling an offset about a pivot leaves the pivot's image coordinate unchanged. */
  lemma PivotFixed(c: real, o: real, s: real, s': real)
    requires s > 0.0 && s' > 0.0
    ensures (c - (c - (c - o) * (s' / s))) / s' == (c - o) / s
  {
    var k := s' / s;
    assert c - (c - (c - o) * k) == (c - o) * k;
    assert k / s' == 1.0 / s;
    assert (c - o) * k / s' == (c - o) * (k / s');
  }

  /** Multiplies the zoom by `factor` about the pivot (cx, cy). None when the new
      scale would leave [MinScale, MaxScale]: the handler then returns and nothing
      changes. When accepted, the image point under the pivot stays under it. */
  function Zoom(v: View, factor: real, cx: real, cy: real): (r: Option<View>)
    requires v.scale > 0.0
    ensures r.Some? <==> ScaleInRange(v.scale * factor)
    ensures r.Some? ==> r.value.scale == v.scale * factor
    ensures r.Some? ==> (cx - r.value.offsetX) / r.value.scale == (cx - v.offsetX) / v.scale
    ensures r.Some? ==> (cy - r.value.offsetY) / r.value.scale == (cy - v.offsetY) / v.scale
  {
    var s := v.scale * factor;
    if s < MinScale || s > MaxScale then None
    else
      PivotFixed(cx, v.offsetX, v.scale, s);
      PivotFixed(cy, v.offsetY, v.scale, s);
      Some(View(s, cx - (cx - v.offsetX) * (s / v.scale), cy - (cy - v.offsetY) * (s / v.scale)))
  }

  /** The wheel zooms out by 0.9 when scrolled down (deltaY > 0) and in by 1.1 otherwise. */
  function WheelFactor(deltaY: real): (f: real)
    ensures deltaY > 0.0 ==> f < 1.0
    ensures deltaY <= 0.0 ==> f > 1.0
  {
    if deltaY > 0.0 then WheelOutFactor else WheelInFactor
  }

  /** The pinch factor is the ratio of the finger distance to the previous one. A
      previous distance of 0 makes the JavaScript quotient Infinity or NaN, which
      fails the range test, so it is modelled as no factor at all. */
  function PinchFactor(lastDist: real, dist: real): (f: Option<real>)
    ensures f.Some? <==> lastDist != 0.0
    ensures f.Some? ==> f.value * lastDist == dist
  {
    if lastDist == 0.0 then None else Some(dist / lastDist)
  }

  function Midpoint(a: Point, b: Point): Point {
    Point((a.x + b.x) / 2.0, (a.y + b.y) / 2.0)
  }

  /** A pinch from the recorded distance `lastDist` to `dist`, about (cx, cy): the
      zoom by the distance ratio, or None when the recorded distance is zero or the
      zoom is refused. */
  function PinchZoom(v: View, lastDist: real, dist: real, cx: real, cy: real): Option<View>
    requires v.scale > 0.0
  {
    var f := PinchFactor(lastDist, dist);
    if f.Some? then Zoom(v, f.value, cx, cy) else None
  }

  /** The gesture state of the canvas component. */
  class Viewport {
    var scale: real
    var offsetX: real
    var offsetY: real
    var isDragging: bool
    var lastX: real
    var lastY: real
    var lastDist: real

    ghost predicate Valid()
      reads this
    {
      ScaleInRange(scale)
    }

    function Transform(): View
      reads this
    {
      View(scale, offsetX, offsetY)
    }

    constructor ()
      ensures Valid()
      ensures Transform() == View(1.0, 0.0, 0.0)
      ensures !isDragging && lastX == 0.0 && lastY == 0.0 && lastDist == 0.0
    {
      scale, offsetX, offsetY := 1.0, 0.0, 0.0;
      isDragging := false;
      lastX, lastY, lastDist := 0.0, 0.0, 0.0;
    }

    /** Starts a drag at `at`; ignored without a background photo. */
    method MouseDown(hasBackground: bool, at: Point)
      requires Valid()
      modifies this
      ensures Valid()
      ensures !hasBackground ==> unchanged(this)
      ensures hasBackground ==> isDragging && lastX == at.x && lastY == at.y
      ensures Transform() == old(Transform()) && lastDist == old(lastDist)
    {
      if !hasBackground {
        return;
      }
      isDragging := true;
      lastX, lastY := at.x, at.y;
    }

    /** While dragging, pans by the mouse movement converted to surface pixels
        (`canvasScale` = surface width / displayed width). */
    method MouseMove(hasBackground: bool, at: Point, canvasScale: real)
      requires Valid()
      modifies this
      ensures Valid()
      ensures !(old(isDragging) && hasBackground) ==> unchanged(this)
      ensures old(isDragging) && hasBackground ==>
        Transform() == Pan(old(Transform()), (at.x - old(lastX)) * canvasScale, (at.y - old(lastY)) * canvasScale)
        && lastX == at.x && lastY == at.y
      ensures isDragging == old(isDragging) && lastDist == old(lastDist)
    {
      if !isDragging || !hasBackground {
        return;
      }
      var v := Pan(Transform(), (at.x - lastX) * canvasScale, (at.y - lastY) * canvasScale);
      offsetX, offsetY := v.offsetX, v.offsetY;
      lastX, lastY := at.x, at.y;
    }

    /** Mouse up and mouse leave: the drag ends and nothing else changes. */
    method MouseUp()
      requires Valid()
      modifies this
      ensures Valid()
      ensures !isDragging
      ensures Transform() == old(Transform())
      ensures lastX == old(lastX) && lastY == old(lastY) && lastDist == old(lastDist)
    {
      isDragging := false;
    }

    /** Wheel zoom about the cursor. The page scroll is always prevented, even
        without a background photo. */
    method Wheel(hasBackground: bool, deltaY: real, at: Point, canvasScale: real) returns (prevented: bool)
      requires Valid()
      modifies this
      ensures Valid()
      ensures prevented
      ensures !hasBackground ==> unchanged(this)
      ensures hasBackground ==>
        Transform() == Zoom(old(Transform()), WheelFactor(deltaY), at.x * canvasScale, at.y * canvasScale).GetOr(old(Transform()))
      ensures isDragging == old(isDragging) && lastX == old(lastX) && lastY == old(lastY)
      ensures lastDist == old(lastDist)
    {
      prevented := true;
      if !hasBackground {
        return;
      }
      var z := Zoom(Transform(), WheelFactor(deltaY), at.x * canvasScale, at.y * canvasScale);
      if z.None? {
        return;
      }
      scale, offsetX, offsetY := z.value.scale, z.value.offsetX, z.value.offsetY;
    }

    /** One finger starts a drag; two fingers record their distance (`Math.hypot` of
        their separation, given as `dist`) and midpoint for the pinch. */
    method TouchStart(hasBackground: bool, touches: seq<Point>, dist: real) returns (prevented: bool)
      requires Valid()
      modifies this
      ensures Valid()
      ensures prevented == hasBackground
      ensures !hasBackground || |touches| !in {1, 2} ==> unchanged(this)
      ensures hasBackground && |touches| == 1 ==>
        isDragging && lastX == touches[0].x && lastY == touches[0].y && lastDist == old(lastDist)
      ensures hasBackground && |touches| == 2 ==>
        isDragging == old(isDragging) && lastDist == dist
        && Point(lastX, lastY) == Midpoint(touches[0], touches[1])
      ensures Transform() == old(Transform())
    {
      if !hasBackground {
        return false;
      }
      prevented := true;
      if |touches| == 1 {
        isDragging := true;
        lastX, lastY := touches[0].x, touches[0].y;
      } else if |touches| == 2 {
        lastDist := dist;
        var c := Midpoint(touches[0], touches[1]);
        lastX, lastY := c.x, c.y;
      }
    }

    /** One finger pans while dragging; two fingers zoom by the distance ratio about
        their midpoint, and only an accepted zoom records the new distance and midpoint. */
    method TouchMove(hasBackground: bool, touches: seq<Point>, dist: real, canvasScale: real)
      returns (prevented: bool)
      requires Valid()
      modifies this
      ensures Valid()
      ensures prevented == hasBackground
      ensures !hasBackground ==> unchanged(this)
      ensures hasBackground && |touches| == 1 && old(isDragging) ==>
        Transform() == Pan(old(Transform()), (touches[0].x - old(lastX)) * canvasScale, (touches[0].y - old(lastY)) * canvasScale)
        && lastX == touches[0].x && lastY == touches[0].y && lastDist == old(lastDist)
      ensures hasBackground && |touches| == 1 && !old(isDragging) ==> unchanged(this)
      ensures hasBackground && |touches| == 2 ==>
        var c := Midpoint(touches[0], touches[1]);
        var z := PinchZoom(old(Transform()), old(lastDist), dist, c.x * canvasScale, c.y * canvasScale);
        if z.Some? then Transform() == z.value && lastDist == dist && lastX == c.x && lastY == c.y
        else unchanged(this)
      ensures hasBackground && |touches| !in {1, 2} ==> unchanged(this)
      ensures isDragging == old(isDragging)
    {
      if !hasBackground {
        return false;
      }
      prevented := true;
      if |touches| == 1 && isDragging {
        var v := Pan(Transform(), (touches[0].x - lastX) * canvasScale, (touches[0].y - lastY) * canvasScale);
        offsetX, offsetY := v.offsetX, v.offsetY;
        lastX, lastY := touches[0].x, touches[0].y;
      } else if |touches| == 2 {
        Pinch(touches[0], touches[1], dist, canvasScale);
      }
    }

    /** The two-finger branch of the touch move: zoom by the ratio of the new distance
        to the recorded one, about the midpoint; a zoom out of range, or a recorded
        distance of zero, changes nothing. */
    method Pinch(a: Point, b: Point, dist: real, canvasScale: real)
      requires Valid()
      modifies this
      ensures Valid()
      ensures var c := Midpoint(a, b);
        var z := PinchZoom(old(Transform()), old(lastDist), dist, c.x * canvasScale, c.y * canvasScale);
        if z.Some? then Transform() == z.value && lastDist == dist && lastX == c.x && lastY == c.y
        else unchanged(this)
      ensures isDragging == old(isDragging)
    {
      var f := PinchFactor(lastDist, dist);
      if f.None? {
        return;
      }
      var c := Midpoint(a, b);
      var z := Zoom(Transform(), f.value, c.x * canvasScale, c.y * canvasScale);
      assert z == PinchZoom(Transform(), lastDist, dist, c.x * canvasScale, c.y * canvasScale);
      if z.None? {
        return;
      }
      var w := z.value;
      scale, offsetX, offsetY := w.scale, w.offsetX, w.offsetY;
      assert Transform() == View(w.scale, w.offsetX, w.offsetY) == w;
      lastDist := dist;
      lastX, lastY := c.x, c.y;
    }

    /** The touch ends the drag and nothing else changes. */
    method TouchEnd()
      requires Valid()
      modifies this
      ensures Valid()
      ensures !isDragging
      ensures Transform() == old(Transform())
      ensures lastX == old(lastX) && lastY == old(lastY) && lastDist == old(lastDist)
    {
      isDragging := false;
    }
  }
}

=== FILE: image_draw.dfy ===
/** The drawing pass of the client canvas: the commands `drawCanvas` issues on the 2D
    context, layer by layer, and the text of each point at its anchor. */
module CanvasDraw {
  import opened Wrappers
  import opened ClientTypes
  import Text
  import opened ImageCanvas
  // ---------------------------------------------------------------------------
  // Draw plan

  /** A positive image dimension: a decoded image has a width and height of at least
      one pixel. */
  type Dimension = r: real | r > 0.0 witness 1.0

  datatype Layer = Background | Frame | Footer

  /** What became of a layer's image when the draw pass reached it: no source was
      given, it decoded with these natural dimensions, or its `onload` never fires
      (the source has no `onerror` handler, so the pass stops there). */
  datatype LayerLoad = Absent | Decoded(width: Dimension, height: Dimension) | NeverLoads

  /** The calls the pass makes on the 2D context. Text is drawn with textAlign
      "center" and textBaseline "middle", so (x, y) is the centre of the text. */
  datatype Command =
    | ClearRect(x: real, y: real, w: real, h: real)
    | DrawImage(layer: Layer, x: real, y: real, w: real, h: real)
    | FillText(text: string, font: Font, color: string, x: real, y: real)
    | StrokeLine(x1: real, y1: real, x2: real, y2: real, color: string, width: real)

  /** The value typed for a point (`textValues[id] || ""`). */
  function TextOf(values: map<string, string>, id: string): string {
    if id in values then values[id] else ""
  }

  /** The font a point is drawn in: its style flags, size in pixels and family. */
  datatype Font = Font(italic: bool, bold: bool, size: int, family: string)

  /** The font of a point: "italic" and "bold" among its styles set the flags;
      any other style (such as "underline") does not affect the font. */
  function FontOf(p: TextPoint): (f: Font)
    ensures f.italic <==> "italic" in p.fontStyle
    ensures f.bold <==> "bold" in p.fontStyle
    ensures f.size == p.fontSize && f.family == p.fontFamily
  {
    Font("italic" in p.fontStyle, "bold" in p.fontStyle, p.fontSize, p.fontFamily)
  }

  /** The CSS font string set on the context: optional "italic ", optional "bold ",
      then "<size>px <family>". */
  function FontString(f: Font): string {
    (if f.italic then "italic " else "") +
    ((if f.bold then "bold " else "") + (Text.IntToDecimal(f.size) + "px " + f.family))
  }

  /** The string starts with "italic " exactly when the font is italic, and what follows
      starts with "bold " exactly when it is bold: italic always precedes bold. */
  lemma FontStringStyles(f: Font)
    ensures var s := FontString(f);
      && (Text.HasPrefix(s, "italic ") <==> f.italic)
      && var rest := if f.italic then s[7..] else s;
         Text.HasPrefix(rest, "bold ") <==> f.bold
  {
    var s := FontString(f);
    var size := Text.IntToDecimal(f.size);
    var tail := size + "px " + f.family;
    assert tail[0] == size[0];
    var rest := (if f.bold then "bold " else "") + tail;
    if f.italic {
      assert s[..7] == "italic " && s[7..] == rest;
    } else {
      assert s[0] == rest[0];
    }
    if f.bold {
      assert rest[..5] == "bold ";
    } else {
      assert rest[0] == tail[0];
    }
  }

  /** The fill and stroke colour: the point's colour when set and non-empty, else black. */
  function ColorOf(p: TextPoint): (c: string)
    ensures c != ""
    ensures p.color.Some? && p.color.value != "" ==> c == p.color.value
    ensures p.color.None? || p.color.value == "" ==> c == DefaultColor
  {
    if p.color.Some? && p.color.value != "" then p.color.value else DefaultColor
  }

  /** The surface position of a point given in percent. */
  function AnchorX(p: TextPoint): real {
    (p.x / 100.0) * SurfaceWidth
  }

  function AnchorY(p: TextPoint): real {
    (p.y / 100.0) * SurfaceHeight
  }

  /** The commands for one point whose typed text is `text` and whose measured width
      (`measureText(text).width` in the point's font) is `textWidth`. */
  function PointCommands(p: TextPoint, text: string, textWidth: real): seq<Command> {
    if text == "" then []
    else
      var x, y := AnchorX(p), AnchorY(p);
      var fill := FillText(text, FontOf(p), ColorOf(p), x, y);
      if "underline" in p.fontStyle then
        var lineY := y + p.fontSize as real / 2.0;
        [fill, StrokeLine(x - textWidth / 2.0, lineY, x + textWidth / 2.0, lineY, ColorOf(p), p.fontSize as real / 20.0)]
      else [fill]
  }

  /** An empty value draws nothing; otherwise the text is filled centred on the
      point's anchor, and an underlined point adds one line of the measured width,
      centred under the text, half a font size below its centre. */
  lemma PointCommandsShape(p: TextPoint, text: string, textWidth: real)
    ensures var r := PointCommands(p, text, textWidth);
      && (text == "" ==> r == [])
      && (text != "" ==> |r| >= 1 && r[0] == FillText(text, FontOf(p), ColorOf(p), AnchorX(p), AnchorY(p)))
      && |r| <= 2
      && (|r| == 2 <==> text != "" && "underline" in p.fontStyle)
      && (|r| == 2 ==>
        && r[1].StrokeLine?
        && r[1].y1 == r[1].y2 == AnchorY(p) + p.fontSize as real / 2.0
        && r[1].x2 - r[1].x1 == textWidth
        && (r[1].x1 + r[1].x2) / 2.0 == AnchorX(p)
        && r[1].color == ColorOf(p)
        && r[1].width == p.fontSize as real / 20.0)
  {
  }

  /** The commands for one point, measuring its text with `measure(font, text)`. */
  function CommandsFor(p: TextPoint, values: map<string, string>, measure: (Font, string) -> real): seq<Command> {
    var text := TextOf(values, p.id);
    PointCommands(p, text, measure(FontOf(p), text))
  }

  /** The text layer: every point's commands, in list order. */
  function TextCommands(points: seq<TextPoint>, values: map<string, string>, measure: (Font, string) -> real): seq<Command>
    decreases |points|
  {
    if points == [] then []
    else TextCommands(points[..|points| - 1], values, measure) + CommandsFor(points[|points| - 1], values, measure)
  }

  /** The text layer of one more point. */
  lemma TextCommandsStep(points: seq<TextPoint>, i: nat, values: map<string, string>, measure: (Font, string) -> real)
    requires i < |points|
    ensures TextCommands(points[..i + 1], values, measure) == TextCommands(points[..i], values, measure) + CommandsFor(points[i], values, measure)
  {
    assert points[..i + 1][..i] == points[..i];
  }

  /** The number of points whose typed text is non-empty. */
  function Shown(points: seq<TextPoint>, values: map<string, string>): nat
    decreases |points|
  {
    if points == [] then 0
    else Shown(points[..|points| - 1], values) + (if TextOf(values, points[|points| - 1].id) != "" then 1 else 0)
  }

  function CountFills(cs: seq<Command>): nat
    decreases |cs|
  {
    if cs == [] then 0 else CountFills(cs[..|cs| - 1]) + (if cs[|cs| - 1].FillText? then 1 else 0)
  }

  lemma {:induction false} CountFillsAppend(a: seq<Command>, b: seq<Command>)
    ensures CountFills(a + b) == CountFills(a) + CountFills(b)
    decreases |b|
  {
    if b == [] {
      assert a + b == a;
    } else {
      var ab := a + b;
      assert ab[..|ab| - 1] == a + b[..|b| - 1];
      assert ab[|ab| - 1] == b[|b| - 1];
      CountFillsAppend(a, b[..|b| - 1]);
    }
  }

  /** Exactly one text is filled per point with a non-empty value: empty points are
      skipped, and a point is never drawn twice. */
  lemma {:induction false} OneFillPerShownPoint(points: seq<TextPoint>, values: map<string, string>, measure: (Font, string) -> real)
    ensures CountFills(TextCommands(points, values, measure)) == Shown(points, values)
    decreases |points|
  {
    if points != [] {
      var init := points[..|points| - 1];
      var p := points[|points| - 1];
      var text := TextOf(values, p.id);
      var last := CommandsFor(p, values, measure);
      PointCommandsShape(p, text, measure(FontOf(p), text));
      OneFillPerShownPoint(init, values, measure);
      CountFillsAppend(TextCommands(init, values, measure), last);
      assert |last| == 2 ==> last == [last[0]] + [last[1]];
      if |last| == 2 { CountFillsAppend([last[0]], [last[1]]); }
      assert CountFills(last) == if TextOf(values, points[|points| - 1].id) != "" then 1 else 0;
    }
  }

  /** The stacking level of a command: clearing, background, frame, footer, text. */
  function Rank(c: Command): nat {
    match c
    case ClearRect(_, _, _, _) => 0
    case DrawImage(layer, _, _, _, _) => (match layer case Background => 1 case Frame => 2 case Footer => 3)
    case FillText(_, _, _, _, _) => 4
    case StrokeLine(_, _, _, _, _, _) => 4
  }

  /** Commands appear in non-decreasing stacking level. */
  predicate InZOrder(cs: seq<Command>) {
    forall i, j :: 0 <= i < j < |cs| ==> Rank(cs[i]) <= Rank(cs[j])
  }

  predicate AllText(cs: seq<Command>) {
    forall i :: 0 <= i < |cs| ==> Rank(cs[i]) == 4
  }

  lemma {:induction false} TextCommandsAreText(points: seq<TextPoint>, values: map<string, string>, measure: (Font, string) -> real)
    ensures AllText(TextCommands(points, values, measure))
    decreases |points|
  {
    if points != [] {
      TextCommandsAreText(points[..|points| - 1], values, measure);
    }
  }

  /** Prefixing a command of lower or equal level keeps the order. */
  lemma ConsInZOrder(c: Command, cs: seq<Command>)
    requires InZOrder(cs)
    requires forall i :: 0 <= i < |cs| ==> Rank(c) <= Rank(cs[i])
    ensures InZOrder([c] + cs)
  {
    forall i, j | 0 <= i < j < |[c] + cs| ensures Rank(([c] + cs)[i]) <= Rank(([c] + cs)[j]) {
      if i > 0 {
        assert ([c] + cs)[i] == cs[i - 1];
      }
      assert ([c] + cs)[j] == cs[j - 1];
    }
  }

  /** The height of the footer strip: the surface width times the image's aspect ratio. */
  function FooterHeight(width: Dimension, height: Dimension): (fh: real)
    ensures fh > 0.0
    ensures fh / SurfaceWidth == height / width
  {
    (height / width) * SurfaceWidth
  }

  /** The photo, at the view's offset, with its natural size times the view's scale. */
  function BackgroundImage(width: Dimension, height: Dimension, v: View): Command {
    DrawImage(Background, v.offsetX, v.offsetY, width * v.scale, height * v.scale)
  }

  /** The frame, stretched over the whole surface. */
  const FrameImage := DrawImage(Frame, 0.0, 0.0, SurfaceWidth, SurfaceHeight)

  /** The footer: full width, keeping its aspect ratio, with its bottom edge on the
      bottom edge of the surface. */
  function FooterImage(width: Dimension, height: Dimension): (c: Command)
    ensures c.DrawImage? && c.layer == Footer
    ensures c.x == 0.0 && c.w == SurfaceWidth && c.y + c.h == SurfaceHeight
    ensures c.h / c.w == height / width
  {
    var fh := FooterHeight(width, height);
    DrawImage(Footer, 0.0, SurfaceHeight - fh, SurfaceWidth, fh)
  }

  /** Footer (bottom-anchored, full width) then text; a footer that never loads stops the pass. */
  function FooterAndText(footer: LayerLoad, points: seq<TextPoint>, values: map<string, string>,
                         measure: (Font, string) -> real): seq<Command>
  {
    match footer
    case Absent => TextCommands(points, values, measure)
    case Decoded(w, h) => [FooterImage(w, h)] + TextCommands(points, values, measure)
    case NeverLoads => []
  }

  /** `drawFrameAndText`: the frame stretched over the whole surface, then the footer
      and the text. */
  function FrameAndText(frame: LayerLoad, footer: LayerLoad, points: seq<TextPoint>, values: map<string, string>,
                        measure: (Font, string) -> real): seq<Command>
  {
    match frame
    case Absent => FooterAndText(footer, points, values, measure)
    case Decoded(_, _) =>
      [FrameImage] + FooterAndText(footer, points, values, measure)
    case NeverLoads => []
  }

  /** `drawCanvas`: clear the surface, draw the photo at the view's offset with its
      natural size times the view's scale, then the frame, footer and text. */
  function DrawPlan(background: LayerLoad, frame: LayerLoad, footer: LayerLoad, v: View,
                    points: seq<TextPoint>, values: map<string, string>, measure: (Font, string) -> real): seq<Command>
  {
    [ClearRect(0.0, 0.0, SurfaceWidth, SurfaceHeight)] +
    match background
    case Absent => FrameAndText(frame, footer, points, values, measure)
    case Decoded(w, h) =>
      [BackgroundImage(w, h, v)] + FrameAndText(frame, footer, points, values, measure)
    case NeverLoads => []
  }

  /** Every command is at stacking level `k` or above. */
  predicate RanksFrom(cs: seq<Command>, k: nat) {
    forall i :: 0 <= i < |cs| ==> Rank(cs[i]) >= k
  }

  lemma FooterAndTextInZOrder(footer: LayerLoad, points: seq<TextPoint>, values: map<string, string>,
                              measure: (Font, string) -> real)
    ensures var f := FooterAndText(footer, points, values, measure);
      InZOrder(f) && RanksFrom(f, 3)
  {
    var text := TextCommands(points, values, measure);
    TextCommandsAreText(points, values, measure);
    var f := FooterAndText(footer, points, values, measure);
    if footer.Decoded? {
      ConsInZOrder(f[0], text);
      assert f == [f[0]] + text;
    }
  }

  lemma FrameAndTextInZOrder(frame: LayerLoad, footer: LayerLoad, points: seq<TextPoint>, values: map<string, string>,
                             measure: (Font, string) -> real)
    ensures var ft := FrameAndText(frame, footer, points, values, measure);
      InZOrder(ft) && RanksFrom(ft, 2)
  {
    var f := FooterAndText(footer, points, values, measure);
    FooterAndTextInZOrder(footer, points, values, measure);
    var ft := FrameAndText(frame, footer, points, values, measure);
    if frame.Decoded? {
      ConsInZOrder(ft[0], f);
      assert ft == [ft[0]] + f;
    }
  }

  /** Whatever layers are present, the surface is cleared first and the layers come
      in the order background, frame, footer, text. */
  lemma DrawPlanInZOrder(background: LayerLoad, frame: LayerLoad, footer: LayerLoad, v: View,
                         points: seq<TextPoint>, values: map<string, string>, measure: (Font, string) -> real)
    ensures var plan := DrawPlan(background, frame, footer, v, points, values, measure);
      InZOrder(plan) && plan[0] == ClearRect(0.0, 0.0, SurfaceWidth, SurfaceHeight)
  {
    var plan := DrawPlan(background, frame, footer, v, points, values, measure);
    var ft := FrameAndText(frame, footer, points, values, measure);
    FrameAndTextInZOrder(frame, footer, points, values, measure);
    var rest := plan[1..];
    assert plan == [plan[0]] + rest;
    if background.Decoded? {
      assert rest == [rest[0]] + ft;
      ConsInZOrder(rest[0], ft);
    }
    assert InZOrder(rest) && RanksFrom(rest, 1);
    ConsInZOrder(plan[0], rest);
  }

  lemma AppendAssociative(a: seq<Command>, b: seq<Command>, c: seq<Command>)
    ensures (a + b) + c == a + (b + c)
  {
  }

  /** The image commands of the layers that decoded, bottom layer first. */
  function LoadedImages(background: LayerLoad, frame: LayerLoad, footer: LayerLoad, v: View): (r: seq<Command>)
    ensures forall i :: 0 <= i < |r| ==> r[i].DrawImage?
    ensures |r| == (if background.Decoded? then 1 else 0) + (if frame.Decoded? then 1 else 0) + (if footer.Decoded? then 1 else 0)
  {
    (match background case Decoded(w, h) => [BackgroundImage(w, h, v)] case _ => [])
    + (if frame.Decoded? then [FrameImage] else [])
    + (match footer case Decoded(w, h) => [FooterImage(w, h)] case _ => [])
  }

  /** When every present layer loads, the pass is: clear, the loaded layers' images,
      then the text layer; absent layers are skipped. */
  lemma TextClosesEveryCompletedPass(background: LayerLoad, frame: LayerLoad, footer: LayerLoad, v: View,
                                     points: seq<TextPoint>, values: map<string, string>, measure: (Font, string) -> real)
    requires !background.NeverLoads? && !frame.NeverLoads? && !footer.NeverLoads?
    ensures DrawPlan(background, frame, footer, v, points, values, measure)
         == [ClearRect(0.0, 0.0, SurfaceWidth, SurfaceHeight)] + LoadedImages(background, frame, footer, v)
            + TextCommands(points, values, measure)
  {
    var text := TextCommands(points, values, measure);
    var fo: seq<Command> := match footer case Decoded(w, h) => [FooterImage(w, h)] case _ => [];
    var fr: seq<Command> := if frame.Decoded? then [FrameImage] else [];
    var bg: seq<Command> := match background case Decoded(w, h) => [BackgroundImage(w, h, v)] case _ => [];
    var clear := [ClearRect(0.0, 0.0, SurfaceWidth, SurfaceHeight)];
    assert FooterAndText(footer, points, values, measure) == fo + text;
    assert FrameAndText(frame, footer, points, values, measure) == fr + (fo + text);
    AppendAssociative(fr, fo, text);
    assert DrawPlan(background, frame, footer, v, points, values, measure) == clear + (bg + ((fr + fo) + text));
    AppendAssociative(bg, fr + fo, text);
    AppendAssociative(bg, fr, fo);
    assert LoadedImages(background, frame, footer, v) == bg + fr + fo;
    AppendAssociative(clear, bg + fr + fo, text);
  }

  /** A layer whose image never loads stops the pass: no text is drawn. */
  lemma StalledPassDrawsNoText(background: LayerLoad, frame: LayerLoad, footer: LayerLoad, v: View,
                               points: seq<TextPoint>, values: map<string, string>, measure: (Font, string) -> real)
    requires background.NeverLoads? || frame.NeverLoads? || footer.NeverLoads?
    ensures var plan := DrawPlan(background, frame, footer, v, points, values, measure);
      forall i :: 0 <= i < |plan| ==> Rank(plan[i]) < 4
  {
  }

  /** A point's anchor lies on the surface when its percentages are in [0, 100], moves
      the same way as the percentage, and sits at the centre for 50. */
  lemma AnchorFollowsPercent(p: TextPoint, q: TextPoint)
    ensures 0.0 <= p.x <= 100.0 ==> 0.0 <= AnchorX(p) <= SurfaceWidth
    ensures 0.0 <= p.y <= 100.0 ==> 0.0 <= AnchorY(p) <= SurfaceHeight
    ensures p.x <= q.x ==> AnchorX(p) <= AnchorX(q)
    ensures p.y <= q.y ==> AnchorY(p) <= AnchorY(q)
    ensures p.x == 50.0 ==> AnchorX(p) == SurfaceWidth / 2.0
    ensures p.y == 50.0 ==> AnchorY(p) == SurfaceHeight / 2.0
  {
  }

  /** The draw surface: the log of commands issued on its 2D context. */
  class Surface {
    var log: seq<Command>

    constructor ()
      ensures log == []
    {
      log := [];
    }

    /** `drawCanvas`. */
    method DrawCanvas(background: LayerLoad, frame: LayerLoad, footer: LayerLoad, v: View,
                      points: seq<TextPoint>, values: map<string, string>, measure: (Font, string) -> real)
      modifies this
      ensures log == old(log) + DrawPlan(background, frame, footer, v, points, values, measure)
    {
      var clear := ClearRect(0.0, 0.0, SurfaceWidth, SurfaceHeight);
      log := log + [clear];
      ghost var rest := FrameAndText(frame, footer, points, values, measure);
      match background {
        case Absent =>
          DrawFrameAndText(frame, footer, points, values, measure);
          AppendAssociative(old(log), [clear], rest);
        case Decoded(w, h) =>
          var image := BackgroundImage(w, h, v);
          log := log + [image];
          ghost var mid := log;
          DrawFrameAndText(frame, footer, points, values, measure);
          assert mid == old(log) + [clear, image];
          AppendAssociative(old(log), [clear, image], rest);
          AppendAssociative([clear], [image], rest);
          assert [clear] + [image] == [clear, image];
        case NeverLoads =>
          assert [clear] + [] == [clear];
      }
    }

    /** `drawFrameAndText`. */
    method DrawFrameAndText(frame: LayerLoad, footer: LayerLoad, points: seq<TextPoint>, values: map<string, string>,
                            measure: (Font, string) -> real)
      modifies this
      ensures log == old(log) + FrameAndText(frame, footer, points, values, measure)
    {
      if frame.NeverLoads? {
        return;
      }
      ghost var frameCommands: seq<Command> := [];
      if frame.Decoded? {
        log := log + [FrameImage];
        frameCommands := [FrameImage];
      }
      ghost var mid := log;
      assert mid == old(log) + frameCommands;
      match footer {
        case Absent =>
          DrawTextPoints(points, values, measure);
        case Decoded(w, h) =>
          var image := FooterImage(w, h);
          log := log + [image];
          DrawTextPoints(points, values, measure);
          AppendAssociative(mid, [image], TextCommands(points, values, measure));
        case NeverLoads =>
      }
      AppendAssociative(old(log), frameCommands, FooterAndText(footer, points, values, measure));
    }

    /** The body of the loop in `drawTextPoints`: skip a point whose text is empty,
        else fill the text and, for "underline", stroke the line under it. */
    method DrawTextPoint(p: TextPoint, values: map<string, string>, measure: (Font, string) -> real)
      modifies this
      ensures log == old(log) + CommandsFor(p, values, measure)
    {
      var text := TextOf(values, p.id);
      if text != "" {
        var font := FontOf(p);
        var color := ColorOf(p);
        var x, y := AnchorX(p), AnchorY(p);
        var fill := FillText(text, font, color, x, y);
        log := log + [fill];
        if "underline" in p.fontStyle {
          var textWidth := measure(font, text);
          var lineY := y + p.fontSize as real / 2.0;
          var line := StrokeLine(x - textWidth / 2.0, lineY, x + textWidth / 2.0, lineY, color, p.fontSize as real / 20.0);
          log := log + [line];
          AppendAssociative(old(log), [fill], [line]);
          assert [fill] + [line] == [fill, line];
        }
      }
    }

    /** `drawTextPoints`: for each point in order, draw it. */
    method DrawTextPoints(points: seq<TextPoint>, values: map<string, string>, measure: (Font, string) -> real)
      modifies this
      ensures log == old(log) + TextCommands(points, values, measure)
    {
      var i := 0;
      while i < |points|
        invariant 0 <= i <= |points|
        invariant log == old(log) + TextCommands(points[..i], values, measure)
      {
        DrawTextPoint(points[i], values, measure);
        TextCommandsStep(points, i, values, measure);
        AppendAssociative(old(log), TextCommands(points[..i], values, measure), CommandsFor(points[i], values, measure));
        i := i + 1;
      }
      assert points[..i] == points;
    }
  }
}

=== FILE: php.dfy ===
/** The PHP built-ins the endpoints rely on: `isset`/`array_key_exists` on a decoded
    request, prepared statements, `empty`, `implode`, `explode` and the JSON encoding of
    a list of strings stored in the `font_style` column. */
module Php {
  import opened Wrappers
  import Text

  /** One key of a decoded JSON request: missing, present with `null`, or given. */
  datatype Field<T> = Missing | Null | Given(value: T) {
    /** `isset($data[key])`: present and not null. */
    predicate Isset() {
      Given?
    }

    /** `array_key_exists(key, $data)`: present, possibly null. */
    predicate KeyExists() {
      !Missing?
    }
  }

  /** `$_SERVER['REQUEST_METHOD']`, as the endpoints tell the methods apart. */
  datatype HttpMethod = Get | Post | Put | Delete | Options | OtherMethod

  /** A value bound to a statement placeholder. */
  datatype Param = Str(s: string) | Real(r: real) | Int(i: int) | NullParam

  /** A prepared statement: the SQL text, the `bind_param` type string, the values. */
  datatype Statement = Statement(sql: string, types: string, params: seq<Param>)

  /** How a value reaches `mysqli_stmt::bind_param`, which takes its values by reference:
      a variable or an array element can be passed so, the result of an expression such
      as `$a ?? null` is a temporary and cannot. */
  datatype Arg = Var(value: Param) | Temp(value: Param)

  /** The outcome of `bind_param`: the bound statement, or the `Error` PHP throws at the
      first temporary, "Argument #n could not be passed by reference". */
  datatype Bind = Bound(st: Statement) | NotByReference(argument: nat)

  function Values(args: seq<Arg>): (ps: seq<Param>)
    ensures |ps| == |args|
    ensures forall i :: 0 <= i < |args| ==> ps[i] == args[i].value
  {
    seq(|args|, i requires 0 <= i < |args| => args[i].value)
  }

  /** The same values, each first copied into a variable of its own. */
  function FromVariables(ps: seq<Param>): (args: seq<Arg>)
    ensures |args| == |ps|
    ensures forall i :: 0 <= i < |ps| ==> args[i] == Var(ps[i])
  {
    seq(|ps|, i requires 0 <= i < |ps| => Var(ps[i]))
  }

  /** The position of the first temporary, `|args|` when there is none. */
  function FirstTemp(args: seq<Arg>): (k: nat)
    ensures k <= |args|
    ensures k < |args| ==> args[k].Temp?
    ensures forall j :: 0 <= j < k ==> args[j].Var?
    decreases |args|
  {
    if args == [] || args[0].Temp? then 0 else 1 + FirstTemp(args[1..])
  }

  /** `$stmt->bind_param($types, ...)`. The type string is argument 1, so the k-th value
      (counting from 0) is argument k + 2. */
  function BindParam(sql: string, types: string, args: seq<Arg>): (b: Bind)
    ensures b.Bound? <==> forall i :: 0 <= i < |args| ==> args[i].Var?
    ensures b.Bound? ==> b.st == Statement(sql, types, Values(args))
    ensures b.NotByReference? ==> b.argument == FirstTemp(args) + 2
  {
    var k := FirstTemp(args);
    if k < |args| then NotByReference(k + 2) else Bound(Statement(sql, types, Values(args)))
  }

  /** Values copied into variables first are always bound, as themselves. */
  lemma BindFromVariables(sql: string, types: string, ps: seq<Param>)
    ensures BindParam(sql, types, FromVariables(ps)) == Bound(Statement(sql, types, ps))
  {
    assert Values(FromVariables(ps)) == ps;
  }

  /** The number of `?` placeholders in a SQL text. */
  function Placeholders(sql: string): nat
    decreases |sql|
  {
    if sql == [] then 0 else Placeholders(sql[..|sql| - 1]) + (if sql[|sql| - 1] == '?' then 1 else 0)
  }

  lemma {:induction false} PlaceholdersAppend(a: string, b: string)
    ensures Placeholders(a + b) == Placeholders(a) + Placeholders(b)
    decreases |b|
  {
    if b == [] {
      assert a + b == a;
    } else {
      assert (a + b)[..|a + b| - 1] == a + b[..|b| - 1];
      PlaceholdersAppend(a, b[..|b| - 1]);
    }
  }

  lemma {:induction false} NoPlaceholders(s: string)
    requires '?' !in s
    ensures Placeholders(s) == 0
    decreases |s|
  {
    if s != [] {
      assert s == s[..|s| - 1] + [s[|s| - 1]];
      NoPlaceholders(s[..|s| - 1]);
    }
  }

  /** Joining pieces that hold one placeholder each with a separator holding none. */
  lemma {:induction false} PlaceholdersImplode(sep: string, l: seq<string>)
    requires Placeholders(sep) == 0
    requires forall i :: 0 <= i < |l| ==> Placeholders(l[i]) == 1
    ensures Placeholders(Implode(sep, l)) == |l|
    decreases |l|
  {
    if |l| > 1 {
      assert forall i :: 0 <= i < |l[1..]| ==> l[1..][i] == l[i + 1];
      PlaceholdersImplode(sep, l[1..]);
      PlaceholdersAppend(l[0], sep);
      PlaceholdersAppend(l[0] + sep, Implode(sep, l[1..]));
    }
  }

  /** Joining pieces and a separator that hold no placeholder. */
  lemma {:induction false} NoPlaceholdersImplode(sep: string, l: seq<string>)
    requires Placeholders(sep) == 0
    requires forall i :: 0 <= i < |l| ==> Placeholders(l[i]) == 0
    ensures Placeholders(Implode(sep, l)) == 0
    decreases |l|
  {
    if |l| > 1 {
      assert forall i :: 0 <= i < |l[1..]| ==> l[1..][i] == l[i + 1];
      NoPlaceholdersImplode(sep, l[1..]);
      PlaceholdersAppend(l[0], sep);
      PlaceholdersAppend(l[0] + sep, Implode(sep, l[1..]));
    }
  }

  /** A statement `bind_param` accepts: one type character per value and per placeholder. */
  predicate WellBound(st: Statement) {
    |st.types| == |st.params| == Placeholders(st.sql)
  }

  /** An INSERT into `table` naming `columns`, with one placeholder per column. */
  function InsertSql(table: string, columns: seq<string>): string {
    var names := Implode(", ", columns);
    var marks := Implode(", ", seq(|columns|, _ => "?"));
    "INSERT INTO " + table + " (" + names + ") VALUES (" + marks + ")"
  }

  lemma InsertPlaceholders(table: string, columns: seq<string>)
    requires '?' !in table
    requires forall i :: 0 <= i < |columns| ==> '?' !in columns[i]
    ensures Placeholders(InsertSql(table, columns)) == |columns|
  {
    var names := Implode(", ", columns);
    var marks := Implode(", ", seq(|columns|, _ => "?"));
    NoPlaceholders(", ");
    forall i | 0 <= i < |columns| ensures Placeholders(columns[i]) == 0 {
      NoPlaceholders(columns[i]);
    }
    NoPlaceholdersImplode(", ", columns);
    PlaceholdersImplode(", ", seq(|columns|, _ => "?"));
    NoPlaceholders("INSERT INTO " + table + " (");
    NoPlaceholders(") VALUES (");
    NoPlaceholders(")");
    PlaceholdersOfFive("INSERT INTO " + table + " (", names, ") VALUES (", marks, ")");
  }

  lemma PlaceholdersOfFive(a: string, b: string, c: string, d: string, e: string)
    ensures Placeholders(a + b + c + d + e)
         == Placeholders(a) + Placeholders(b) + Placeholders(c) + Placeholders(d) + Placeholders(e)
  {
    PlaceholdersAppend(a, b);
    PlaceholdersAppend(a + b, c);
    PlaceholdersAppend(a + b + c, d);
    PlaceholdersAppend(a + b + c + d, e);
  }

  /** PHP's `empty($s)` for a string: "" and "0" are both empty. */
  predicate EmptyString(s: string) {
    s == "" || s == "0"
  }

  /** The first index at or after `i` holding `c`, or `|s|` when there is none. */
  function CharIndex(s: string, c: char, i: nat): (k: nat)
    requires i <= |s|
    ensures i <= k <= |s|
    ensures k < |s| ==> s[k] == c
    ensures forall j :: i <= j < k ==> s[j] != c
    decreases |s| - i
  {
    if i == |s| || s[i] == c then i else CharIndex(s, c, i + 1)
  }

  /** `implode($sep, $l)`: the pieces joined with `sep` between neighbours. */
  function Implode(sep: string, l: seq<string>): (r: string)
    ensures l == [] ==> r == ""
    ensures |l| == 1 ==> r == l[0]
  {
    if l == [] then "" else if |l| == 1 then l[0] else l[0] + sep + Implode(sep, l[1..])
  }

  /** `explode($sep, $s)` for a one-character separator: the maximal pieces between
      separators, at least one (possibly empty) piece. */
  function Explode(sep: char, s: string): (r: seq<string>)
    ensures |r| >= 1
    ensures forall i :: 0 <= i < |r| ==> sep !in r[i]
    decreases |s|
  {
    var k := CharIndex(s, sep, 0);
    if k == |s| then [s] else [s[..k]] + Explode(sep, s[k + 1..])
  }

  /** Joining the pieces of `explode` with the same separator restores the string. */
  lemma {:induction false} ImplodeExplode(sep: char, s: string)
    ensures Implode([sep], Explode(sep, s)) == s
    decreases |s|
  {
    var k := CharIndex(s, sep, 0);
    if k < |s| {
      ImplodeExplode(sep, s[k + 1..]);
      assert s == s[..k] + [sep] + s[k + 1..];
    }
  }

  /** Characters `json_encode` writes as they are: ASCII from the blank up, other than
      the quote, the backslash and the slash. */
  predicate PlainChar(c: char) {
    ' ' <= c < '\U{80}' && c != '"' && c != '\\' && c != '/'
  }

  predicate Plain(s: string) {
    forall i :: 0 <= i < |s| ==> PlainChar(s[i])
  }

  /** The letter of the two-character escape `json_encode` writes for a character, if
      it has one: the quote, the backslash and the slash stand for themselves, and
      backspace, form feed, line feed, carriage return and tab are `b` `f` `n` `r` `t`. */
  function ShortEscape(c: char): (e: Option<char>)
    ensures e.Some? ==> Text.ShortUnescape(e.value) == Some(c)
  {
    if c == '"' || c == '\\' || c == '/' then Some(c)
    else if c == '\U{8}' then Some('b')
    else if c == '\U{C}' then Some('f')
    else if c == '\n' then Some('n')
    else if c == '\r' then Some('r')
    else if c == '\t' then Some('t')
    else None
  }

  /** How `json_encode` writes one character of a string with its default flags: a
      two-character escape where there is one; the other characters below U+0020 and
      every character beyond ASCII as `\u` escapes of their UTF-16 code units in
      lower-case hex, a surrogate pair above U+FFFF; the rest as itself. */
  function EscapeChar(c: char): (r: string)
    ensures |r| >= 1
    ensures PlainChar(c) <==> r == [c]
    ensures r[0] != '"'
  {
    if ShortEscape(c).Some? then ['\\', ShortEscape(c).value]
    else if c < ' ' || '\U{80}' <= c < '\U{10000}' then "\\u" + Text.Hex4(c as int)
    else if c < '\U{80}' then [c]
    else
      var v := c as int - 0x10000;
      "\\u" + Text.Hex4(0xD800 + v / 0x400) + "\\u" + Text.Hex4(0xDC00 + v % 0x400)
  }

  /** The characters `json_encode` writes between the quotes of a string. */
  function EscapeString(s: string): string
    decreases |s|
  {
    if s == [] then "" else EscapeChar(s[0]) + EscapeString(s[1..])
  }

  /** A string of plain characters is written as it is. */
  lemma {:induction false} EscapePlainString(s: string)
    requires Plain(s)
    ensures EscapeString(s) == s
    decreases |s|
  {
    if s != [] {
      assert Plain(s[1..]) by {
        forall i | 0 <= i < |s[1..]| ensures PlainChar(s[1..][i]) { assert s[1..][i] == s[i + 1]; }
      }
      EscapePlainString(s[1..]);
      assert EscapeChar(s[0]) == [s[0]];
      assert [s[0]] + s[1..] == s;
    }
  }

  /** Every character is printable ASCII. */
  predicate Ascii(s: string) {
    forall i :: 0 <= i < |s| ==> ' ' <= s[i] < '\U{80}'
  }

  lemma AsciiJoin(a: string, b: string)
    requires Ascii(a) && Ascii(b)
    ensures Ascii(a + b)
  {
    forall i | 0 <= i < |a + b| ensures ' ' <= (a + b)[i] < '\U{80}' {
      if i >= |a| { assert (a + b)[i] == b[i - |a|]; }
    }
  }

  lemma HexIsAscii(u: nat)
    requires u < 0x10000
    ensures Ascii("\\u" + Text.Hex4(u))
  {
    var h := Text.Hex4(u);
    assert Ascii(h) by {
      forall i | 0 <= i < 4 ensures ' ' <= h[i] < '\U{80}' { }
    }
    AsciiJoin("\\u", h);
  }

  lemma EscapeCharIsAscii(c: char)
    ensures Ascii(EscapeChar(c))
  {
    if ShortEscape(c).Some? {
      var e := ShortEscape(c).value;
      assert '"' <= e <= 't';
      assert EscapeChar(c) == ['\\', e];
    } else if c < ' ' || '\U{80}' <= c < '\U{10000}' {
      HexIsAscii(c as int);
    } else if c < '\U{80}' {
      assert EscapeChar(c) == [c];
    } else {
      var v := c as int - 0x10000;
      HexIsAscii(0xD800 + v / 0x400);
      HexIsAscii(0xDC00 + v % 0x400);
      AsciiJoin("\\u" + Text.Hex4(0xD800 + v / 0x400), "\\u" + Text.Hex4(0xDC00 + v % 0x400));
    }
  }

  /** With its default flags `json_encode` writes only printable ASCII inside a string. */
  lemma {:induction false} EscapeStringIsAscii(s: string)
    ensures Ascii(EscapeString(s))
    decreases |s|
  {
    if s != [] {
      EscapeStringIsAscii(s[1..]);
      EscapeCharIsAscii(s[0]);
      AsciiJoin(EscapeChar(s[0]), EscapeString(s[1..]));
    }
  }

  function Quote(s: string): string {
    "\"" + EscapeString(s) + "\""
  }

  function EncodeItems(l: seq<string>): string {
    if l == [] then "" else if |l| == 1 then Quote(l[0]) else Quote(l[0]) + "," + EncodeItems(l[1..])
  }

  /** `json_encode($l)` of a list of strings, such as `["bold","italic"]`. */
  function EncodeStrings(l: seq<string>): string {
    "[" + EncodeItems(l) + "]"
  }

  /** The encoding of a list is bracketed, and it is `[]` exactly for the empty list. */
  lemma EncodeStringsShape(l: seq<string>)
    ensures var r := EncodeStrings(l);
      && |r| >= 2 && r[0] == '[' && r[|r| - 1] == ']'
      && (r == "[]" <==> l == [])
  {
    var r := EncodeStrings(l);
    if l != [] {
      assert r[1] == '"';
    }
  }

  /** A character read ahead of the rest of a string. */
  function Prepend(c: char, r: Option<(string, string)>): Option<(string, string)> {
    if r.Some? then Some(([c] + r.value.0, r.value.1)) else None
  }

  /** What `json_decode` reads at the start of a string's characters: one character and
      how many characters of the text stand for it, None where it fails: a bare control
      character, an unknown escape, or a surrogate not in a high-low pair. */
  function ReadChar(t: string): (r: Option<(char, nat)>)
    requires t != []
    ensures r.Some? ==> 1 <= r.value.1 <= |t|
  {
    if t[0] == '\\' then
      if |t| >= 2 && Text.ShortUnescape(t[1]).Some? then Some((Text.ShortUnescape(t[1]).value, 2))
      else if |t| >= 6 && t[1] == 'u' && Text.CodeUnit(t[2..6]).Some? then
        var u := Text.CodeUnit(t[2..6]).value;
        if u < 0xD800 || 0xE000 <= u then Some((u as char, 6))
        else if u < 0xDC00 && |t| >= 12 && t[6] == '\\' && t[7] == 'u' && Text.CodeUnit(t[8..12]).Some?
                && 0xDC00 <= Text.CodeUnit(t[8..12]).value < 0xE000 then
          Some(((0x10000 + (u - 0xD800) * 0x400 + (Text.CodeUnit(t[8..12]).value - 0xDC00)) as char, 12))
        else None
      else None
    else if t[0] < ' ' then None
    else Some((t[0], 1))
  }

  /** What `json_decode` reads from the characters after the opening quote of a string:
      its value and the text after the closing quote; None when there is no closing
      quote or a character cannot be read. */
  function ReadString(t: string): (r: Option<(string, string)>)
    ensures r.Some? ==> |r.value.1| < |t|
    decreases |t|
  {
    if t == [] then None
    else if t[0] == '"' then Some(([], t[1..]))
    else match ReadChar(t)
      case None => None
      case Some((c, n)) => Prepend(c, ReadString(t[n..]))
  }

  /** The strings of a JSON array's items, written without blanks: None for any other
      text. */
  function DecodeItems(t: string): Option<seq<string>>
    decreases |t|
  {
    if t == [] || t[0] != '"' then None
    else match ReadString(t[1..])
      case None => None
      case Some((s, rest)) =>
        if rest == [] then Some([s])
        else if rest[0] != ',' then None
        else match DecodeItems(rest[1..]) {
          case None => None
          case Some(more) => Some([s] + more)
        }
  }

  /** `json_decode($s, true)` for a JSON array of strings written without blanks, the
      form `json_encode` gives a list of strings; None for any other text. */
  function DecodeStrings(s: string): Option<seq<string>> {
    if |s| < 2 || s[0] != '[' || s[|s| - 1] != ']' then None
    else if |s| == 2 then Some([])
    else DecodeItems(s[1..|s| - 1])
  }

  lemma ReadShortEscape(e: char, t: string)
    requires Text.ShortUnescape(e).Some?
    ensures ReadChar(['\\', e] + t) == Some((Text.ShortUnescape(e).value, 2))
  {
  }

  lemma ReadUnitEscape(u: nat, t: string)
    requires u < 0xD800 || 0xE000 <= u < 0x10000
    ensures ReadChar("\\u" + Text.Hex4(u) + t) == Some((u as char, 6))
  {
    var e := "\\u" + Text.Hex4(u) + t;
    Text.CodeUnitOfHex4(u);
    assert e[2..6] == Text.Hex4(u);
  }

  lemma ReadPairEscape(c: char, t: string)
    requires c >= '\U{10000}'
    ensures var v := c as int - 0x10000;
      ReadChar("\\u" + Text.Hex4(0xD800 + v / 0x400) + "\\u" + Text.Hex4(0xDC00 + v % 0x400) + t) == Some((c, 12))
  {
    var v := c as int - 0x10000;
    var hi, lo := 0xD800 + v / 0x400, 0xDC00 + v % 0x400;
    var e := "\\u" + Text.Hex4(hi) + "\\u" + Text.Hex4(lo) + t;
    Text.CodeUnitOfHex4(hi);
    Text.CodeUnitOfHex4(lo);
    assert e[2..6] == Text.Hex4(hi);
    assert e[8..12] == Text.Hex4(lo);
    assert 0x10000 + (hi - 0xD800) * 0x400 + (lo - 0xDC00) == c as int;
  }

  /** An escaped character reads back as itself, taking up exactly its escape. */
  lemma ReadEscapeChar(c: char, t: string)
    ensures ReadChar(EscapeChar(c) + t) == Some((c, |EscapeChar(c)|))
  {
    if ShortEscape(c).Some? {
      var e := ShortEscape(c).value;
      assert EscapeChar(c) == ['\\', e];
      ReadShortEscape(e, t);
    } else if c < ' ' || '\U{80}' <= c < '\U{10000}' {
      assert EscapeChar(c) == "\\u" + Text.Hex4(c as int);
      ReadUnitEscape(c as int, t);
    } else if c < '\U{80}' {
      assert EscapeChar(c) == [c];
    } else {
      ReadPairEscape(c, t);
    }
  }

  /** Reading an escaped string and its closing quote gives the string back, and the
      text after the quote. */
  lemma {:induction false} ReadEscapeString(s: string, rest: string)
    ensures ReadString(EscapeString(s) + "\"" + rest) == Some((s, rest))
    decreases |s|
  {
    if s == [] {
      assert EscapeString(s) + "\"" + rest == "\"" + rest;
    } else {
      var e, t := EscapeChar(s[0]), EscapeString(s[1..]) + "\"" + rest;
      assert EscapeString(s) + "\"" + rest == e + t;
      ReadEscapeChar(s[0], t);
      assert (e + t)[0] != '"';
      assert (e + t)[|e|..] == t;
      ReadEscapeString(s[1..], rest);
      assert [s[0]] + s[1..] == s;
    }
  }

  /** An item list starting with an encoded string `s`: one item when nothing follows
      it, otherwise `s` ahead of the items after the comma. */
  lemma DecodeItemsOfQuote(s: string, rest: string)
    ensures rest == [] ==> DecodeItems(Quote(s) + rest) == Some([s])
    ensures rest != [] && rest[0] == ',' && DecodeItems(rest[1..]).Some? ==>
      DecodeItems(Quote(s) + rest) == Some([s] + DecodeItems(rest[1..]).value)
  {
    var t := Quote(s) + rest;
    assert t[1..] == EscapeString(s) + "\"" + rest;
    ReadEscapeString(s, rest);
  }

  lemma {:induction false} DecodeEncodeItems(l: seq<string>)
    requires l != []
    ensures DecodeItems(EncodeItems(l)) == Some(l)
    decreases |l|
  {
    if |l| == 1 {
      assert EncodeItems(l) == Quote(l[0]) + "";
      DecodeItemsOfQuote(l[0], "");
      assert l == [l[0]];
    } else {
      var rest := "," + EncodeItems(l[1..]);
      assert EncodeItems(l) == Quote(l[0]) + rest;
      assert rest[1..] == EncodeItems(l[1..]);
      DecodeEncodeItems(l[1..]);
      DecodeItemsOfQuote(l[0], rest);
      assert [l[0]] + l[1..] == l;
    }
  }

  /** Decoding what `json_encode` wrote gives back the list of strings. */
  lemma DecodeEncode(l: seq<string>)
    ensures DecodeStrings(EncodeStrings(l)) == Some(l)
  {
    var s := EncodeStrings(l);
    if l != [] {
      assert s[1..|s| - 1] == EncodeItems(l);
      DecodeEncodeItems(l);
    }
  }
}

=== FILE: seqs.dfy ===
/** Order-preserving sequence operations shared by the list updates of the model. */
module Seqs {
  import opened Wrappers

  /** `a` can be obtained from `b` by deleting elements, without reordering the rest. */
  predicate IsSubsequence<T(==)>(a: seq<T>, b: seq<T>)
    decreases |b|
  {
    if a == [] then true
    else if b == [] then false
    else if a[0] == b[0] then IsSubsequence(a[1..], b[1..])
    else IsSubsequence(a, b[1..])
  }

  /** No value occurs twice. */
  predicate NoDuplicates<T(==)>(s: seq<T>) {
    forall i, j :: 0 <= i < j < |s| ==> s[i] != s[j]
  }

  /** The elements of `s` that satisfy `keep`, in their original order (JavaScript's
      `Array.prototype.filter`). */
  function Filter<T(==)>(s: seq<T>, keep: T -> bool): (r: seq<T>)
    ensures |r| <= |s|
    ensures forall i :: 0 <= i < |r| ==> r[i] in s && keep(r[i])
    ensures forall i :: 0 <= i < |s| && keep(s[i]) ==> s[i] in r
    ensures IsSubsequence(r, s)
    ensures (forall i :: 0 <= i < |s| ==> keep(s[i])) ==> r == s
    decreases |s|
  {
    if s == [] then []
    else if keep(s[0]) then [s[0]] + Filter(s[1..], keep)
    else
      var rest := Filter(s[1..], keep);
      assert rest != [] ==> rest[0] != s[0];
      rest
  }

  /** Filtering a sequence extended at the end filters the prefix, then the new element. */
  lemma {:induction false} FilterSnoc<T>(s: seq<T>, x: T, keep: T -> bool)
    ensures Filter(s + [x], keep) == Filter(s, keep) + (if keep(x) then [x] else [])
    decreases |s|
  {
    if s != [] {
      assert (s + [x])[1..] == s[1..] + [x];
      FilterSnoc(s[1..], x, keep);
    }
  }

  /** Filtering keeps at least two elements when two positions hold kept elements. */
  lemma {:induction false} FilterKeepsTwo<T>(s: seq<T>, keep: T -> bool, i: nat, j: nat)
    requires i < j < |s| && keep(s[i]) && keep(s[j])
    ensures |Filter(s, keep)| >= 2
    decreases |s|
  {
    assert s[1..][j - 1] == s[j];
    if i == 0 {
      assert s[j] in Filter(s[1..], keep);
    } else {
      assert s[1..][i - 1] == s[i];
      FilterKeepsTwo(s[1..], keep, i - 1, j - 1);
    }
  }

  /** Filtering keeps exactly the one element at `k` when no other position is kept. */
  lemma {:induction false} FilterSingle<T>(s: seq<T>, keep: T -> bool, k: nat)
    requires k < |s| && keep(s[k])
    requires forall i :: 0 <= i < |s| && i != k ==> !keep(s[i])
    ensures Filter(s, keep) == [s[k]]
    decreases |s|
  {
    if k == 0 {
      assert Filter(s[1..], keep) == [] by {
        NoneKept(s[1..], keep);
      }
    } else {
      assert s[1..][k - 1] == s[k];
      FilterSingle(s[1..], keep, k - 1);
    }
  }

  /** Filtering keeps nothing when no element is kept. */
  lemma {:induction false} NoneKept<T>(s: seq<T>, keep: T -> bool)
    requires forall i :: 0 <= i < |s| ==> !keep(s[i])
    ensures Filter(s, keep) == []
    decreases |s|
  {
    if s != [] {
      NoneKept(s[1..], keep);
    }
  }

  /** The index of the first element satisfying `p`, if any (the search behind
      JavaScript's `Array.prototype.find`). */
  function FindFirst<T>(s: seq<T>, p: T -> bool): (r: Option<nat>)
    ensures r.Some? ==> r.value < |s| && p(s[r.value]) && forall j :: 0 <= j < r.value ==> !p(s[j])
    ensures r.None? ==> forall i :: 0 <= i < |s| ==> !p(s[i])
    decreases |s|
  {
    if s == [] then None
    else if p(s[0]) then Some(0)
    else match FindFirst(s[1..], p)
      case None => None
      case Some(k) => Some(k + 1)
  }

  /** A subsequence of a duplicate-free sequence is duplicate-free. */
  lemma {:induction false} SubsequenceNoDuplicates<T>(a: seq<T>, b: seq<T>)
    requires IsSubsequence(a, b) && NoDuplicates(b)
    ensures NoDuplicates(a)
    decreases |b|
  {
    if a != [] && b != [] {
      assert NoDuplicates(b[1..]) by {
        forall i, j | 0 <= i < j < |b[1..]| ensures b[1..][i] != b[1..][j] {
          assert b[1..][i] == b[i + 1] && b[1..][j] == b[j + 1];
        }
      }
      if a[0] == b[0] {
        SubsequenceNoDuplicates(a[1..], b[1..]);
        SubsequenceElements(a[1..], b[1..]);
        forall i, j | 0 <= i < j < |a| ensures a[i] != a[j] {
          if i == 0 {
            assert a[j] == a[1..][j - 1];
            assert a[j] in b[1..];
            var k :| 0 <= k < |b[1..]| && b[1..][k] == a[j];
            assert b[k + 1] == a[j];
          } else {
            assert a[i] == a[1..][i - 1] && a[j] == a[1..][j - 1];
          }
        }
      } else {
        SubsequenceNoDuplicates(a, b[1..]);
      }
    }
  }

  /** Every element of a subsequence is an element of the whole. */
  lemma {:induction false} SubsequenceElements<T>(a: seq<T>, b: seq<T>)
    requires IsSubsequence(a, b)
    ensures forall x :: x in a ==> x in b
    decreases |b|
  {
    if a != [] && b != [] {
      if a[0] == b[0] {
        SubsequenceElements(a[1..], b[1..]);
        forall x | x in a ensures x in b {
          if x != a[0] { assert x in a[1..]; }
        }
      } else {
        SubsequenceElements(a, b[1..]);
      }
    }
  }

  /** A sequence is a subsequence of itself extended at the end. */
  lemma {:induction false} SubsequenceOfExtension<T>(a: seq<T>, x: T)
    ensures IsSubsequence(a, a + [x])
    decreases |a|
  {
    if a != [] {
      assert (a + [x])[1..] == a[1..] + [x];
      SubsequenceOfExtension(a[1..], x);
    }
  }

  lemma {:induction false} SubsequenceReflexive<T>(a: seq<T>)
    ensures IsSubsequence(a, a)
    decreases |a|
  {
    if a != [] {
      SubsequenceReflexive(a[1..]);
    }
  }
}

=== FILE: text.dfy ===
/** Character classes, decimal rendering and the hexadecimal escapes of JSON strings, used
    by the validators, the font strings and both JSON encoders. */
module Text {
  import opened Wrappers

  /** The characters removed by JavaScript's `String.prototype.trim`: the ECMAScript
      WhiteSpace and LineTerminator code points. */
  predicate IsSpace(c: char) {
    c == '\t' || c == '\n' || c == '\U{000B}' || c == '\U{000C}' || c == '\r' || c == ' '
    || c == '\U{00A0}' || c == '\U{1680}' || ('\U{2000}' <= c <= '\U{200A}')
    || c == '\U{2028}' || c == '\U{2029}' || c == '\U{202F}' || c == '\U{205F}'
    || c == '\U{3000}' || c == '\U{FEFF}'
  }

  /** `s.trim()` is the empty string. */
  predicate IsBlank(s: string) {
    forall i :: 0 <= i < |s| ==> IsSpace(s[i])
  }

  predicate IsDigit(c: char) {
    '0' <= c <= '9'
  }

  predicate AllDigits(s: string) {
    forall i :: 0 <= i < |s| ==> IsDigit(s[i])
  }

  /** `p` is a prefix of `s`. */
  predicate HasPrefix(s: string, p: string) {
    |p| <= |s| && s[..|p|] == p
  }

  function DigitChar(d: nat): (c: char)
    requires d < 10
    ensures IsDigit(c) && c as int - '0' as int == d
  {
    ('0' as int + d) as char
  }

  /** The value of a string of decimal digits. */
  function DecimalValue(s: string): nat
    requires AllDigits(s)
  {
    if s == [] then 0 else DecimalValue(s[..|s| - 1]) * 10 + (s[|s| - 1] as int - '0' as int)
  }

  /** The decimal numeral of `n`, as JavaScript renders an integer inside a template
      literal: digits only, no leading zero. */
  function NatToDecimal(n: nat): (r: string)
    ensures |r| >= 1 && AllDigits(r)
    ensures r[0] == '0' ==> r == "0"
  {
    if n < 10 then [DigitChar(n)] else NatToDecimal(n / 10) + [DigitChar(n % 10)]
  }

  /** Reading the numeral back gives the number it was made from. */
  lemma {:induction false} DecimalRoundTrip(n: nat)
    ensures DecimalValue(NatToDecimal(n)) == n
  {
    if n >= 10 {
      var r := NatToDecimal(n);
      assert r[..|r| - 1] == NatToDecimal(n / 10);
      DecimalRoundTrip(n / 10);
    }
  }

  /** The decimal numeral of an integer, with a leading '-' when negative. */
  function IntToDecimal(i: int): (r: string)
    ensures |r| >= 1
    ensures IsDigit(r[0]) <==> i >= 0
    ensures r[0] == '-' <==> i < 0
  {
    if i < 0 then "-" + NatToDecimal(-i) else NatToDecimal(i)
  }

  /** A hexadecimal digit as `JSON.stringify` and `json_encode` write it, in lower case. */
  function HexDigit(d: nat): (c: char)
    requires d < 16
    ensures '0' <= c <= '9' || 'a' <= c <= 'f'
  {
    if d < 10 then ('0' as int + d) as char else ('a' as int + d - 10) as char
  }

  /** The value of a hexadecimal digit of either case. */
  function HexValue(c: char): (v: Option<nat>)
    ensures v.Some? ==> v.value < 16
  {
    if '0' <= c <= '9' then Some(c as int - '0' as int)
    else if 'a' <= c <= 'f' then Some(c as int - 'a' as int + 10)
    else if 'A' <= c <= 'F' then Some(c as int - 'A' as int + 10)
    else None
  }

  lemma HexValueOfDigit(d: nat)
    requires d < 16
    ensures HexValue(HexDigit(d)) == Some(d)
  {
  }

  /** The four lower-case hex digits of a UTF-16 code unit, as a `\u` escape carries them. */
  function Hex4(u: nat): (h: string)
    requires u < 0x10000
    ensures |h| == 4
  {
    var q := u / 16;
    var q2 := q / 16;
    [HexDigit(q2 / 16), HexDigit(q2 % 16), HexDigit(q % 16), HexDigit(u % 16)]
  }

  /** The code unit four hex digits stand for. */
  function CodeUnit(h: string): (r: Option<nat>)
    requires |h| == 4
    ensures r.Some? ==> r.value < 0x10000
  {
    if HexValue(h[0]).Some? && HexValue(h[1]).Some? && HexValue(h[2]).Some? && HexValue(h[3]).Some? then
      Some(((HexValue(h[0]).value * 16 + HexValue(h[1]).value) * 16 + HexValue(h[2]).value) * 16 + HexValue(h[3]).value)
    else None
  }

  /** Four hex digits read back as the code unit they were written from. */
  lemma CodeUnitOfHex4(u: nat)
    requires u < 0x10000
    ensures CodeUnit(Hex4(u)) == Some(u)
  {
    var q := u / 16;
    var q2 := q / 16;
    HexValueOfDigit(q2 / 16);
    HexValueOfDigit(q2 % 16);
    HexValueOfDigit(q % 16);
    HexValueOfDigit(u % 16);
    assert u == q * 16 + u % 16 && q == q2 * 16 + q % 16 && q2 == (q2 / 16) * 16 + q2 % 16;
  }

  /** The character a two-character escape `\e` stands for in a JSON string; `u` starts
      a longer one and anything else is not an escape. */
  function ShortUnescape(e: char): Option<char> {
    if e == '"' || e == '\\' || e == '/' then Some(e)
    else if e == 'b' then Some('\U{8}')
    else if e == 'f' then Some('\U{C}')
    else if e == 'n' then Some('\n')
    else if e == 'r' then Some('\r')
    else if e == 't' then Some('\t')
    else None
  }
}

=== FILE: textpoints_api.dfy ===
/** The text-point endpoint: `add` inserts a point with defaults for the optional
    fields, `update` builds an UPDATE from the fields the request sets, `delete` removes
    one point of one client. Every failure is answered with status 500 and the message. */
module TextPointsApi {
  import opened Wrappers
  import opened Php
  import Seqs

  /** The `textPoint` object of a request, each key as PHP sees it after `json_decode`. */
  datatype PointBody = PointBody(
    id: Field<string>,
    name: Field<string>,
    x: Field<real>,
    y: Field<real>,
    fontFamily: Field<string>,
    fontSize: Field<int>,
    fontStyle: Field<seq<string>>,
    color: Field<string>)

  /** The decoded JSON body; a `null` body behaves as one where every key is missing. */
  datatype Request = Request(clientId: Field<string>, textPoint: Field<PointBody>, textPointId: Field<string>)

  /** The point echoed back by a successful `add`; `fontStyle` is what `json_decode`
      makes of the stored text (None stands for JSON `null`). */
  datatype EchoedPoint = EchoedPoint(
    id: string, name: string, x: real, y: real, fontFamily: string, fontSize: int,
    fontStyle: Option<seq<string>>, color: string)

  datatype Response = Response(status: int, success: bool, message: string, textPoint: Option<EchoedPoint>)

  function Failure(message: string): Response {
    Response(500, false, message, None)
  }

  function Success(message: string): Response {
    Response(200, true, message, None)
  }

  const DefaultFamily := "Arial"
  const DefaultSize := 12
  const DefaultColor := "#000000"

  // ---------------------------------------------------------------- add

  /** The values `add` stores, `fontStyle` already JSON-encoded. */
  datatype Row = Row(
    id: string, name: string, x: real, y: real, fontFamily: string, fontSize: int,
    fontStyle: string, color: string)

  /** The required fields of an added point. */
  predicate Complete(p: PointBody) {
    p.name.Isset() && p.x.Isset() && p.y.Isset()
  }

  /** The row `add` writes: the given values, and the defaults (a fresh `uniqid()`,
      "Arial", 12, an empty style list, black) for the optional fields not set. */
  function AddRow(p: PointBody, freshId: string): (r: Row)
    requires Complete(p)
    ensures r.name == p.name.value && r.x == p.x.value && r.y == p.y.value
    ensures r.id == (if p.id.Isset() then p.id.value else freshId)
    ensures p.fontFamily.Isset() ==> r.fontFamily == p.fontFamily.value
    ensures !p.fontFamily.Isset() ==> r.fontFamily == DefaultFamily
    ensures p.fontSize.Isset() ==> r.fontSize == p.fontSize.value
    ensures !p.fontSize.Isset() ==> r.fontSize == DefaultSize
    ensures p.color.Isset() ==> r.color == p.color.value
    ensures !p.color.Isset() ==> r.color == DefaultColor
    ensures r.fontStyle == EncodeStrings(if p.fontStyle.Isset() then p.fontStyle.value else [])
  {
    Row(
      if p.id.Isset() then p.id.value else freshId,
      p.name.value, p.x.value, p.y.value,
      if p.fontFamily.Isset() then p.fontFamily.value else DefaultFamily,
      if p.fontSize.Isset() then p.fontSize.value else DefaultSize,
      EncodeStrings(if p.fontStyle.Isset() then p.fontStyle.value else []),
      if p.color.Isset() then p.color.value else DefaultColor)
  }

  /** The columns of the insert, in the order of the `VALUES` list. */
  const InsertColumns: seq<string> :=
    ["id", "client_id", "name", "x_position", "y_position", "font_family", "font_size", "font_style", "color"]

  function InsertStatement(clientId: string, r: Row): (st: Statement)
    ensures WellBound(st)
  {
    forall i | 0 <= i < |InsertColumns| ensures '?' !in InsertColumns[i] {
      assert InsertColumns[i] in InsertColumns;
    }
    InsertPlaceholders("text_points", InsertColumns);
    Statement(InsertSql("text_points", InsertColumns), "sssddssss",
      [Str(r.id), Str(clientId), Str(r.name), Real(r.x), Real(r.y), Str(r.fontFamily),
       Int(r.fontSize), Str(r.fontStyle), Str(r.color)])
  }

  /** The point as the response echoes it: the stored values, with the style text
      decoded back into a list. */
  function Echo(r: Row): (e: EchoedPoint)
    ensures e.id == r.id
    ensures e.name == r.name
    ensures e.x == r.x && e.y == r.y
    ensures e.fontFamily == r.fontFamily
    ensures e.fontSize == r.fontSize
    ensures e.fontStyle == DecodeStrings(r.fontStyle)
    ensures e.color == r.color
  {
    EchoedPoint(r.id, r.name, r.x, r.y, r.fontFamily, r.fontSize, DecodeStrings(r.fontStyle), r.color)
  }

  /** The style list `add` echoes is the one it was given, or the empty default. */
  lemma AddEchoesGivenStyle(p: PointBody, freshId: string)
    requires Complete(p)
    ensures Echo(AddRow(p, freshId)).fontStyle == Some(if p.fontStyle.Isset() then p.fontStyle.value else [])
  {
    DecodeEncode(if p.fontStyle.Isset() then p.fontStyle.value else []);
  }

  /** A successful `add` echoes exactly the values it bound into the INSERT: the id, the
      name, the position, the font and the colour it stored for the client named. */
  lemma AddEchoesStoredRow(data: Request, freshId: string, dbError: string)
    requires AddAccepted(data)
    ensures var o := RespondAdd(data, freshId, true, dbError);
      var e := o.resp.textPoint.value;
      && o.resp.success && o.resp.textPoint.Some? && o.issued.Some?
      && o.issued.value.params == [Str(e.id), Str(data.clientId.value), Str(e.name), Real(e.x), Real(e.y),
                                   Str(e.fontFamily), Int(e.fontSize), Str(EncodeStrings(if data.textPoint.value.fontStyle.Isset() then data.textPoint.value.fontStyle.value else [])), Str(e.color)]
  {
  }

  // ---------------------------------------------------------------- update

  /** The columns `update` may set, in the order it tests them. */
  datatype Column = Name | XPosition | YPosition | FontFamily | FontSize | FontStyle | Color

  const Columns: seq<Column> := [Name, XPosition, YPosition, FontFamily, FontSize, FontStyle, Color]

  function ColumnName(c: Column): (name: string)
    ensures '?' !in name
  {
    match c
    case Name => "name"
    case XPosition => "x_position"
    case YPosition => "y_position"
    case FontFamily => "font_family"
    case FontSize => "font_size"
    case FontStyle => "font_style"
    case Color => "color"
  }

  /** The SET entry of a column, such as "name = ?". */
  function Assignment(c: Column): string {
    ColumnName(c) + " = ?"
  }

  lemma AssignmentPlaceholder(c: Column)
    ensures Placeholders(Assignment(c)) == 1
  {
    NoPlaceholders(ColumnName(c));
    NoPlaceholders(" = ");
    assert Assignment(c) == ColumnName(c) + " = " + "?";
    PlaceholdersAppend(ColumnName(c), " = ");
    PlaceholdersAppend(ColumnName(c) + " = ", "?");
  }

  /** The `bind_param` type of a column: doubles for the position, an integer for the
      size, strings for the rest. */
  function TypeChar(c: Column): char {
    match c
    case XPosition => 'd'
    case YPosition => 'd'
    case FontSize => 'i'
    case _ => 's'
  }

  /** `isset` of the request key behind a column. */
  predicate IsSet(p: PointBody, c: Column) {
    match c
    case Name => p.name.Isset()
    case XPosition => p.x.Isset()
    case YPosition => p.y.Isset()
    case FontFamily => p.fontFamily.Isset()
    case FontSize => p.fontSize.Isset()
    case FontStyle => p.fontStyle.Isset()
    case Color => p.color.Isset()
  }

  function Keep(p: PointBody): Column -> bool {
    c => IsSet(p, c)
  }

  /** The value bound for a column; the style list is stored JSON-encoded. */
  function ParamOf(p: PointBody, c: Column): Param {
    if !IsSet(p, c) then NullParam
    else match c
      case Name => Str(p.name.value)
      case XPosition => Real(p.x.value)
      case YPosition => Real(p.y.value)
      case FontFamily => Str(p.fontFamily.value)
      case FontSize => Int(p.fontSize.value)
      case FontStyle => Str(EncodeStrings(p.fontStyle.value))
      case Color => Str(p.color.value)
  }

  /** The columns an update sets: those whose key is set, in the fixed column order. */
  function SetColumns(p: PointBody): (cols: seq<Column>)
    ensures Seqs.IsSubsequence(cols, Columns)
    ensures forall c :: c in cols <==> IsSet(p, c)
  {
    var r := Seqs.Filter(Columns, Keep(p));
    assert forall c :: c in r <==> IsSet(p, c) by {
      forall c ensures c in r <==> IsSet(p, c) {
        var k := TagOf(c);
        assert Keep(p)(c) == IsSet(p, c);
        if c in r {
          var i :| 0 <= i < |r| && r[i] == c;
        }
      }
    }
    r
  }

  /** The position of a column in `Columns`. */
  function TagOf(c: Column): (k: nat)
    ensures k < |Columns| && Columns[k] == c
  {
    match c
    case Name => 0
    case XPosition => 1
    case YPosition => 2
    case FontFamily => 3
    case FontSize => 4
    case FontStyle => 5
    case Color => 6
  }

  /** No column appears twice in `Columns`. */
  lemma ColumnsDistinct()
    ensures Seqs.NoDuplicates(Columns)
  {
    forall i, j | 0 <= i < j < |Columns| ensures Columns[i] != Columns[j] {
      if i == 0 { } else if i == 1 { } else if i == 2 { } else if i == 3 { } else if i == 4 { } else { }
    }
  }

  /** The SET entries of a list of columns. */
  function Assignments(cols: seq<Column>): seq<string> {
    seq(|cols|, i requires 0 <= i < |cols| => Assignment(cols[i]))
  }

  /** The values bound for a list of columns. */
  function Params(p: PointBody, cols: seq<Column>): seq<Param> {
    seq(|cols|, i requires 0 <= i < |cols| => ParamOf(p, cols[i]))
  }

  /** The `bind_param` types of a list of columns. */
  function Types(cols: seq<Column>): string {
    seq(|cols|, i requires 0 <= i < |cols| => TypeChar(cols[i]))
  }

  /** The set columns among the first `k`, in column order. */
  function SetAmong(p: PointBody, k: nat): seq<Column>
    requires k <= |Columns|
  {
    if k == 0 then [] else SetAmong(p, k - 1) + (if IsSet(p, Columns[k - 1]) then [Columns[k - 1]] else [])
  }

  lemma {:induction false} SetAmongFilters(p: PointBody, k: nat)
    requires k <= |Columns|
    ensures SetAmong(p, k) == Seqs.Filter(Columns[..k], Keep(p))
  {
    if k > 0 {
      SetAmongFilters(p, k - 1);
      assert Columns[..k] == Columns[..k - 1] + [Columns[k - 1]];
      Seqs.FilterSnoc(Columns[..k - 1], Columns[k - 1], Keep(p));
    }
  }

  /** Going through every column in turn collects exactly the set ones. */
  lemma SetColumnsAmong(p: PointBody)
    ensures SetColumns(p) == SetAmong(p, |Columns|)
  {
    SetAmongFilters(p, |Columns|);
    assert Columns[..|Columns|] == Columns;
  }

  /** The three accumulators of the builder hold the entries of the columns `cols`. */
  ghost predicate Tracks(p: PointBody, cols: seq<Column>, fields: seq<string>, params: seq<Param>, types: string) {
    fields == Assignments(cols) && params == Params(p, cols) && types == Types(cols)
  }

  /** One `isset` block of the builder: when the key behind column `c` is set, its SET
      entry, its value and its type character are appended. */
  method AppendIfSet(p: PointBody, c: Column, ghost cols: seq<Column>, fields: seq<string>, params: seq<Param>, types: string)
    returns (ghost cols': seq<Column>, fields': seq<string>, params': seq<Param>, types': string)
    requires cols == SetAmong(p, TagOf(c)) && Tracks(p, cols, fields, params, types)
    ensures cols' == SetAmong(p, TagOf(c) + 1) && Tracks(p, cols', fields', params', types')
    ensures |fields'| == |fields| + (if IsSet(p, c) then 1 else 0)
  {
    cols', fields', params', types' := cols, fields, params, types;
    if IsSet(p, c) {
      fields' := fields + [Assignment(c)];
      params' := params + [ParamOf(p, c)];
      types' := types + [TypeChar(c)];
      cols' := cols + [c];
    }
  }

  /** The dynamic SET builder: one assignment, one value and one type character per
      set field, in the fixed column order. */
  method BuildUpdate(p: PointBody) returns (fields: seq<string>, params: seq<Param>, types: string)
    ensures fields == Assignments(SetColumns(p))
    ensures params == Params(p, SetColumns(p))
    ensures types == Types(SetColumns(p))
  {
    fields, params, types := [], [], "";
    ghost var cols: seq<Column> := [];
    cols, fields, params, types := AppendIfSet(p, Name, cols, fields, params, types);
    cols, fields, params, types := AppendIfSet(p, XPosition, cols, fields, params, types);
    cols, fields, params, types := AppendIfSet(p, YPosition, cols, fields, params, types);
    cols, fields, params, types := AppendIfSet(p, FontFamily, cols, fields, params, types);
    cols, fields, params, types := AppendIfSet(p, FontSize, cols, fields, params, types);
    cols, fields, params, types := AppendIfSet(p, FontStyle, cols, fields, params, types);
    cols, fields, params, types := AppendIfSet(p, Color, cols, fields, params, types);
    SetColumnsAmong(p);
  }

  /** The condition shared by `update` and `delete`: the point's id, then its client. */
  const IdAndClient := " WHERE id = " + "?" + " AND client_id = " + "?"

  lemma IdAndClientPlaceholders()
    ensures Placeholders(IdAndClient) == 2
  {
    NoPlaceholders(" WHERE id = ");
    NoPlaceholders(" AND client_id = ");
    PlaceholdersAppend(" WHERE id = ", "?");
    PlaceholdersAppend(" WHERE id = " + "?", " AND client_id = ");
    PlaceholdersAppend(" WHERE id = " + "?" + " AND client_id = ", "?");
  }

  /** The UPDATE issued for a non-empty list of SET entries. */
  function UpdateStatement(fields: seq<string>, params: seq<Param>, types: string, id: string, clientId: string): Statement {
    Statement("UPDATE text_points SET " + Implode(", ", fields) + IdAndClient, types + "ss", params + [Str(id), Str(clientId)])
  }

  lemma UpdatePrefixPlain()
    ensures Placeholders("UPDATE text_points SET ") == 0
  {
    NoPlaceholders("UPDATE text_points SET ");
  }

  /** The UPDATE for any list of columns binds one value per placeholder: the SET
      entries' values, then the point's id and its client's. */
  lemma UpdateWellBound(p: PointBody, cols: seq<Column>, id: string, clientId: string)
    ensures WellBound(UpdateStatement(Assignments(cols), Params(p, cols), Types(cols), id, clientId))
  {
    var fields := Assignments(cols);
    forall i | 0 <= i < |fields| ensures Placeholders(fields[i]) == 1 {
      AssignmentPlaceholder(cols[i]);
    }
    NoPlaceholders(", ");
    PlaceholdersImplode(", ", fields);
    UpdatePrefixPlain();
    IdAndClientPlaceholders();
    PlaceholdersAppend("UPDATE text_points SET ", Implode(", ", fields));
    PlaceholdersAppend("UPDATE text_points SET " + Implode(", ", fields), IdAndClient);
  }

  /** Each bound value has the kind its type character announces: 'd' a number, 'i' an
      integer, 's' a string. */
  predicate Typed(t: char, v: Param) {
    match v
    case Str(_) => t == 's'
    case Real(_) => t == 'd'
    case Int(_) => t == 'i'
    case NullParam => false
  }

  /** The type string of an update announces the kind of every value it binds. */
  lemma UpdateParamsTyped(p: PointBody, cols: seq<Column>, id: string, clientId: string)
    requires forall i :: 0 <= i < |cols| ==> IsSet(p, cols[i])
    ensures var st := UpdateStatement(Assignments(cols), Params(p, cols), Types(cols), id, clientId);
      forall i :: 0 <= i < |st.params| ==> Typed(st.types[i], st.params[i])
  {
    var st := UpdateStatement(Assignments(cols), Params(p, cols), Types(cols), id, clientId);
    forall i | 0 <= i < |st.params| ensures Typed(st.types[i], st.params[i]) {
      if i < |cols| {
        assert st.types[i] == TypeChar(cols[i]) && st.params[i] == ParamOf(p, cols[i]);
      }
    }
  }

  /** An update sets a column exactly when the request sets its key, keeps the fixed
      column order and names no column twice. */
  lemma SetColumnsOrdered(p: PointBody)
    ensures forall c :: c in SetColumns(p) <==> IsSet(p, c)
    ensures Seqs.IsSubsequence(SetColumns(p), Columns)
    ensures Seqs.NoDuplicates(SetColumns(p))
    ensures SetColumns(p) == [] <==> forall c :: !IsSet(p, c)
  {
    ColumnsDistinct();
    Seqs.SubsequenceNoDuplicates(SetColumns(p), Columns);
    if SetColumns(p) != [] {
      assert SetColumns(p)[0] in SetColumns(p);
    }
  }

  /** The DELETE of one point of one client. */
  function DeleteStatement(textPointId: string, clientId: string): (st: Statement)
    ensures WellBound(st)
    ensures st.types == "ss" && st.params == [Str(textPointId), Str(clientId)]
  {
    IdAndClientPlaceholders();
    NoPlaceholders("DELETE FROM text_points");
    PlaceholdersAppend("DELETE FROM text_points", IdAndClient);
    Statement("DELETE FROM text_points" + IdAndClient, "ss", [Str(textPointId), Str(clientId)])
  }

  // ---------------------------------------------------------------- dispatch

  /** `$_GET['action']`, or "" when it is not set. */
  function ActionName(action: Field<string>): string {
    if action.Isset() then action.value else ""
  }

  predicate AddAccepted(data: Request) {
    data.clientId.Isset() && data.textPoint.Isset() && Complete(data.textPoint.value)
  }

  predicate UpdateAccepted(data: Request) {
    data.clientId.Isset() && data.textPoint.Isset() && data.textPoint.value.id.Isset()
  }

  predicate DeleteAccepted(data: Request) {
    data.clientId.Isset() && data.textPointId.Isset()
  }

  /** What the endpoint answers and which statement, if any, it sends to the database. */
  datatype Outcome = Outcome(resp: Response, issued: Option<Statement>)

  function Answer(issued: Statement, executed: bool, done: string, failed: string, dbError: string): Outcome {
    Outcome(if executed then Success(done) else Failure(failed + dbError), Some(issued))
  }

  /** The endpoint's answer to one request. `freshId` is the value `uniqid()` returns, and
      `executed`/`dbError` are the database's answer to the statement issued, if any.
      Failures carry status 500; every statement sent binds one value per placeholder. */
  function Respond(action: Field<string>, data: Request, freshId: string, executed: bool, dbError: string): (o: Outcome)
    ensures o.resp.success <==> o.resp.status == 200
    ensures !o.resp.success ==> o.resp.status == 500 && o.resp.textPoint.None?
    ensures o.issued.Some? ==> WellBound(o.issued.value) && (o.resp.success <==> executed)
    ensures o.issued.None? && o.resp.success ==> o.resp == Success("No fields to update")
    ensures ActionName(action) == "add" ==> o == RespondAdd(data, freshId, executed, dbError)
    ensures ActionName(action) == "update" ==> o == RespondUpdate(data, executed, dbError)
    ensures ActionName(action) == "delete" ==> o == RespondDelete(data, executed, dbError)
    ensures ActionName(action) !in {"add", "update", "delete"} ==> o == Outcome(Failure("Invalid action"), None)
  {
    var name := ActionName(action);
    if name == "add" then RespondAdd(data, freshId, executed, dbError)
    else if name == "update" then RespondUpdate(data, executed, dbError)
    else if name == "delete" then RespondDelete(data, executed, dbError)
    else Outcome(Failure("Invalid action"), None)
  }

  function RespondAdd(data: Request, freshId: string, executed: bool, dbError: string): (o: Outcome)
    ensures !o.resp.success ==> o.resp.status == 500 && o.resp.textPoint.None?
    ensures o.resp.success ==> o.resp.status == 200
    ensures o.issued.Some? <==> AddAccepted(data)
    ensures !data.clientId.Isset() || !data.textPoint.Isset() ==>
      o == Outcome(Failure("Missing required fields (clientId, textPoint)"), None)
    ensures data.clientId.Isset() && data.textPoint.Isset() && !Complete(data.textPoint.value) ==>
      o == Outcome(Failure("Missing required text point fields (name, x, y)"), None)
    ensures o.issued.Some? ==> WellBound(o.issued.value) && (o.resp.success <==> executed)
    ensures AddAccepted(data) ==>
      o.issued == Some(InsertStatement(data.clientId.value, AddRow(data.textPoint.value, freshId)))
    ensures o.resp.success ==> (AddAccepted(data) &&
      o.resp.textPoint == Some(Echo(AddRow(data.textPoint.value, freshId))))
  {
    if !data.clientId.Isset() || !data.textPoint.Isset() then
      Outcome(Failure("Missing required fields (clientId, textPoint)"), None)
    else if !Complete(data.textPoint.value) then
      Outcome(Failure("Missing required text point fields (name, x, y)"), None)
    else
      var row := AddRow(data.textPoint.value, freshId);
      var st := InsertStatement(data.clientId.value, row);
      if executed then Outcome(Response(200, true, "Text point added successfully", Some(Echo(row))), Some(st))
      else Outcome(Failure("Error adding text point: " + dbError), Some(st))
  }

  function RespondUpdate(data: Request, executed: bool, dbError: string): (o: Outcome)
    ensures o.resp.textPoint.None?
    ensures o.resp.success <==> o.resp.status == 200
    ensures o.resp.success || o.resp.status == 500
    ensures o.issued.Some? <==> UpdateAccepted(data) && SetColumns(data.textPoint.value) != []
    ensures !UpdateAccepted(data) ==> o == Outcome(Failure("Missing required fields (clientId, textPoint with id)"), None)
    ensures o.issued.Some? ==> var p := data.textPoint.value; var cols := SetColumns(p);
      o.issued.value == UpdateStatement(Assignments(cols), Params(p, cols), Types(cols), p.id.value, data.clientId.value)
    ensures o.issued.Some? ==> WellBound(o.issued.value) && (o.resp.success <==> executed)
    ensures o.issued.None? && o.resp.success ==> o.resp == Success("No fields to update")
  {
    if !UpdateAccepted(data) then
      Outcome(Failure("Missing required fields (clientId, textPoint with id)"), None)
    else
      var p := data.textPoint.value;
      var cols := SetColumns(p);
      if cols == [] then Outcome(Success("No fields to update"), None)
      else
        UpdateWellBound(p, cols, p.id.value, data.clientId.value);
        Answer(UpdateStatement(Assignments(cols), Params(p, cols), Types(cols), p.id.value, data.clientId.value),
          executed, "Text point updated successfully", "Error updating text point: ", dbError)
  }

  function RespondDelete(data: Request, executed: bool, dbError: string): (o: Outcome)
    ensures o.resp.textPoint.None?
    ensures o.resp.success <==> o.resp.status == 200
    ensures o.resp.success || o.resp.status == 500
    ensures o.issued.Some? <==> DeleteAccepted(data)
    ensures !DeleteAccepted(data) ==> o == Outcome(Failure("Missing required fields (clientId, textPointId)"), None)
    ensures DeleteAccepted(data) ==> o.issued == Some(DeleteStatement(data.textPointId.value, data.clientId.value))
    ensures o.issued.Some? ==> WellBound(o.issued.value) && (o.resp.success <==> executed)
  {
    if !DeleteAccepted(data) then
      Outcome(Failure("Missing required fields (clientId, textPointId)"), None)
    else
      Answer(DeleteStatement(data.textPointId.value, data.clientId.value),
        executed, "Text point deleted successfully", "Error deleting text point: ", dbError)
  }

  /** An update that reaches the database sends the set fields in the code's fixed
      order, each bound with its own type character, followed by the point id and the
      client id. */
  lemma UpdateSendsSetFields(data: Request, executed: bool, dbError: string)
    requires RespondUpdate(data, executed, dbError).issued.Some?
    ensures var st := RespondUpdate(data, executed, dbError).issued.value;
      var p := data.textPoint.value; var cols := SetColumns(p);
      && |st.params| == |cols| + 2 && |st.types| == |st.params|
      && (forall i :: 0 <= i < |cols| ==> IsSet(p, cols[i]) && st.params[i] == ParamOf(p, cols[i]))
      && st.params[|cols|..] == [Str(p.id.value), Str(data.clientId.value)]
      && (forall i :: 0 <= i < |st.params| ==> Typed(st.types[i], st.params[i]))
  {
    var p := data.textPoint.value;
    var cols := SetColumns(p);
    SetColumnsOrdered(p);
    UpdateParamsTyped(p, cols, p.id.value, data.clientId.value);
    var st := RespondUpdate(data, executed, dbError).issued.value;
    assert st.params == Params(p, cols) + [Str(p.id.value), Str(data.clientId.value)];
  }

  /** A delete that reaches the database names the point and its client, in that order,
      both bound as strings; two deletes send the same statement only for the same point
      of the same client. */
  lemma DeleteSendsIds(data: Request, other: Request, executed: bool, dbError: string)
    requires DeleteAccepted(data) && DeleteAccepted(other)
    ensures var st := RespondDelete(data, executed, dbError).issued.value;
      && st.params == [Str(data.textPointId.value), Str(data.clientId.value)]
      && (forall i :: 0 <= i < |st.params| ==> Typed(st.types[i], st.params[i]))
    ensures RespondDelete(data, executed, dbError).issued == RespondDelete(other, executed, dbError).issued <==>
      data.textPointId == other.textPointId && data.clientId == other.clientId
  {
    var st := RespondDelete(data, executed, dbError).issued.value;
    assert st.types == "ss";
  }

  /** The request handler: the `switch` on the action. */
  method Handle(action: Field<string>, data: Request, freshId: string, executed: bool, dbError: string)
    returns (resp: Response, issued: Option<Statement>)
    ensures Outcome(resp, issued) == Respond(action, data, freshId, executed, dbError)
  {
    var name := ActionName(action);
    if name == "add" {
      resp, issued := HandleAdd(data, freshId, executed, dbError);
    } else if name == "update" {
      resp, issued := HandleUpdate(data, executed, dbError);
    } else if name == "delete" {
      resp, issued := HandleDelete(data, executed, dbError);
    } else {
      resp, issued := Failure("Invalid action"), None;
    }
  }

  method HandleAdd(data: Request, freshId: string, executed: bool, dbError: string)
    returns (resp: Response, issued: Option<Statement>)
    ensures Outcome(resp, issued) == RespondAdd(data, freshId, executed, dbError)
  {
    if !data.clientId.Isset() || !data.textPoint.Isset() {
      return Failure("Missing required fields (clientId, textPoint)"), None;
    }
    var p := data.textPoint.value;
    if !p.name.Isset() || !p.x.Isset() || !p.y.Isset() {
      return Failure("Missing required text point fields (name, x, y)"), None;
    }
    var row := AddRow(p, freshId);
    issued := Some(InsertStatement(data.clientId.value, row));
    if executed {
      resp := Response(200, true, "Text point added successfully", Some(Echo(row)));
    } else {
      resp := Failure("Error adding text point: " + dbError);
    }
  }

  /** The `update` case: the builder, then the statement when any field was set. */
  method HandleUpdate(data: Request, executed: bool, dbError: string)
    returns (resp: Response, issued: Option<Statement>)
    ensures Outcome(resp, issued) == RespondUpdate(data, executed, dbError)
  {
    if !data.clientId.Isset() || !data.textPoint.Isset() || !data.textPoint.value.id.Isset() {
      return Failure("Missing required fields (clientId, textPoint with id)"), None;
    }
    var p := data.textPoint.value;
    var fields, params, types := BuildUpdate(p);
    if fields == [] {
      return Success("No fields to update"), None;
    }
    issued := Some(UpdateStatement(fields, params, types, p.id.value, data.clientId.value));
    if executed {
      resp := Success("Text point updated successfully");
    } else {
      resp := Failure("Error updating text point: " + dbError);
    }
  }

  method HandleDelete(data: Request, executed: bool, dbError: string)
    returns (resp: Response, issued: Option<Statement>)
    ensures Outcome(resp, issued) == RespondDelete(data, executed, dbError)
  {
    if !data.clientId.Isset() || !data.textPointId.Isset() {
      return Failure("Missing required fields (clientId, textPointId)"), None;
    }
    issued := Some(DeleteStatement(data.textPointId.value, data.clientId.value));
    if executed {
      resp := Success("Text point deleted successfully");
    } else {
      resp := Failure("Error deleting text point: " + dbError);
    }
  }
}

=== FILE: wrappers.dfy ===
/** An optional value: JavaScript's `undefined`/`null` or a missing lookup result. */
module Wrappers {

  datatype Option<+T> = None | Some(value: T) {

    /** The wrapped value, or `default` when there is none (JavaScript's `x ?? d`). */
    function GetOr(default: T): T {
      match this
      case Some(v) => v
      case None => default
    }
  }
}
